=== FILE: README.md ===
# postguard: reference resolution and schema validation, in Dafny

postguard checks SQL written in `sql` tagged templates against the table
schemas declared in a code base. This project models the core of that
pipeline and proves properties of the model:

- **Template compiler** (`ParseQuery`, parse_query.dfy). It joins the
  literal parts of a template with one positional placeholder per embedded
  expression: `$n`, `SELECT $n` for a `spreadInsert` call, or an
  assignment to the placeholder column for `spreadUpdate`. It also builds
  a source map of `[start, end)` spans, resolves each expression's spread
  type and warns about spreads whose properties cannot be inferred.
- **Tree traversal and node typing** (`PgNodeTypes`, `QueryTraversal`).
  Parse tree nodes are single-key JSON objects (`{"ColumnRef": {...}}`).
  The walk visits them in pre-order, prunes wherever the callback refuses,
  and records the path of ancestors and the parent property key.
- **Reference extractor** (`ParsePgQuery`, `ResolveReferences`). For each
  statement it finds:
  - the nested subqueries, the table references in scope and in the
    whole statement;
  - the column references (plain, qualified, `*`, and those derived from
    spread parameters) and the returned columns.

  It builds the query record of each statement (`instantiateQuery`),
  marking CTE bodies (`exposedAsTable`) and UNION or INSERT-source
  branches (`returnsIntoParentQuery`).
- **Name resolver** (`Resolver`). It resolves an unqualified column to the
  one in-scope table that declares it, expands `*`, and merges in the
  columns that subqueries return into their parent.
- **Schema validator** (`Validation`, `Utils`, `DescriptorMaps`). It
  reports missing tables and columns, incomplete INSERTs, result-shape
  mismatches and duplicate table declarations. It builds synthetic schemas
  for CTEs and validates every subquery of the tree.
- **Diagnostics** (`Diagnostics`). It maps a query-string offset back to a
  line and column of the source file. A collector object holds the
  module-level buffer of reported diagnostics and the flag saying whether
  a collection is running.
- **Runtime serialiser** of the test suite (`SqlTemplate`, sql.dfy). It
  escapes identifiers, numbers parameters `$1`, `$2`, … and serialises
  `raw` and `spreadInsert` expressions.

**Form of the model.**
- Pure code (reduce, filter, map, recursion) is modelled as functions on
  datatypes.
- Code that loops or mutates is modelled as methods:
  - the loop of `parseQuery`;
  - the `check*` loops that report into the diagnostics buffer;
  - the loop of `resolveUnqualifiedColumnRef`;
  - the result-schema loop;
  - the traversal;
  - the `sql` loop and `pushSqlParameter`.

  Each method is proved against a specification function, and the
  properties are proved as lemmas about that function.
- The diagnostics buffer (`Diagnostics.DiagnosticsCollector`) is a class.
  So is the parameter array of the serialiser
  (`SqlTemplate.ParameterValues`).
- A parse tree is a JSON `Value` whose objects keep their keys in
  insertion order. This is because the traversal and `getNodeType` handle
  nodes generically, through `Object.keys`.
- Errors the source throws are `Failure` values inside a `Result`.

**Supporting modules.**
- `QueryTypes` holds the records passed between stages.
- `JsStrings` holds the JavaScript string operations used:
  - `substring`, `lastIndexOf`, `toUpperCase` and `trim`;
  - decimal rendering of numbers.
- `Failures` holds the error values.
- `Wrappers` holds `Option` and `Result`.

## Model

| member | source | states |
|---|---|---|
| PgNodeTypes.GetNodeType | src/pg/pg-node-types.ts:22-36 | Succeeds exactly when the value has one key, and returns that key; otherwise fails with the list of keys. |
| PgNodeTypes.TagMatchesNodeType | src/pg/pg-node-types.ts:4-36 | On a node, `isX(node)` holds exactly when the node's type is `X`, so at most one tag predicate holds. |
| PgNodeTypes.NodeHasItsTag | src/pg/pg-node-types.ts:4-36 | A node built as `{tag: props}` has type `tag`, satisfies its own tag predicate and has `props` as its body. |
| QueryTraversal.CreateQueryNodePath | src/query-parser-utils.ts:23-29 | Succeeds exactly on a single-key node; the path keeps the node, the ancestors and the parent key unchanged, and its type is the node's only key. |
| QueryTraversal.CreateQueryNodeSubpath | src/query-parser-utils.ts:51-58 | A child's ancestors are the parent's ancestors followed by the parent path. |
| QueryTraversal.GetQueryPathParent | src/query-parser-utils.ts:51-58 | The parent of a path is the last of its ancestors, none at the root. |
| QueryTraversal.ThenAssociative | src/query-parser-utils.ts:45-58 | Running walks in sequence, each stopped by the first error, is associative. |
| QueryTraversal.WalkShape | src/query-parser-utils.ts:45-58 | Every path the walk visits is a well-formed node path nested below the starting ancestors, no larger than the root. |
| QueryTraversal.WalkNodeShape | src/query-parser-utils.ts:45-58 | The same shape for the walk of a value that must first be made into a path. |
| QueryTraversal.WalkFieldsShape | src/query-parser-utils.ts:51-58 | The same shape for the walk over a node's properties in key order. |
| QueryTraversal.WalkPropertyShape | src/query-parser-utils.ts:54-58 | The same shape for one property: arrays item by item, objects as nodes, other values skipped. |
| QueryTraversal.WalkItemsShape | src/query-parser-utils.ts:33-43 | The same shape for array items: falsy items skipped, nested arrays flattened. |
| QueryTraversal.WalkIsPreOrder | src/query-parser-utils.ts:45-58 | The walk starts at the root, each other visited path's parent was visited before it, and nothing below a refused path is visited. |
| QueryTraversal.WalkDepth | src/query-parser-utils.ts:51-58 | Every visited path other than the first is deeper than the root. |
| QueryTraversal.AncestorVisited | src/query-parser-utils.ts:45-58 | Every ancestor of a visited path that lies inside the walk was itself visited earlier. |
| QueryTraversal.AncestorsInsideWalk | src/query-parser-utils.ts:51-58 | Below the root, the ancestor at the root's depth is the root itself and the deeper ancestors are smaller than it. |
| QueryTraversal.VisitedBelowRoot | src/query-parser-utils.ts:45-58 | A visited node other than the root lies below it, is smaller, and every ancestor between them was descended into. |
| QueryTraversal.KeepAllowedShift | src/query-parser-utils.ts:48-49 | Below a path the callback allowed, being allowed below it and below its parent coincide. |
| QueryTraversal.KeepAllowedRefused | src/query-parser-utils.ts:48-49 | Below a path the callback refused, nothing is kept. |
| QueryTraversal.PrunedWalk | src/query-parser-utils.ts:45-58 | A pruned walk visits exactly the paths of the full walk that no refused ancestor hides, in the same order, so siblings of a refused node are still visited. |
| QueryTraversal.PrunedWalkNode | src/query-parser-utils.ts:45-58 | The same relation for a walk starting from a value. |
| QueryTraversal.PrunedWalkFields | src/query-parser-utils.ts:51-58 | The same relation for the walk over a node's properties. |
| QueryTraversal.PrunedWalkProperty | src/query-parser-utils.ts:54-58 | The same relation for the walk of one property. |
| QueryTraversal.PrunedWalkItems | src/query-parser-utils.ts:33-43 | The same relation for the walk of array items. |
| QueryTraversal.TraverseSubTree | src/query-parser-utils.ts:45-60 | The method's visits and error are those of the walk specification. |
| QueryTraversal.TraverseArray | src/query-parser-utils.ts:33-43 | The method's visits and error are those of the item walk specification. |
| QueryTraversal.FindParentQueryStatement | src/query-parser-utils.ts:67-74 | Returns the nearest ancestor whose type ends in "Stmt", searching from the parent upwards; `None` exactly when no ancestor is a statement. |
| ParsePgQuery.IsPlaceholderSelect | src/postgres/parse-pg-query.ts:50-56 | Holds exactly for a `SelectStmt` without a FROM clause whose only target's value is a `ParamRef`. |
| ParsePgQuery.IsSubquery | src/postgres/parse-pg-query.ts:58-59 | Holds exactly for a statement node other than a placeholder select. |
| ParsePgQuery.IsReturningIntoParentQuery | src/postgres/parse-pg-query.ts:61-62 | Holds exactly when the parent property is `larg`, `rarg` or `selectStmt`. |
| ParsePgQuery.GetSubqueries | src/postgres/parse-pg-query.ts:64-79 | Succeeds exactly when the walk does. The subqueries found are nodes smaller than the statement, lie below it, are not the statement itself, and have no other subquery between them and the statement. Conversely, every subquery the walk reaches, other than the statement, is found. |
| ParsePgQuery.SubqueriesDoNotNest | src/postgres/parse-pg-query.ts:64-79 | No returned subquery lies inside another returned one. |
| ParsePgQuery.RelationRefsIn | src/postgres/parse-pg-query.ts:87-94 | Keeps exactly the `RangeVar` paths among the visited ones, and no more of them than were visited. |
| ParsePgQuery.RelationRefsInPushes | src/postgres/parse-pg-query.ts:87-94 | The list grows in visit order: after `i + 1` visits it is the list after `i` visits, with the `i`-th path pushed when it is a `RangeVar`. |
| ParsePgQuery.GetTableReferences | src/postgres/parse-pg-query.ts:81-97 | Succeeds exactly when its walk does, with the `RangeVar` paths that walk visits, in visit order. The walk stops at subqueries only when they are excluded; with them included it prunes nothing. |
| ParsePgQuery.ScopedTableReferences | src/postgres/parse-pg-query.ts:81-97 | The scoped list is the full list restricted to relations with no subquery between them and the statement, in the same order. |
| ParsePgQuery.SpreadTypeAt | src/postgres/parse-pg-query.ts:106 | A parameter node reads its spread type by number, a missing entry or a non-parameter reading as none. |
| ParsePgQuery.KeyColumns | src/postgres/parse-pg-query.ts:134-140 | One unqualified reference per property key, in key order, each with the statement's scope. |
| ParsePgQuery.SpreadColumns | src/postgres/parse-pg-query.ts:125-149 | A spread yields one unqualified reference per property key, in key order, with the given scope and path. When its properties are unknown, exactly one unresolvable reference named "" follows, last. |
| ParsePgQuery.KeepNamed | src/postgres/parse-pg-query.ts:115-124 | A resolved reference is kept unless it is none or names the placeholder column. |
| ParsePgQuery.ColumnsAt | src/postgres/parse-pg-query.ts:105-150 | What the callback records at a path is recorded there, and it descends exactly into non-subqueries. |
| ParsePgQuery.CollectColumns | src/postgres/parse-pg-query.ts:99-153 | The callback is applied to the visited paths in order, and the first error stops it. |
| ParsePgQuery.GetReferencedColumns | src/postgres/parse-pg-query.ts:99-153 | Every column recorded lies directly below the statement, at its own path, and never names the placeholder column except for a spread parameter. |
| ParsePgQuery.RecordedAtVisited | src/postgres/parse-pg-query.ts:105-152 | At every path the walk visits, the callback succeeds, and all it records is in the result. |
| ParsePgQuery.GetReferencedColumnsComplete | src/postgres/parse-pg-query.ts:105-150 | At each visited path below the statement, with the scope of `getTableReferences(statement, false)`: a column reference's resolution, a named target's name, and a spread parameter's key columns are all in the result, unless they name the placeholder column. |
| ParsePgQuery.FilterResTargets | src/postgres/parse-pg-query.ts:161-163 | Keeps exactly the `ResTarget` items in order, failing on the first item that is not a node. |
| ParsePgQuery.ResolveTargets | src/postgres/parse-pg-query.ts:165-171 | Each returned column comes from a named target of the statement or from the column reference of an unnamed one. |
| ParsePgQuery.FilterResTargetsAppend | src/postgres/parse-pg-query.ts:161-163 | Filtering a concatenation succeeds exactly when filtering each part does, and gives the parts' results in order. |
| ParsePgQuery.ResolveTargetsAppend | src/postgres/parse-pg-query.ts:165-171 | Resolving a concatenation succeeds exactly when each part does, and gives the parts' columns in order. |
| ParsePgQuery.ResolveTargetsOne | src/postgres/parse-pg-query.ts:166-171 | One target is resolved by `resolveResTarget` at its path under its property key, and kept exactly when that is not null. |
| ParsePgQuery.GetReturningColumns | src/postgres/parse-pg-query.ts:155-172 | Succeeds exactly when the scope and the targets of both lists resolve. The result is the RETURNING list's kept resolutions followed by the select list's, and each comes from a target of the statement. |
| ParsePgQuery.QueryTypeOf | src/postgres/parse-pg-query.ts:186-188 | The node type without one trailing "Stmt", upper-cased. |
| ParsePgQuery.ExposedAsTable | src/postgres/parse-pg-query.ts:190-192 | The CTE's name exactly when the parent node is a `CommonTableExpr`. |
| ParsePgQuery.ReferencedTables | src/postgres/parse-pg-query.ts:176-179 | One table reference per relation of the whole query, with the real name and no alias. |
| ParsePgQuery.InstantiateQuery | src/postgres/parse-pg-query.ts:174-207 | A successful record is at the given path and shares the template's text, file and source map. It has one subquery record per subquery `getSubqueries` finds, in the same order and at the same path. |
| ParsePgQuery.InstantiateAll | src/postgres/parse-pg-query.ts:183-185 | One record per subquery, in order, or the first failure. |
| ParsePgQuery.InstantiateQuerySteps | src/postgres/parse-pg-query.ts:174-207 | A successful instantiation succeeded at every step, and its record holds what each step found. |
| ParsePgQuery.InstantiatedQueryShape | src/postgres/parse-pg-query.ts:174-207 | Its type, flags, columns and subqueries follow from its path. |
| ParsePgQuery.InstantiateQueryWellFormed | src/postgres/parse-pg-query.ts:174-207 | Every record built is well formed, and so are all of its subqueries, recursively. |
| ParsePgQuery.InstantiateAllWellFormed | src/postgres/parse-pg-query.ts:183-185 | Every subquery record built is well formed. |
| ParsePgQuery.FakePath | src/postgres/parse-pg-query.ts:224 | The fake `SelectStmt` used after a syntax error is a valid path with no node below it. |
| ParsePgQuery.FakeWalk | src/postgres/parse-pg-query.ts:224-225 | Any walk of the fake statement visits it alone. |
| ParsePgQuery.FakeSubqueries | src/postgres/parse-pg-query.ts:224-225 | The fake statement has no subqueries. |
| ParsePgQuery.FakeReferencedColumns | src/postgres/parse-pg-query.ts:224-225 | The fake statement references no columns. |
| ParsePgQuery.FakeReturningColumns | src/postgres/parse-pg-query.ts:224-225 | The fake statement returns no columns. |
| ParsePgQuery.FakeQueryInstantiates | src/postgres/parse-pg-query.ts:224-230 | Instantiating the fake statement cannot fail, and finds nothing. |
| ParsePgQuery.ParsePostgresQuery | src/postgres/parse-pg-query.ts:209-237 | After a parse, returns exactly what `instantiateQuery` gives for the first statement's path, and fails when there is no statement or it is not a node. On a syntax error it reports exactly one error diagnostic at the character before the cursor and returns the empty SELECT's record without throwing. |
| ResolveReferences.FilterDuplicateTableRefs | src/pg/resolve-references.ts:6-14 | Keeps the first of every group of equal references, in order. |
| ResolveReferences.FirstOccurrencesElements | src/pg/resolve-references.ts:6-14 | The first occurrences have the same elements as the input and no duplicates. |
| ResolveReferences.DedupeFromFirstOccurrences | src/pg/resolve-references.ts:6-14 | The `reduce` from the references kept so far computes the first occurrences. |
| ResolveReferences.FilterDuplicateTableRefsProperties | src/pg/resolve-references.ts:6-14 | The result has no duplicates and the input's elements; it is the input when that has none, so filtering twice changes nothing. |
| ResolveReferences.FirstOccurrencesOfDistinct | src/pg/resolve-references.ts:6-14 | A sequence without duplicates is its own first occurrences. |
| ResolveReferences.MatchesIdentifier | src/pg/resolve-references.ts:20-25 | An aliased relation matches only its alias, an unaliased one only its name. |
| ResolveReferences.ResolveTableName | src/pg/resolve-references.ts:16-32 | Fails with "no matching table reference" exactly when no relation matches. |
| ResolveReferences.ResolveTableNameFirstMatch | src/pg/resolve-references.ts:20-28 | A resolved name is the real name of the first relation matched. |
| ResolveReferences.TableRefsInScope | src/pg/resolve-references.ts:43-47 | One (alias, real name, path) entry per relation, in order. |
| ResolveReferences.Scope | src/pg/resolve-references.ts:43-49 | The deduplicated scope keeps the first of each equal entry. |
| ResolveReferences.UnqualifiedStarTableAsWritten | src/pg/resolve-references.ts:64-71 | As written: the alias of the only relation, else its name. |
| ResolveReferences.UnqualifiedStarTable | src/pg/resolve-references.ts:64-71 | As intended: always the real name of the only relation. |
| ResolveReferences.UnqualifiedStarTableResolved | src/pg/resolve-references.ts:53-71 | The intended name is what `resolveTableName` gives for the name the source computes, as for `u.*`. |
| ResolveReferences.ResolveColumnReference | src/pg/resolve-references.ts:34-104 | A field count other than one or two fails. The reference's path is the node's, and a qualified reference names a relation in scope by its real name (for an unqualified `*`, the corrected name; see Findings). |
| ResolveReferences.OneFieldColumnReference | src/pg/resolve-references.ts:40-72 | One field: a string gives an unqualified reference, `*` a star reference, anything else none. |
| ResolveReferences.NoColumnReference | src/pg/resolve-references.ts:40-103 | A last field that is neither a string nor a star gives none. |
| ResolveReferences.ColumnNameReference | src/pg/resolve-references.ts:40-52 | A single string field gives an unqualified reference with that name and the deduplicated scope of all relations. |
| ResolveReferences.UnqualifiedStarReference | src/pg/resolve-references.ts:53-71 | A single `*` fails unless exactly one relation is in scope. Then it is a qualified `*` naming that relation's real name: the corrected table, where the source gives the alias (see Findings). |
| ResolveReferences.TwoFieldColumnReference | src/pg/resolve-references.ts:73-94 | Two fields: a non-string first field fails. Otherwise a string or `*` second field gives a qualified reference to that column, whose table is what `resolveTableName` gives for the first field, failing exactly when that fails. |
| ResolveReferences.ResolveColumnReferenceCases | src/pg/resolve-references.ts:34-104 | All the field shapes together: which give none, which an unqualified reference, which a qualified one and with which table, and which fail. |
| ResolveReferences.ResolveResTarget | src/pg/resolve-references.ts:106-128 | A named target gives an unqualified reference to its name. An unnamed target with a column reference value is resolved as that reference. Anything else gives none. |
| Resolver.TableNames | src/resolver.ts:17 | The names of the schemas, in order. |
| Resolver.FindTable | src/resolver.ts:14 | The index of the first schema with the name, or the count of schemas when none has it. |
| Resolver.GetTableByName | src/resolver.ts:13-24 | The first schema with the name, or an error listing the known tables exactly when none has it. |
| Resolver.SchemasNamed | src/resolver.ts:49-56 | Exactly the schemas with the name, in order. |
| Resolver.SchemasWithColumn | src/resolver.ts:59-61 | Exactly the schemas declaring the column, in order. |
| Resolver.UnqualifiedResolution | src/resolver.ts:26-83 | The specification of the resolution: a spread placeholder goes to the only table in scope; any other reference goes to the only in-scope schema declaring the column. |
| Resolver.ResolveUnqualifiedColumnRef | src/resolver.ts:26-83 | The loop collecting the in-scope schemas computes the specification. |
| Resolver.InScopeSchemasDeclared | src/resolver.ts:44-57 | The in-scope schemas are declared schemas of tables in scope. |
| Resolver.InScopeSchemasComplete | src/resolver.ts:44-57 | Every in-scope table that some schema declares is represented; undeclared tables are dropped. |
| Resolver.InScopeSchemasUnique | src/resolver.ts:44-57 | With unique schema names, each in-scope table has at most one in-scope schema. |
| Resolver.SchemasNamedDistinct | src/resolver.ts:49-56 | With unique schema names, at most one schema has a given name. |
| Resolver.UnqualifiedResolutionCases | src/resolver.ts:59-82 | One declaring schema gives the reference with that table and every other field unchanged. None gives the "no table has it" error; several give the ambiguity error listing them. |
| Resolver.SpreadResolutionCases | src/resolver.ts:30-42 | A spread placeholder resolves exactly when one table is in scope and declared, and then to that table; otherwise the matching error. |
| Resolver.ResolveTable | src/resolver.ts:85-106 | The schema of a qualified reference's table, or of the only table in scope of an unqualified one; errors for zero or several tables in scope and for unknown tables. |
| Resolver.ResolveStarColumnRef | src/resolver.ts:108-119 | One qualified reference per declared column, in declared order, each at the selector's path. |
| Resolver.ResolveToConcreteColumnRefs | src/resolver.ts:121-129 | Succeeds exactly when the table of every `*` resolves; the output keeps at least the non-`*` references. |
| Resolver.ConcreteColumnRefsAppend | src/resolver.ts:125-128 | Expanding a concatenation succeeds exactly when each part does, and gives the parts' expansions in order. |
| Resolver.ConcreteColumnRefsAt | src/resolver.ts:125-128 | Each reference is expanded in place: it, or for a `*` the columns `resolveStarColumnRef` gives, sits between the expansions of the references before and after it. |
| Resolver.NonStar | src/resolver.ts:142 | Exactly the references other than `*`, in order. |
| Resolver.ConcreteColumnRefsKeepPlain | src/resolver.ts:121-129 | References without `*` pass through unchanged. |
| Resolver.ConcreteColumnRefsHaveNoStar | src/resolver.ts:121-129 | When no schema declares a column called `*`, the output has no `*`. |
| Resolver.ConcreteColumnRefsIdempotent | src/resolver.ts:121-129 | Expanding twice is expanding once. |
| Resolver.ConcreteColumnRefsKeepOrder | src/resolver.ts:121-129 | The non-`*` references keep their order in the output. |
| Resolver.ResolveReturnedColumn | src/resolver.ts:137 | A column naming its table is kept unchanged; any other is resolved as `resolveUnqualifiedColumnRef` specifies. The result names a table. |
| Resolver.ResolveReturnedColumns | src/resolver.ts:135-138 | Each returned column resolved in its place; succeeds exactly when every one resolves. |
| Resolver.ResolveReturnedColumnsFirstFailure | src/resolver.ts:135-138 | A failure is that of the first column that cannot be resolved. |
| Resolver.ColumnsReturnedBy | src/resolver.ts:132-138 | A subquery that does not return into its parent gives nothing. Otherwise its returned columns with every `*` expanded, each resolved in its place; it fails exactly when either step does. |
| Resolver.ColumnsReturnedBySubqueries | src/resolver.ts:132-139 | Succeeds exactly when every subquery's columns resolve; every column names its table. |
| Resolver.ColumnsReturnedBySubqueriesAppend | src/resolver.ts:132-139 | The columns of a concatenation of subqueries are those of each part, in order, and fail exactly when a part fails. |
| Resolver.ColumnsReturnedBySubqueriesAt | src/resolver.ts:132-139 | The `i`-th subquery's columns sit between those of the subqueries before and after it. |
| Resolver.ResolveColumnReferences | src/resolver.ts:131-145 | The query's own non-`*` references, followed by the resolved columns its returning subqueries give it. |
| Resolver.NoReturningSubqueries | src/resolver.ts:131-145 | Without returning subqueries, the result is the query's own non-`*` references. |
| Resolver.AliasedStarExpansion | src/resolver.ts:85-119 | With the alias as table name, an unqualified `*` over an aliased relation expands only if a schema is called like the alias. With the real name it expands to that table's columns. |
| Resolver.AliasedStarCounterexample | src/resolver.ts:108-119 | `SELECT * FROM users u` with a `users` schema fails to expand as written. |
| Resolver.AliasedStarCorrected | src/resolver.ts:108-119 | The same query expands to the columns of `users` with the real name. |
| Utils.GetAllSubqueries | src/utils.ts:7-12 | Everything listed lies strictly inside the query's tree. |
| Utils.TreeSize | src/utils.ts:7-12 | The number of queries in the subquery tree is at least one. |
| Utils.AllSubqueriesCount | src/utils.ts:7-12 | The result has one entry per query of the tree other than the root. |
| Utils.SubqueryBlocksPrefix | src/utils.ts:8-11 | Each step of the reduce extends the previous result. |
| Utils.SubqueryBlockAt | src/utils.ts:8-11 | The block of the `i`-th direct subquery is contiguous, starts after the trees before it, and is its own subqueries followed by itself. |
| Utils.AllSubqueriesDeepestFirst | src/utils.ts:7-12 | Every entry comes right after all of its own transitive subqueries. |
| Utils.AllSubqueriesAreDescendants | src/utils.ts:7-12 | Everything listed is a descendant of the query. |
| Utils.DescendantsAreListed | src/utils.ts:7-12 | Every descendant is listed. |
| Utils.AllSubqueriesExactly | src/utils.ts:7-12 | The result holds exactly the transitive subqueries, the root excluded. |
| DescriptorMaps.Keys | src/validation.ts:138-139 | `Object.keys` of a descriptor dictionary: the entry keys in order. |
| DescriptorMaps.Lookup | src/validation.ts:138-139 | A lookup finds nothing exactly when the key is absent. |
| DescriptorMaps.Put | src/validation.ts:125 | An assignment keeps an existing key in place and appends a new key last. |
| DescriptorMaps.PutLookup | src/validation.ts:125 | After an assignment the key has the new value and every other key its old one. |
| DescriptorMaps.PutKeepsUniqueKeys | src/validation.ts:125 | An assignment keeps keys unique. |
| DescriptorMaps.MergeKeys | src/validation.ts:120-123 | An object spread holds the keys of both sides, those of the left first and in their order. |
| DescriptorMaps.MergeLookup | src/validation.ts:120-123 | After the spread, a key of the right side has its value, any other key its old one. |
| DescriptorMaps.MergeLookupOutside | src/validation.ts:120-123 | A key absent from the right side keeps its value. |
| DescriptorMaps.MergeLookupInside | src/validation.ts:120-123 | A key of the right side takes the right side's value. |
| DescriptorMaps.MergeKeepsUniqueKeys | src/validation.ts:120-123 | The spread keeps keys unique. |
| Diagnostics.GetLineColumnOffset | src/diagnostics.ts:21-31 | The line offset counts the line breaks before the index. The column offset is the index plus one without a line break, else the distance from the last one. |
| Diagnostics.GetOverallSourceLocation | src/diagnostics.ts:33-46 | From the first location's start to the last one's end, or its start when it has no end. |
| Diagnostics.FirstCoveringSpan | src/diagnostics.ts:49-51 | The first span with `start <= index < end`, or none when no span covers the index. |
| Diagnostics.MapToSourceLocation | src/diagnostics.ts:48-71 | The location inside the first covering span; the whole template's location when none covers the offset. |
| Diagnostics.LocationInSpan | src/diagnostics.ts:56-70 | A location computed inside a span has no end. |
| Diagnostics.LocationOnFirstLine | src/diagnostics.ts:56-70 | The line is the span's plus the line breaks before the offset. On the span's first line, the column is the span's start column plus 1 (template expression) or plus the offset into the span counted from one. |
| Diagnostics.LocationBelowFirstLine | src/diagnostics.ts:56-70 | Below the span's first line, the column is 1 in a template expression and the bare distance from the last line break in literal text. |
| Diagnostics.CreateSourceFileDiagnostic | src/diagnostics.ts:73-85 | A diagnostic of the given type, message, file and location, with no query path. |
| Diagnostics.CreateQueryDiagnostic | src/diagnostics.ts:87-99 | A diagnostic located by mapping the query offset to the source. |
| Diagnostics.CreateQueryNodeDiagnostic | src/diagnostics.ts:101-119 | Located at the node's `location` offset when it has a numeric one, at the whole template otherwise, and carrying the node's path. |
| Diagnostics.FirstError | src/diagnostics.ts:167 | The first diagnostic of type error; none exactly when every diagnostic is a warning. |
| Diagnostics.DiagnosticsCollector.constructor | src/diagnostics.ts:174-175 | The buffer starts empty and no collection is running. |
| Diagnostics.DiagnosticsCollector.Report | src/diagnostics.ts:177-179 | `reportDiagnostic` appends the diagnostic to the buffer and changes nothing else. |
| Diagnostics.DiagnosticsCollector.ReportAll | src/diagnostics.ts:177-179 | Reporting several appends them in order. |
| Diagnostics.DiagnosticsCollector.Start | src/diagnostics.ts:182-189 | Fails while a collection is running, leaving the state alone; otherwise clears the buffer and raises the flag. |
| Diagnostics.DiagnosticsCollector.Finish | src/diagnostics.ts:194-197 | Hands out the buffer, then empties it and lowers the flag. |
| Diagnostics.DiagnosticsCollector.CollectDiagnostics | src/diagnostics.ts:181-198 | Nested collection fails and leaves the state alone. Otherwise it returns exactly what the callback reported, or its error, and leaves the buffer empty and the flag down either way. |
| Diagnostics.DiagnosticsCollector.ThrowDiagnostics | src/diagnostics.ts:165-172 | Throws the first error diagnostic reported; warnings alone never throw. A nested call rethrows and leaves the collector alone. |
| Validation.AssertIntactQualifiedColumnRef | src/validation.ts:28-46 | A reference of a spread of unknown properties always passes. Any other fails exactly when no schema has its table's name or the first such schema lacks the column. |
| Validation.AssertIntactTableRef | src/validation.ts:48-54 | The first schema with the table name, or an error when none has it; a reference without a table name never matches. |
| Validation.ColumnRefError | src/validation.ts:59-64 | The error of one reference: its resolution error when unqualified, else that of the intactness check. |
| Validation.FailingColumnRefs | src/validation.ts:56-71 | Exactly the failing references, in order. |
| Validation.ColumnRefDiagnosticsOnePerFailure | src/validation.ts:56-71 | One error per failing reference, in order, at its node and with its error; passing references report nothing. |
| Validation.CheckColumnRef | src/validation.ts:60-69 | One round of the loop reports what the specification says for that reference. |
| Validation.CheckForBrokenColumnRefs | src/validation.ts:56-71 | The loop reports the specification's diagnostics; a resolver error escapes before any report. |
| Validation.UndeclaredTableRefs | src/validation.ts:73-83 | Exactly the references whose table name no schema has, in order. |
| Validation.TableRefDiagnosticsOnePerUndeclared | src/validation.ts:73-83 | One error per undeclared referenced table, in order. |
| Validation.TableRefDiagnosticsNone | src/validation.ts:73-83 | Nothing is reported exactly when every referenced table is declared. |
| Validation.CheckTableRef | src/validation.ts:75-81 | One round of the loop reports what the specification says for that reference. |
| Validation.CheckForBrokenTableRefs | src/validation.ts:73-83 | The loop reports the specification's diagnostics. |
| Validation.MandatoryColumns | src/validation.ts:92-94 | Exactly the column names without a default, in order. |
| Validation.ColumnNames | src/validation.ts:99-101 | The column names of the references, in order. |
| Validation.MissingColumnNames | src/validation.ts:98-107 | Exactly the names that the other list lacks, in order. |
| Validation.InsertDiagnosticsOnePerMissing | src/validation.ts:98-107 | One error per mandatory column that is missing, in order. |
| Validation.InsertReportsMissing | src/validation.ts:85-108 | For an INSERT without spread placeholders, a column of the first table is reported exactly when it has no default and no column reference or returned column names it. |
| Validation.InsertReportsValue | src/validation.ts:85-108 | Under those conditions, the check reports the diagnostics of the missing columns. |
| Validation.MissingNamesOfQueryColumns | src/validation.ts:96-101 | The query columns the check builds lack exactly the names that no reference and no returned column carries. |
| Validation.CheckInsertColumn | src/validation.ts:99-106 | One round of the loop reports what the specification says for that column. |
| Validation.CheckForIncompleteInsertValues | src/validation.ts:85-108 | The method reports, or throws, what the specification says. It checks nothing for non-INSERTs or when a column is a spread placeholder. |
| Validation.ResultSchemaFailureIsFinal | src/validation.ts:116-129 | Once a prefix of the returned columns fails, the whole fails the same way. |
| Validation.ResolveColumnRefsToTableSchemaDescriptor | src/validation.ts:110-130 | The loop computes the result-schema specification. |
| Validation.ResultSchemaFails | src/validation.ts:116-127 | The result schema fails exactly when a returned `*` names an undeclared table. |
| Validation.ResultSchemaUniqueKeys | src/validation.ts:110-130 | No column name occurs twice in the result schema. |
| Validation.ResultSchemaKeys | src/validation.ts:110-130 | The result schema's names are exactly those the returned columns contribute: a column's own name, or for a `*` every column of its table. |
| Validation.ReturnTypeMismatch | src/validation.ts:132-166 | At most one error, reported exactly when an expected column is missing from the result, and listing exactly the missing ones. |
| Validation.CheckIfQueryMatchesReturnType | src/validation.ts:132-166 | The method reports what the specification says. |
| Validation.InvocationReportsMismatch | src/validation.ts:213-228 | A mismatch is reported exactly when there is a result type, no returned column is a spread placeholder, every returned `*` names a declared table, and some asserted column is contributed by no returned column. |
| Validation.ValidateQueryInvocation | src/validation.ts:213-228 | The method reports, or throws, what the specification says. |
| Validation.ResolveSubqueryToTableSchema | src/validation.ts:168-180 | A schema named like the CTE whose columns are the keys of its returned columns' result schema. |
| Validation.SyntheticSchemaColumns | src/validation.ts:168-180 | The synthetic schema declares, once each, exactly the columns its returned columns contribute, each with a descriptor. |
| Validation.SharedSchemas | src/validation.ts:182-201 | Exactly the schemas whose name another schema shares, in order. |
| Validation.DuplicateDiagnosticsOnePerSharer | src/validation.ts:182-201 | One error per schema whose name is shared, so `n` sharers give `n` errors. |
| Validation.NoDuplicatesIffUniqueNames | src/validation.ts:182-201 | Nothing is reported exactly when no two schemas share a name. |
| Validation.NoSharedIffUniqueNames | src/validation.ts:182-201 | No schema is shared exactly when names are unique. |
| Validation.CheckSchemasForDuplicates | src/validation.ts:182-201 | The loop reports the specification's diagnostics. |
| Validation.Check | src/validation.ts:203-211 | The checked tree has one node per query of the subquery tree. |
| Validation.CheckSubqueriesAt | src/validation.ts:208-210 | The `i`-th subtree is the checked tree of the `i`-th subquery. |
| Validation.ValidateSubquery | src/validation.ts:203-211 | The method reports, or throws, what the tree specification says. |
| Validation.ValidateSubqueries | src/validation.ts:208-210 | The loop over the direct subqueries runs each subtree in turn. |
| Validation.ValidateSubqueryAt | src/validation.ts:208-210 | One step of that loop validates the tree of the `i`-th subquery. |
| Validation.SubtreesFailureIsFinal | src/validation.ts:208-210 | Once a subtree throws, the loop reports nothing more and throws that. |
| Validation.TreeReportsInPreOrder | src/validation.ts:203-211 | The tree's reports are the reports of its nodes in pre-order, stopping at the first throw. |
| Validation.CheckInValidationOrder | src/validation.ts:203-211 | The checked tree in pre-order holds the own checks of the queries in validation order. |
| Validation.ValidateSubqueryInOrder | src/validation.ts:203-211 | Runs the own checks of every query, each before its subqueries and subtrees in order, stopping at the first throw. |
| Validation.ValidationOrderCovers | src/validation.ts:203-211 | The validation order lists the query and each of its transitive subqueries exactly once. |
| Validation.Exposed | src/validation.ts:231-237 | Exactly the subqueries exposed as tables, in order. |
| Validation.ResolveEach | src/validation.ts:231-237 | One schema result per exposed subquery, in order. |
| Validation.CollectOk | src/validation.ts:237 | Collecting succeeds exactly when every result does, with their values in order. |
| Validation.CollectFirstFailure | src/validation.ts:237 | A failed collection gives the first failure. |
| Validation.SyntheticSchemasFail | src/validation.ts:231-237 | The mapping throws exactly when an exposed subquery returns a `*` of an undeclared table. |
| Validation.SyntheticSchemasEach | src/validation.ts:231-237 | Without a throw, one schema per exposed subquery, in order, named after it. |
| Validation.SyntheticSchemasFirstFailure | src/validation.ts:231-237 | A throw is the failure of the first exposed subquery that cannot be resolved. |
| Validation.ValidateQuery | src/validation.ts:230-241 | The method reports, or throws, what the specification says. |
| Validation.ValidateQueryInOrder | src/validation.ts:230-241 | Unless the synthetic schemas throw, every query is checked in validation order, then the result type, all against the declared tables followed by the synthetic schemas. |
| ParseQuery.ResolveSpreadExpressionType | src/babel/parse-query.ts:29-69 | Without type information: the `any` sentinel. With it, a non-spread gets none; a spread call without arguments fails; a spread gets its inferred properties, or the sentinel when they are unknown. |
| ParseQuery.CreateExpressionPlaceholder | src/babel/parse-query.ts:71-79 | Exactly `SELECT $n` for `spreadInsert`, `"<placeholder column>" = $n` for `spreadUpdate` and `$n` otherwise; always ends in `$n`. |
| ParseQuery.ParametersDistinct | src/babel/parse-query.ts:108-113 | Distinct parameter numbers give distinct placeholders. |
| ParseQuery.ResolvedSpreadTypesCorrect | src/babel/parse-query.ts:108-115 | On success the `j`-th type is that of the `j`-th expression; a failure is that of one of the expressions. |
| ParseQuery.SpreadTypesMap | src/babel/parse-query.ts:108-115 | Parameter `n` maps to the spread type of the `n`-th expression, and there are no other keys. |
| ParseQuery.Uninferrable | src/babel/parse-query.ts:115-122 | An expression draws a warning exactly when type information is present and its spread type is the `any` sentinel. |
| ParseQuery.ReportedWarnings | src/babel/parse-query.ts:117-122 | Without type information, nothing is reported. |
| ParseQuery.ReportedWarningsAreSpreadWarnings | src/babel/parse-query.ts:117-122 | Every reported warning is a "spread not inferrable" warning, at most one per expression. |
| ParseQuery.WarningsForUninferrableSpreads | src/babel/parse-query.ts:108-122 | When every expression resolves, a warning is reported exactly for the uninferrable expressions. |
| ParseQuery.WarningsStep | src/babel/parse-query.ts:115-122 | Each round adds a warning exactly for an uninferrable expression. |
| ParseQuery.FailureIsFinal | src/babel/parse-query.ts:108-115 | After the first failure the result stays that failure. |
| ParseQuery.FailureWarnings | src/babel/parse-query.ts:115-122 | After the first failure, no more warnings are reported. |
| ParseQuery.CompiledSpreadTypes | src/babel/parse-query.ts:108-132 | The compiled spread types have a key for each parameter and no other. The template fails exactly when one of its expressions does. |
| ParseQuery.QueryTextPrefix | src/babel/parse-query.ts:89-104 | The text of a prefix of the pieces is a prefix of the query string. |
| ParseQuery.SpansMatchText | src/babel/parse-query.ts:89-104 | Each span holds exactly its piece's text, location and kind; spans come in order, do not overlap, and lie within the string. |
| ParseQuery.SpansTileText | src/babel/parse-query.ts:89-104 | When every piece has a location, the spans are contiguous and tile the whole string from 0 to its length. |
| ParseQuery.PiecesAlternate | src/babel/parse-query.ts:106-130 | The string is text part 0, then each expression's placeholder (parameter `i + 1` for index `i`) followed by the next text part. |
| ParseQuery.SpansStartWithFirstPart | src/babel/parse-query.ts:106 | A located first text part gives a non-empty source map. |
| ParseQuery.AddToQueryString | src/babel/parse-query.ts:89-104 | Appends the piece's text and, when located, its span; the old string is a prefix of the new one. |
| ParseQuery.AddExpression | src/babel/parse-query.ts:108-130 | One round of the loop keeps the compiled state equal to the specification, or stops with the expression's failure. |
| ParseQuery.CompileTemplate | src/babel/parse-query.ts:106-130 | The loop computes the compiled template and reports exactly the warnings of the specification. |
| ParseQuery.ParseQuery | src/babel/parse-query.ts:81-133 | Fails with the compiler's failure, or returns a well-formed record of the compiled query. After a parse, that is exactly what `instantiateQuery` gives for the first statement. On a syntax error it adds exactly one error diagnostic after the warnings. |
| JsStrings.NatToStringRoundTrip | test/sql.ts:42 | Reading the decimal digits of a rendered parameter number back gives the number. |
| JsStrings.NatToStringInjective | src/babel/parse-query.ts:76-78 | Different parameter numbers render as different decimal strings. |
| SqlTemplate.StripQuotes | test/sql.ts:31-33 | Removes one pair of surrounding double quotes when both are present, else nothing. |
| SqlTemplate.EscapeIdentifier | test/sql.ts:30-38 | Fails exactly when the stripped identifier still contains `"`; otherwise it is wrapped in double quotes. |
| SqlTemplate.EscapeIdentifierAccepts | test/sql.ts:30-38 | Accepts a bare identifier without quotes, the same in one pair of quotes, or a lone `"`, and yields a quoted identifier. |
| SqlTemplate.EscapeIdentifierIdempotent | test/sql.ts:30-38 | Escaping an escaped identifier changes nothing. |
| SqlTemplate.Placeholder | test/sql.ts:42 | `$` followed by the position in decimal. |
| SqlTemplate.PlaceholderPosition | test/sql.ts:40-43 | Reading a placeholder back gives its position. |
| SqlTemplate.PlaceholdersDistinct | test/sql.ts:40-43 | Different positions never share a placeholder. |
| SqlTemplate.ParameterValues.constructor | test/sql.ts:70 | The parameter array starts empty. |
| SqlTemplate.ParameterValues.Push | test/sql.ts:40-43 | The value goes last, and its placeholder numbers its 1-based position. |
| SqlTemplate.Placeholders | test/sql.ts:51 | One placeholder per value pushed, numbered on from the values before. |
| SqlTemplate.PlaceholdersAt | test/sql.ts:51 | The `j`-th placeholder names the `j + 1`-th value pushed after the earlier ones. |
| SqlTemplate.RecordValues | test/sql.ts:47-51 | The record's values, in entry order. |
| SqlTemplate.RecordValuesAt | test/sql.ts:47-51 | The `j`-th value is that of the `j`-th entry. |
| SqlTemplate.EscapedColumns | test/sql.ts:49 | One escaped name per entry, or the first key's error. |
| SqlTemplate.EscapedColumnsEach | test/sql.ts:47-49 | The columns escape exactly when every key does, one escaped name per entry in order. |
| SqlTemplate.EscapedColumnsFirstFailure | test/sql.ts:47-49 | A throw is the error of the first key that cannot be escaped. |
| SqlTemplate.SerializedTextFails | test/sql.ts:45-66 | The serialisation throws exactly for an unknown subtype and for an insert spread with a key that cannot be escaped. |
| SqlTemplate.InsertSpreadText | test/sql.ts:45-52 | An insert spread gives `(cols) VALUES (params)`, with one escaped column and one placeholder per entry in the same order, numbered on from the earlier values. |
| SqlTemplate.PushRecordValues | test/sql.ts:51 | Pushes the record's values in order and returns their placeholders. |
| SqlTemplate.SerializeSpecialExpression | test/sql.ts:45-58 | Returns the specification's text and pushes the expression's values; raw text is verbatim and pushes nothing. |
| SqlTemplate.SerializeTemplateExpression | test/sql.ts:60-66 | A plain value is pushed and replaced by its placeholder; a special expression is serialised. |
| SqlTemplate.SerializedTextFailure | test/sql.ts:45-66 | The error thrown does not depend on the values pushed before. |
| SqlTemplate.FirstFailureIsFinal | test/sql.ts:72-77 | Once a serialisation has thrown, later values change nothing. |
| SqlTemplate.SqlStep | test/sql.ts:72-77 | One turn of the loop appends the value's serialisation and the text after it. |
| SqlTemplate.Sql | test/sql.ts:68-86 | The loop computes the specification: the text and the values, or the first error. |
| SqlTemplate.FirstFailureNone | test/sql.ts:72-77 | No failure among the first `n` values means each of them serialises. |
| SqlTemplate.SqlFails | test/sql.ts:68-86 | `sql` throws exactly when some value cannot be serialised. |
| SqlTemplate.FirstFailureAt | test/sql.ts:72-77 | The first failure is that of a value all of whose predecessors serialise. |
| SqlTemplate.SqlFirstFailure | test/sql.ts:68-86 | The error thrown is that of the first value that cannot be serialised. |
| SqlTemplate.PushedValuesCount | test/sql.ts:40-66 | The values pushed number one per plain value plus one per insert-spread entry. |
| SqlTemplate.PushedValuesAt | test/sql.ts:72-77 | Each value's pushed values sit right after those of the values before it. |
| SqlTemplate.SqlValuesCount | test/sql.ts:60-66 | Without a throw, the query holds one value per plain value plus one per insert-spread entry. |
| SqlTemplate.SqlBindsPlaceholders | test/sql.ts:68-86 | Without a throw, each value's placeholders `$k+1`, `$k+2`, … name exactly the values it pushed. |
| SqlTemplate.PlainValuesText | test/sql.ts:68-77 | With plain values only, the text is `texts[0]`, `$1`, `texts[1]`, …, a missing text counting as empty. |
| SqlTemplate.SqlPlainValues | test/sql.ts:68-86 | A template of plain values only passes them on in order, numbered `$1`, `$2`, … |

## Left out

- Babel and TypeScript lookups (src/babel/babel-resolver.ts, src/typescript/). Each template expression instead carries, as input, how it is written (plain, `spreadInsert` call or `spreadUpdate` call), its callee name, its argument count and the property names TypeScript infers for it (`None` when it cannot). A `spreadAnd` call counts as a plain expression.
- `placeholderColumnName` is defined in a module that is not part of this model. `QueryTypes.PlaceholderColumnName` is one fixed string whose value is left open.
- The SQL grammar parser (`pg-query-parser`) is external. Its result is an input: the statements as JSON values, or a syntax error with its cursor position.
- src/postgres/query-traversal.ts is not part of this model. The traversal of src/query-parser-utils.ts is used instead, extended with the parent property key that `isReturningIntoParentQuery` reads.
- ParsePgQuery.GetSubqueries, ParsePgQuery.GetReferencedColumns: these, and the other extractor functions, require a path whose type is its node's only key (`ValidPath`). `createQueryNodePath` guarantees that for every path the source builds.
- Resolver.ConcreteColumnRefsHaveNoStar, Resolver.ConcreteColumnRefsIdempotent: both assume that no schema declares a column literally named `*`. Without that, a declared `*` column would survive expansion.
- Resolver.InScopeSchemasUnique: assumes schema names are unique. With duplicate declarations, `resolveUnqualifiedColumnRef` keeps every schema of a name. The model does the same, and duplicates are reported separately.
- Equality by identity (`node === ...`) and by `JSON.stringify` is modelled as structural equality of values. On the records involved, these coincide.
- `toUpperCase` and `trim` are restricted to ASCII letters and to spaces, tabs and line breaks.
- A missing list in a parse tree node (`targetList`, `returningList`, `fields`) is read as an empty list.
- JavaScript puts integer-like object keys first in ascending order. The descriptor dictionaries keep plain insertion order instead.
- Diagnostics.MapToSourceLocation: requires a non-empty source map, as `getOverallSourceLocation` reads its first entry. Every template has at least its first text part.
- Column type compatibility is not checked, as the source leaves it as a TODO at src/validation.ts:165.
- DescriptorMaps.Put: the result schema of a returned column that repeats an earlier name keeps the earlier position. The model states which names the result schema has, not which descriptor a repeated name ends with.
- Validation.ResolveSubqueryToTableSchema: the synthetic schema's `loc` is absent, as the parse tree node has none.
- Validation.SyntheticSchemas: CTE schemas are resolved against the declared tables only, as in the source. A CTE reading another CTE therefore fails there.
- Error messages are `Failure` constructors carrying the data the message is built from, not the formatted text.
- Formatting and printing of diagnostics, code frames and the `process.on("exit")` hook (src/diagnostics.ts:200-207) are not modelled.
- SqlTemplate.Sql: the debug logging at test/sql.ts:84 is left out. `Sql` requires at least one text part, which every tagged template has.
- SqlTemplate.Raw and SqlTemplate.SpreadInsert build the special expressions. The `type` and `subtype` symbols are constructors of `Expression`. The parameter values are of an opaque type `V`.
- ResolveReferences.ResolveColumnReference: an unqualified `*` over the one relation in scope takes that relation's real name, the corrected behaviour in "## Findings". The resolver, the validator and the CTE schemas all run on this corrected reference. The model therefore does not reproduce the "No table named u" failure the source reports for `SELECT * FROM users u`; only UnqualifiedStarTableAsWritten and Resolver.AliasedStarCounterexample model the alias the source computes.
- ResolveReferences.UnqualifiedStarReference: states the corrected table, the relation's real name, not the alias that src/pg/resolve-references.ts:66-68 gives (see the line above).
- Diagnostics.CreateQueryNodeDiagnostic: a `location` that is present but not a number is treated like a missing one, since `mapToSourceLocation` needs a number. A node whose body is `null` also gets the whole-template location, where the `in` test at src/diagnostics.ts:107 throws a TypeError; pg-query-parser never produces such a node.
- QueryTraversal.WalkNode, QueryTraversal.WalkItems: three inputs that pg-query-parser never produces are handled differently.
  - A one-character string item of an array is walked by the source as a node of type "0", since `Object.keys` of such a string is `["0"]`; the model fails on it with `NotANode`.
  - A node whose body is `null` is walked with no children, where src/query-parser-utils.ts:51 throws a TypeError.
  - A node whose body is an array, such as `{"X": [{"Y": {}}]}`, is walked with no children. The source walks the array's indices as keys (src/query-parser-utils.ts:51-58) and so visits `{"Y": {}}`.
- ResolveReferences.ResolveResTarget: an unnamed target without a `val` gives no reference, where `isColumnRef(val)` at src/pg/resolve-references.ts:123 throws a TypeError on `undefined`; pg-query-parser always sets `val` on such a target.
- Strings are sequences of Unicode scalar values (Dafny's `char`), where JavaScript counts UTF-16 code units. Lengths, span indices (src/babel/parse-query.ts:98-99), offsets and columns (src/diagnostics.ts:21-31) therefore differ after any character outside the Basic Multilingual Plane. In ``sql`SELECT '😀' AS e, ${x}` ``, for example, the `$1` span starts at 18 in the source and at 17 in the model. This affects ParseQuery.AddToQueryString, ParseQuery.SpansMatchText, Diagnostics.GetLineColumnOffset and Diagnostics.MapToSourceLocation.
- The `!spreadType` disjunct at src/postgres/parse-pg-query.ts:142 is not modelled separately. Line 125 only reaches that code for a spread type that is present.

## Findings

| source | as written | input that shows it | evidently intended | confidence | as-written member | corrected member |
|---|---|---|---|---|---|---|
| src/pg/resolve-references.ts:53-71 | An unqualified `*` over a single aliased relation gets the alias as its table name, so `resolveStarColumnRef` looks up a table called like the alias and fails with "No table named u". | `SELECT * FROM users u` with a schema `users(id, name)` | The relation's real name, as `resolveTableName` gives for the qualified `u.*`, so that the `*` expands to `id, name`. | not executed | ResolveReferences.UnqualifiedStarTableAsWritten, Resolver.AliasedStarCounterexample | ResolveReferences.UnqualifiedStarTable, ResolveReferences.UnqualifiedStarTableResolved, Resolver.AliasedStarCorrected |

=== FILE: descriptors.dfy ===
/**
 * Column descriptor dictionaries (`TableSchemaDescriptor`), written as the
 * sequence of their entries in insertion order: an assignment to a present
 * key keeps its place, a new key goes last, as for JavaScript objects.
 */
module DescriptorMaps {

  import opened Wrappers
  import opened QueryTypes

  /** `Object.keys(descriptors)` */
  function Keys(descriptors: Descriptors): (keys: seq<string>)
    ensures |keys| == |descriptors|
    ensures forall i | 0 <= i < |descriptors| :: keys[i] == descriptors[i].0
  {
    if descriptors == [] then [] else [descriptors[0].0] + Keys(descriptors[1..])
  }

  /** No key occurs twice. */
  predicate UniqueKeys(descriptors: Descriptors) {
    forall i, j | 0 <= i < j < |descriptors| :: descriptors[i].0 != descriptors[j].0
  }

  /** `descriptors[key]`: the value of the first entry with that key. */
  function Lookup(descriptors: Descriptors, key: string): (r: Option<ColumnDescriptor>)
    ensures r.None? <==> key !in Keys(descriptors)
  {
    if descriptors == [] then None
    else if descriptors[0].0 == key then Some(descriptors[0].1)
    else Lookup(descriptors[1..], key)
  }

  /** `descriptors[key] = value` */
  function Put(descriptors: Descriptors, key: string, value: ColumnDescriptor): (r: Descriptors)
    ensures Keys(r) == if key in Keys(descriptors) then Keys(descriptors) else Keys(descriptors) + [key]
  {
    if descriptors == [] then [(key, value)]
    else if descriptors[0].0 == key then [(key, value)] + descriptors[1..]
    else
      var rest := Put(descriptors[1..], key, value);
      assert Keys([descriptors[0]] + rest) == [descriptors[0].0] + Keys(rest);
      [descriptors[0]] + rest
  }

  /** After the assignment, the key has the new value and every other key its old one. */
  lemma {:induction false} PutLookup(descriptors: Descriptors, key: string, value: ColumnDescriptor, k: string)
    ensures Lookup(Put(descriptors, key, value), k) == if k == key then Some(value) else Lookup(descriptors, k)
  {
    if descriptors != [] && descriptors[0].0 != key {
      PutLookup(descriptors[1..], key, value, k);
    }
  }

  lemma {:induction false} PutKeepsUniqueKeys(descriptors: Descriptors, key: string, value: ColumnDescriptor)
    requires UniqueKeys(descriptors)
    ensures UniqueKeys(Put(descriptors, key, value))
  {
    var r := Put(descriptors, key, value);
    forall i, j | 0 <= i < j < |r| ensures r[i].0 != r[j].0 {
      assert Keys(r)[i] == r[i].0 && Keys(r)[j] == r[j].0;
      if j < |descriptors| {
        assert Keys(r)[i] == Keys(descriptors)[i] && Keys(r)[j] == Keys(descriptors)[j];
      } else {
        assert Keys(r)[i] == Keys(descriptors)[i];
      }
    }
  }

  /** `{...descriptors, ...other}`: the entries of `other` assigned in turn. */
  function Merge(descriptors: Descriptors, other: Descriptors): (r: Descriptors)
    decreases |other|
  {
    if other == [] then descriptors
    else
      var last := other[|other| - 1];
      Put(Merge(descriptors, other[..|other| - 1]), last.0, last.1)
  }

  /** The merge holds the keys of both sides, those of `descriptors` first and in their order. */
  lemma {:induction false} MergeKeys(descriptors: Descriptors, other: Descriptors)
    ensures forall k :: k in Keys(Merge(descriptors, other)) <==> k in Keys(descriptors) || k in Keys(other)
    ensures |descriptors| <= |Merge(descriptors, other)|
    ensures Keys(Merge(descriptors, other))[..|descriptors|] == Keys(descriptors)
    decreases |other|
  {
    if other != [] {
      var init := other[..|other| - 1];
      var last := other[|other| - 1];
      MergeKeys(descriptors, init);
      var before := Keys(Merge(descriptors, init));
      var after := Keys(Merge(descriptors, other));
      assert after == if last.0 in before then before else before + [last.0];
      KeysOfInit(other);
      assert after[..|descriptors|] == before[..|descriptors|] by {
        if last.0 !in before {
          assert (before + [last.0])[..|descriptors|] == before[..|descriptors|];
        }
      }
      assert forall k :: k in after <==> k in before || k == last.0;
    }
  }

  lemma {:induction false} KeysOfInit(descriptors: Descriptors)
    requires descriptors != []
    ensures Keys(descriptors) == Keys(descriptors[..|descriptors| - 1]) + [descriptors[|descriptors| - 1].0]
  {
    if |descriptors| > 1 {
      var rest := descriptors[1..];
      var init := descriptors[..|descriptors| - 1];
      KeysOfInit(rest);
      assert rest[..|rest| - 1] == init[1..];
    }
  }

  /** A key `other` lacks keeps its value; with unique keys in `other`, the others take `other`'s. */
  lemma {:induction false} MergeLookup(descriptors: Descriptors, other: Descriptors, k: string)
    ensures k !in Keys(other) ==> Lookup(Merge(descriptors, other), k) == Lookup(descriptors, k)
    ensures UniqueKeys(other) && k in Keys(other) ==> Lookup(Merge(descriptors, other), k) == Lookup(other, k)
    decreases |other|
  {
    if k in Keys(other) {
      if UniqueKeys(other) {
        MergeLookupInside(descriptors, other, k);
      }
    } else {
      MergeLookupOutside(descriptors, other, k);
    }
  }

  lemma {:induction false} MergeLookupOutside(descriptors: Descriptors, other: Descriptors, k: string)
    requires k !in Keys(other)
    ensures Lookup(Merge(descriptors, other), k) == Lookup(descriptors, k)
    decreases |other|
  {
    if other != [] {
      var init := other[..|other| - 1];
      var last := other[|other| - 1];
      KeysOfInit(other);
      MergeLookupOutside(descriptors, init, k);
      PutLookup(Merge(descriptors, init), last.0, last.1, k);
    }
  }

  lemma {:induction false} MergeLookupInside(descriptors: Descriptors, other: Descriptors, k: string)
    requires UniqueKeys(other) && k in Keys(other)
    ensures Lookup(Merge(descriptors, other), k) == Lookup(other, k)
    decreases |other|
  {
    var init := other[..|other| - 1];
    var last := other[|other| - 1];
    KeysOfInit(other);
    PutLookup(Merge(descriptors, init), last.0, last.1, k);
    LookupLast(other, k);
    if k != last.0 {
      UniqueKeysOfInit(other);
      MergeLookupInside(descriptors, init, k);
    }
  }

  lemma UniqueKeysOfInit(descriptors: Descriptors)
    requires descriptors != [] && UniqueKeys(descriptors)
    ensures UniqueKeys(descriptors[..|descriptors| - 1])
  {
    var init := descriptors[..|descriptors| - 1];
    assert forall i | 0 <= i < |init| :: init[i] == descriptors[i];
  }

  lemma {:induction false} MergeKeepsUniqueKeys(descriptors: Descriptors, other: Descriptors)
    requires UniqueKeys(descriptors)
    ensures UniqueKeys(Merge(descriptors, other))
    decreases |other|
  {
    if other != [] {
      var last := other[|other| - 1];
      MergeKeepsUniqueKeys(descriptors, other[..|other| - 1]);
      PutKeepsUniqueKeys(Merge(descriptors, other[..|other| - 1]), last.0, last.1);
    }
  }

  /** With unique keys, a lookup in all but the last entry agrees with one in all of them. */
  lemma LookupLast(descriptors: Descriptors, key: string)
    requires descriptors != [] && UniqueKeys(descriptors)
    ensures var init := descriptors[..|descriptors| - 1];
            var last := descriptors[|descriptors| - 1];
            Lookup(descriptors, key) == if key == last.0 then Some(last.1) else Lookup(init, key)
  {
    var init := descriptors[..|descriptors| - 1];
    var last := descriptors[|descriptors| - 1];
    if key == last.0 {
      assert key !in Keys(init) by {
        forall i | 0 <= i < |init| ensures Keys(init)[i] != key {
          assert Keys(init)[i] == descriptors[i].0;
        }
      }
      LookupFirst(descriptors, key, |descriptors| - 1);
    } else if key in Keys(init) {
      var i :| 0 <= i < |init| && Keys(init)[i] == key;
      LookupFirst(descriptors, key, i);
      LookupFirst(init, key, i);
    } else {
      assert key !in Keys(descriptors) by {
        forall i | 0 <= i < |descriptors| ensures Keys(descriptors)[i] != key {
          if i < |init| {
            assert Keys(init)[i] == descriptors[i].0;
          }
        }
      }
    }
  }

  /** With unique keys, the lookup finds the only entry with that key. */
  lemma {:induction false} LookupFirst(descriptors: Descriptors, key: string, i: nat)
    requires UniqueKeys(descriptors) && i < |descriptors| && descriptors[i].0 == key
    ensures Lookup(descriptors, key) == Some(descriptors[i].1)
  {
    if i > 0 {
      assert UniqueKeys(descriptors[1..]) by {
        forall a, b | 0 <= a < b < |descriptors[1..]| ensures descriptors[1..][a].0 != descriptors[1..][b].0 {
          assert descriptors[1..][a] == descriptors[a + 1] && descriptors[1..][b] == descriptors[b + 1];
        }
      }
      assert descriptors[0].0 != key;
      LookupFirst(descriptors[1..], key, i - 1);
    }
  }
}

=== FILE: diagnostics.dfy ===
/**
 * Diagnostics: mapping an offset in the compiled query string back to a line
 * and column of the source file through the query's source map, building
 * diagnostic records, and the process-wide buffer diagnostics are reported
 * into while a collection is running.
 */
module Diagnostics {

  import opened Wrappers
  import opened Failures
  import opened JsStrings
  import opened PgNodeTypes
  import opened QueryTraversal
  import opened QueryTypes

  datatype DiagnosticType = Error | Warning

  datatype Diagnostic = Diagnostic(
    message: Failure,
    queryPath: Option<Path>,
    sourceFile: SourceFile,
    sourceLocation: Option<SourceLocation>,
    diagnosticType: DiagnosticType)

  /** What a sequence of steps reported, and the error that stopped it, if any. */
  datatype Reports = Reports(diagnostics: seq<Diagnostic>, failure: Option<Failure>)

  const NoReports := Reports([], None)

  /** Runs `rest` after `first`, unless `first` threw. */
  function AndThen(first: Reports, rest: Reports): Reports {
    if first.failure.Some? then first else Reports(first.diagnostics + rest.diagnostics, rest.failure)
  }

  /** Reports of a step that either threw before reporting anything or reported `ds`. */
  function Reporting(r: Result<seq<Diagnostic>>): Reports {
    match r
    case Ok(ds) => Reports(ds, None)
    case Err(f) => Reports([], Some(f))
  }

  datatype LineColumnOffset = LineColumnOffset(columnOffset: int, lineOffset: nat)

  /**
   * `getLineColumnOffset`: the number of line breaks before `startIndex`, and
   * the distance from the last of them (or from just before the text start).
   */
  function GetLineColumnOffset(text: string, startIndex: int): (r: LineColumnOffset)
    ensures 0 <= startIndex <= |text| ==> r.lineOffset == CountChar(text[..startIndex], '\n')
    ensures 0 <= startIndex <= |text| && '\n' !in text[..startIndex] ==> r.columnOffset == startIndex + 1
    ensures 0 <= startIndex <= |text| && '\n' in text[..startIndex] ==>
              1 <= r.columnOffset <= startIndex
              && text[startIndex - r.columnOffset] == '\n'
              && '\n' !in text[startIndex - r.columnOffset + 1..startIndex]
  {
    var precedingText := Substring(text, 0, startIndex);
    LineColumnOffset(startIndex - LastIndexOf(precedingText, '\n'), CountChar(precedingText, '\n'))
  }

  /** From the start of the first location to the end (or start) of the last one. */
  function GetOverallSourceLocation(locations: seq<SourceLocation>): (r: SourceLocation)
    requires |locations| > 0
    ensures r.start == locations[0].start
    ensures r.end.Some?
    ensures r.end.value == (if locations[|locations| - 1].end.Some? then locations[|locations| - 1].end.value
                            else locations[|locations| - 1].start)
  {
    var first := locations[0];
    var last := locations[|locations| - 1];
    SourceLocation(first.start, Some(if last.end.Some? then last.end.value else last.start))
  }

  predicate Covers(span: QuerySourceMapSpan, stringIndex: int) {
    span.queryStartIndex <= stringIndex < span.queryEndIndex
  }

  /** The index of the first span covering `stringIndex`. */
  function FirstCoveringSpan(spans: seq<QuerySourceMapSpan>, stringIndex: int): (r: Option<nat>)
    ensures r.Some? ==> r.value < |spans| && Covers(spans[r.value], stringIndex)
                        && forall k :: 0 <= k < r.value ==> !Covers(spans[k], stringIndex)
    ensures r.None? ==> forall k :: 0 <= k < |spans| ==> !Covers(spans[k], stringIndex)
  {
    if spans == [] then None
    else if Covers(spans[0], stringIndex) then Some(0)
    else
      match FirstCoveringSpan(spans[1..], stringIndex)
      case None => None
      case Some(k) => Some(k + 1)
  }

  function SpanLocations(spans: seq<QuerySourceMapSpan>): (r: seq<SourceLocation>)
    ensures |r| == |spans|
    ensures forall k :: 0 <= k < |spans| ==> r[k] == spans[k].sourceLocation
  {
    if spans == [] then [] else [spans[0].sourceLocation] + SpanLocations(spans[1..])
  }

  /** The location of the whole template. */
  function OverallLocation(query: Query): SourceLocation
    requires |query.sourceMap| > 0
  {
    GetOverallSourceLocation(SpanLocations(query.sourceMap))
  }

  /**
   * `mapToSourceLocation`: inside the first span covering the offset, the
   * location the offset maps to in that span; without a covering span, the
   * whole template's location.
   */
  function MapToSourceLocation(query: Query, stringIndex: int): (r: SourceLocation)
    requires |query.sourceMap| > 0
    ensures FirstCoveringSpan(query.sourceMap, stringIndex).None? ==> r == OverallLocation(query)
    ensures FirstCoveringSpan(query.sourceMap, stringIndex).Some? ==>
              r == LocationInSpan(query.sourceMap[FirstCoveringSpan(query.sourceMap, stringIndex).value], query.query, stringIndex)
  {
    match FirstCoveringSpan(query.sourceMap, stringIndex)
    case None => OverallLocation(query)
    case Some(k) => LocationInSpan(query.sourceMap[k], query.query, stringIndex)
  }

  /**
   * The location of `stringIndex` inside `span`: the line moves down by the
   * line breaks before the offset and the column is counted from the span's
   * start column (or from the last line break); in a span of a template
   * expression the column offset is 1.
   */
  function LocationInSpan(span: QuerySourceMapSpan, text: string, stringIndex: int): (r: SourceLocation)
    ensures r.end.None?
  {
    var indexInSpan := stringIndex - span.queryStartIndex;
    var textInSpan := Substring(text, span.queryStartIndex, span.queryEndIndex);
    var offsets := GetLineColumnOffset(textInSpan, indexInSpan);
    var columnOffsetInSpan := if span.isTemplateExpression then 1 else offsets.columnOffset;
    var start := span.sourceLocation.start;
    SourceLocation(
      Position(start.line + offsets.lineOffset,
               if offsets.lineOffset > 0 then columnOffsetInSpan else start.column + columnOffsetInSpan),
      None)
  }

  /**
   * Inside a span covering the offset: the line moves down by the line breaks
   * of the span's text before the offset; on the span's first line the column
   * is one past the span's start column in a template expression, and the
   * offset into the span (counted from one) past it in literal text.
   */
  lemma LocationOnFirstLine(span: QuerySourceMapSpan, text: string, stringIndex: int)
    requires 0 <= span.queryStartIndex <= stringIndex < span.queryEndIndex <= |text|
    ensures var r := LocationInSpan(span, text, stringIndex);
            var start := span.sourceLocation.start;
            && r.start.line == start.line + CountChar(text[span.queryStartIndex..stringIndex], '\n')
            && ('\n' !in text[span.queryStartIndex..stringIndex] ==>
                  r.start.column == start.column + (if span.isTemplateExpression then 1
                                                    else stringIndex - span.queryStartIndex + 1))
  {
    var textInSpan := text[span.queryStartIndex..span.queryEndIndex];
    assert textInSpan[..stringIndex - span.queryStartIndex] == text[span.queryStartIndex..stringIndex];
  }

  /**
   * Below the first line of a span covering the offset: the column is 1 in a
   * template expression, and in literal text the distance from the last line
   * break before the offset.
   */
  lemma LocationBelowFirstLine(span: QuerySourceMapSpan, text: string, stringIndex: int)
    requires 0 <= span.queryStartIndex <= stringIndex < span.queryEndIndex <= |text|
    requires '\n' in text[span.queryStartIndex..stringIndex]
    ensures var r := LocationInSpan(span, text, stringIndex);
            && (span.isTemplateExpression ==> r.start.column == 1)
            && (!span.isTemplateExpression ==>
                  1 <= r.start.column <= stringIndex - span.queryStartIndex
                  && text[stringIndex - r.start.column] == '\n'
                  && '\n' !in text[stringIndex - r.start.column + 1..stringIndex])
  {
    OffsetsBelowFirstLine(text, span.queryStartIndex, span.queryEndIndex, stringIndex);
  }

  /** The offsets of a position below the first line of a slice, read in the whole text. */
  lemma OffsetsBelowFirstLine(text: string, start: nat, end: nat, index: nat)
    requires start <= index < end <= |text| && '\n' in text[start..index]
    ensures var offsets := GetLineColumnOffset(Substring(text, start, end), index - start);
            && offsets.lineOffset > 0
            && 1 <= offsets.columnOffset <= index - start
            && text[index - offsets.columnOffset] == '\n'
            && '\n' !in text[index - offsets.columnOffset + 1..index]
  {
    var slice := Substring(text, start, end);
    assert slice == text[start..end];
    var i := index - start;
    SliceOfSlice(text, start, end, 0, i, start, index);
    var offsets := GetLineColumnOffset(slice, i);
    assert '\n' in slice[..i];
    var column := offsets.columnOffset;
    assert 1 <= column <= i && slice[i - column] == '\n' && '\n' !in slice[i - column + 1..i];
    ShiftLastOccurrence(text, start, end, i, column, '\n', index);
  }

  /** An element found in a slice, and absent after it, is found and absent at the shifted positions of the whole. */
  lemma ShiftLastOccurrence<T>(s: seq<T>, a: nat, b: nat, i: nat, column: nat, c: T, index: nat)
    requires a <= b <= |s| && 1 <= column <= i <= b - a && index == a + i
    requires s[a..b][i - column] == c && c !in s[a..b][i - column + 1..i]
    ensures s[index - column] == c && c !in s[index - column + 1..index]
  {
    assert s[a..b][i - column + 1..i] == s[index - column + 1..index];
  }

  /** A slice of a slice is a slice of the whole. */
  lemma SliceOfSlice<T>(s: seq<T>, a: nat, b: nat, i: nat, j: nat, x: nat, y: nat)
    requires a <= b <= |s| && i <= j <= b - a && x == a + i && y == a + j
    ensures s[a..b][i..j] == s[x..y]
  {
  }

  function CreateSourceFileDiagnostic(
    diagnosticType: DiagnosticType, message: Failure, sourceFile: SourceFile, location: Option<SourceLocation>)
    : (d: Diagnostic)
    ensures d.diagnosticType == diagnosticType && d.message == message
    ensures d.sourceFile == sourceFile && d.sourceLocation == location && d.queryPath.None?
  {
    Diagnostic(message, None, sourceFile, location, diagnosticType)
  }

  function CreateQueryDiagnostic(diagnosticType: DiagnosticType, message: Failure, query: Query, offsetInQuery: int)
    : (d: Diagnostic)
    requires |query.sourceMap| > 0
    ensures d.diagnosticType == diagnosticType && d.message == message
    ensures d.sourceFile == query.sourceFile && d.queryPath.None?
    ensures d.sourceLocation == Some(MapToSourceLocation(query, offsetInQuery))
  {
    Diagnostic(message, None, query.sourceFile, Some(MapToSourceLocation(query, offsetInQuery)), diagnosticType)
  }

  /** `path.node[path.type].location`, when the node has one. */
  function NodeLocation(path: Path): Option<Value> {
    var body := Get(path.node, path.nodeType);
    if Has(path.node, path.nodeType) && Has(body, "location") then Some(Get(body, "location")) else None
  }

  /**
   * `createQueryNodeDiagnostic`: located at the node's `location` offset when
   * it has one, at the whole template otherwise.
   */
  function CreateQueryNodeDiagnostic(diagnosticType: DiagnosticType, message: Failure, path: Path, query: Query)
    : (d: Diagnostic)
    requires |query.sourceMap| > 0
    ensures d.diagnosticType == diagnosticType && d.message == message
    ensures d.sourceFile == query.sourceFile && d.queryPath == Some(path)
    ensures NodeLocation(path).Some? && NodeLocation(path).value.Num? ==>
              d.sourceLocation == Some(MapToSourceLocation(query, NodeLocation(path).value.n))
    ensures NodeLocation(path).None? ==> d.sourceLocation == Some(OverallLocation(query))
    ensures NodeLocation(path).Some? && !NodeLocation(path).value.Num? ==> d.sourceLocation == Some(OverallLocation(query))
  {
    var location := NodeLocation(path);
    var sourceLocation :=
      if location.Some? && location.value.Num? then MapToSourceLocation(query, location.value.n)
      else OverallLocation(query);
    Diagnostic(message, Some(path), query.sourceFile, Some(sourceLocation), diagnosticType)
  }

  /** The first diagnostic of type error. */
  function FirstError(ds: seq<Diagnostic>): (r: Option<Diagnostic>)
    ensures r.None? <==> forall k :: 0 <= k < |ds| ==> ds[k].diagnosticType == Warning
    ensures r.Some? ==> r.value.diagnosticType == Error && r.value in ds
    ensures r.Some? ==> exists k :: 0 <= k < |ds| && ds[k] == r.value
                          && forall m :: 0 <= m < k ==> ds[m].diagnosticType == Warning
  {
    if ds == [] then None
    else if ds[0].diagnosticType == Error then Some(ds[0])
    else
      var r := FirstError(ds[1..]);
      assert ds[0].diagnosticType == Warning;
      assert (forall k :: 0 <= k < |ds| ==> ds[k].diagnosticType == Warning)
             <==> (forall k :: 0 <= k < |ds[1..]| ==> ds[1..][k].diagnosticType == Warning) by {
        assert forall k | 1 <= k < |ds| :: ds[k] == ds[1..][k - 1];
      }
      assert r.Some? ==> exists k :: 0 <= k < |ds| && ds[k] == r.value
                                    && forall m :: 0 <= m < k ==> ds[m].diagnosticType == Warning by {
        if r.Some? {
          var k :| 0 <= k < |ds[1..]| && ds[1..][k] == r.value
                   && forall m :: 0 <= m < k ==> ds[1..][m].diagnosticType == Warning;
          assert ds[k + 1] == r.value;
          forall m | 0 <= m < k + 1 ensures ds[m].diagnosticType == Warning {
            if m > 0 {
              assert ds[m] == ds[1..][m - 1];
            }
          }
        }
      }
      r
  }

  /**
   * A callback run inside a collection, described by what it does: the
   * diagnostics it reports, in order, and the error it throws, if any.
   */
  datatype CallbackRun = CallbackRun(reports: seq<Diagnostic>, failure: Option<Failure>)

  /** How `throwDiagnostics` ends. */
  datatype ThrowOutcome =
    | Completed
    | Rethrown(failure: Failure)
    | ValidationError(firstError: Diagnostic)

  /**
   * The module-level diagnostics buffer and the flag saying whether a
   * collection is running.
   */
  class DiagnosticsCollector {
    var collecting: bool
    var reported: seq<Diagnostic>

    constructor()
      ensures !collecting && reported == []
    {
      collecting := false;
      reported := [];
    }

    /** `reportDiagnostic` */
    method Report(d: Diagnostic)
      modifies this
      ensures reported == old(reported) + [d]
      ensures collecting == old(collecting)
    {
      reported := reported + [d];
    }

    /** Reports every diagnostic of `ds`, in order. */
    method ReportAll(ds: seq<Diagnostic>)
      modifies this
      ensures reported == old(reported) + ds
      ensures collecting == old(collecting)
    {
      for i := 0 to |ds|
        invariant reported == old(reported) + ds[..i]
        invariant collecting == old(collecting)
      {
        Report(ds[i]);
      }
    }

    /** The entry half of `collectDiagnostics`: refuse to nest, else clear the buffer and raise the flag. */
    method Start() returns (failure: Option<Failure>)
      modifies this
      ensures old(collecting) ==> failure == Some(AlreadyCollecting) && collecting && reported == old(reported)
      ensures !old(collecting) ==> failure.None? && collecting && reported == []
    {
      if collecting {
        return Some(AlreadyCollecting);
      }
      reported := [];
      collecting := true;
      return None;
    }

    /** The `finally` half of `collectDiagnostics`: hand out the buffer, clear it and lower the flag. */
    method Finish() returns (collected: seq<Diagnostic>)
      modifies this
      ensures collected == old(reported)
      ensures !collecting && reported == []
    {
      collected := reported;
      collecting := false;
      reported := [];
    }

    /**
     * `collectDiagnostics(callback)`: the diagnostics reported while the
     * callback ran, or the error it threw; either way the buffer is left empty
     * and the flag down, unless a collection was already running, which is an
     * error that leaves the state alone.
     */
    method CollectDiagnostics(callback: CallbackRun) returns (r: Result<seq<Diagnostic>>)
      modifies this
      ensures old(collecting) ==> r == Err(AlreadyCollecting) && collecting && reported == old(reported)
      ensures !old(collecting) && callback.failure.None? ==> r == Ok(callback.reports)
      ensures !old(collecting) && callback.failure.Some? ==> r == Err(callback.failure.value)
      ensures !old(collecting) ==> !collecting && reported == []
    {
      var refused := Start();
      if refused.Some? {
        return Err(refused.value);
      }
      ReportAll(callback.reports);
      assert reported == callback.reports;
      var collected := Finish();
      if callback.failure.Some? {
        return Err(callback.failure.value);
      }
      return Ok(collected);
    }

    /**
     * `throwDiagnostics(callback)`: throws the first error diagnostic the
     * callback reported, if there is one; warnings alone never throw.
     */
    method ThrowDiagnostics(callback: CallbackRun) returns (outcome: ThrowOutcome)
      modifies this
      ensures old(collecting) ==> outcome == Rethrown(AlreadyCollecting)
      ensures !old(collecting) && callback.failure.Some? ==> outcome == Rethrown(callback.failure.value)
      ensures !old(collecting) && callback.failure.None? ==>
                (outcome.ValidationError? <==> exists k :: 0 <= k < |callback.reports| && callback.reports[k].diagnosticType == Error)
                && (outcome.ValidationError? ==> Some(outcome.firstError) == FirstError(callback.reports))
                && (outcome.Completed? || outcome.ValidationError?)
      ensures !old(collecting) ==> !collecting && reported == []
      ensures old(collecting) ==> collecting && reported == old(reported)
    {
      var collected := CollectDiagnostics(callback);
      if collected.Err? {
        return Rethrown(collected.failure);
      }
      var firstError := FirstError(collected.value);
      if firstError.Some? {
        return ValidationError(firstError.value);
      }
      return Completed;
    }
  }
}

=== FILE: failures.dfy ===
/**
 * Every error the core throws, one constructor per throw site, and the
 * `Result` type that carries a thrown error out of an operation. A diagnostic's
 * message reuses the same datatype: the core turns a caught error's message into
 * a diagnostic, and the messages it composes itself get constructors here too.
 */
module Failures {

  import opened Wrappers

  datatype Failure =
      // getNodeType: the object does not have exactly one top-level key
    | NotANode(keys: seq<string>)
      // resolveTableName: no range variable is named or aliased like the qualifier
    | NoMatchingTableReference(identifier: string)
      // resolveColumnReference: an unqualified `*` with zero or several tables in scope
    | UnqualifiedStarScope(tablesInScope: seq<string>)
      // resolveColumnReference: the qualifier of `a.b` is not an identifier
    | FirstFieldNotString(nodeType: string)
      // resolveColumnReference: a column reference with neither one nor two fields
    | BadColumnRefFormat(fieldCount: nat)
      // getTableByName
    | NoTableNamed(tableName: string, knownTables: seq<string>)
      // resolveUnqualifiedColumnRef: a spread placeholder with zero or several tables in scope
    | NonInferrableSpread
      // resolveUnqualifiedColumnRef: no in-scope table declares the column
    | NoTableHasColumn(columnName: string, tablesInScope: seq<string>)
      // resolveUnqualifiedColumnRef: several in-scope tables declare the column
    | AmbiguousColumn(columnName: string, matchingTables: seq<string>)
      // resolveTable: an unqualified `*` without tables in scope
    | StarWithoutTables
      // resolveTable: an unqualified `*` with several tables in scope
    | StarWithManyTables(tablesInScope: seq<string>)
      // assertIntactQualifiedColumnRef
    | TableNotDefined(tableName: string)
    | ColumnNotInTable(tableName: string, columnName: string)
      // assertIntactTableRef; the name reads "undefined" when the reference has none
    | NoTableWithName(tableName: string)
      // reading a property of `undefined` (an INSERT without any table reference)
    | UndefinedTableReference
      // checkForIncompleteInsertValues
    | MissingInsertColumn(columnName: string)
      // checkIfQueryMatchesReturnType
    | ResultShapeMismatch(missingColumns: seq<string>, actualColumns: seq<string>)
      // checkSchemasForDuplicates: the file path and line of every declaration
    | DuplicateTable(tableName: string, declarations: seq<(string, Option<int>)>)
      // parsePostgresQuery: the SQL parser rejected the substituted query
    | SyntaxError(substitutedQuery: string)
      // parseQuery: a spread expression whose type TypeScript cannot infer
    | SpreadNotInferrable
      // a spreadInsert()/spreadUpdate() call without arguments
    | SpreadCallWithoutArguments(callee: string)
      // collectDiagnostics inside collectDiagnostics
    | AlreadyCollecting
      // escapeIdentifier: a double quote inside an identifier
    | InvalidIdentifier(identifier: string)
      // serializeSqlSpecialExpression: an SQL expression object of neither known subtype
    | InvalidSpecialSubtype(subtype: string)

  /** The outcome of an operation that may throw. */
  datatype Result<+T> = Ok(value: T) | Err(failure: Failure) {
    predicate IsFailure() {
      Err?
    }

    function PropagateFailure<U>(): Result<U>
      requires Err?
    {
      Err(failure)
    }

    function Extract(): T
      requires Ok?
    {
      value
    }
  }
}

=== FILE: js_strings.dfy ===
/**
 * The few JavaScript string and array built-ins the core relies on, written out
 * with their JavaScript semantics (clamping, swapped bounds, -1 for "not found").
 */
module JsStrings {

  predicate StartsWith(s: string, prefix: string) {
    |prefix| <= |s| && s[..|prefix|] == prefix
  }

  predicate EndsWith(s: string, suffix: string) {
    |suffix| <= |s| && s[|s| - |suffix|..] == suffix
  }

  /** `s.replace(/<suffix>$/, "")`: drops one trailing occurrence of `suffix`. */
  function StripSuffix(s: string, suffix: string): (r: string)
    ensures EndsWith(s, suffix) ==> r + suffix == s
    ensures !EndsWith(s, suffix) ==> r == s
  {
    if EndsWith(s, suffix) then s[..|s| - |suffix|] else s
  }

  /** `s.toUpperCase()` restricted to ASCII letters. */
  function ToUpper(s: string): (r: string)
    ensures |r| == |s|
    ensures forall i :: 0 <= i < |s| ==> (r[i] == s[i] || ('a' <= s[i] <= 'z' && r[i] as int == s[i] as int - 32))
  {
    if s == [] then []
    else [if 'a' <= s[0] <= 'z' then (s[0] as int - 32) as char else s[0]] + ToUpper(s[1..])
  }

  function Clamp(i: int, len: nat): (r: nat)
    ensures r <= len
  {
    if i < 0 then 0 else if i > len then len else i
  }

  /**
   * `s.substring(start, end)`: both bounds are clamped into [0, |s|] and swapped
   * when the first exceeds the second.
   */
  function Substring(s: string, start: int, end: int): (r: string)
    ensures 0 <= start <= end <= |s| ==> r == s[start..end]
  {
    var a := Clamp(start, |s|);
    var b := Clamp(end, |s|);
    if a <= b then s[a..b] else s[b..a]
  }

  /** Number of occurrences of `c` in `s`. */
  function CountChar(s: string, c: char): (n: nat)
    ensures n <= |s|
    ensures n == 0 <==> c !in s
  {
    if s == [] then 0 else CountChar(s[..|s| - 1], c) + (if s[|s| - 1] == c then 1 else 0)
  }

  /** `s.lastIndexOf(c)`: the last position holding `c`, or -1. */
  function LastIndexOf(s: string, c: char): (r: int)
    ensures -1 <= r < |s|
    ensures r == -1 <==> c !in s
    ensures r >= 0 ==> s[r] == c && c !in s[r + 1..]
  {
    if s == [] then -1
    else if s[|s| - 1] == c then |s| - 1
    else
      var r := LastIndexOf(s[..|s| - 1], c);
      assert s[r + 1..] == s[..|s| - 1][r + 1..] + [s[|s| - 1]];
      r
  }

  /** `parts.join(separator)`. */
  function Join(parts: seq<string>, separator: string): string
  {
    if parts == [] then ""
    else if |parts| == 1 then parts[0]
    else parts[0] + separator + Join(parts[1..], separator)
  }

  /** `s.trim()` restricted to spaces, tabs and line breaks. */
  function Trim(s: string): (r: string)
    ensures |r| <= |s|
  {
    TrimEnd(TrimStart(s))
  }

  predicate IsWhitespace(c: char) {
    c == ' ' || c == '\t' || c == '\n' || c == '\r'
  }

  function TrimStart(s: string): (r: string)
    ensures |r| <= |s|
  {
    if s != [] && IsWhitespace(s[0]) then TrimStart(s[1..]) else s
  }

  function TrimEnd(s: string): (r: string)
    ensures |r| <= |s|
  {
    if s != [] && IsWhitespace(s[|s| - 1]) then TrimEnd(s[..|s| - 1]) else s
  }

  function DigitChar(d: nat): (c: char)
    requires d < 10
    ensures '0' <= c <= '9'
  {
    ['0', '1', '2', '3', '4', '5', '6', '7', '8', '9'][d]
  }

  /** Decimal rendering of a natural number, as `${n}` produces it. */
  function NatToString(n: nat): (r: string)
    ensures |r| > 0
    ensures forall i :: 0 <= i < |r| ==> '0' <= r[i] <= '9'
  {
    if n < 10 then [DigitChar(n)] else NatToString(n / 10) + [DigitChar(n % 10)]
  }

  /** Reads a string of decimal digits back as a number. */
  function DigitsValue(s: string): nat
    requires forall i :: 0 <= i < |s| ==> '0' <= s[i] <= '9'
  {
    if s == [] then 0 else 10 * DigitsValue(s[..|s| - 1]) + (s[|s| - 1] as int - '0' as int)
  }

  /** Reading the decimal rendering back gives the number: the rendering is injective. */
  lemma {:induction false} NatToStringRoundTrip(n: nat)
    ensures DigitsValue(NatToString(n)) == n
  {
    var r := NatToString(n);
    if n >= 10 {
      NatToStringRoundTrip(n / 10);
      assert r[..|r| - 1] == NatToString(n / 10);
    }
  }

  lemma NatToStringInjective(m: nat, n: nat)
    requires NatToString(m) == NatToString(n)
    ensures m == n
  {
    NatToStringRoundTrip(m);
    NatToStringRoundTrip(n);
  }
}

=== FILE: parse_pg_query.dfy ===
/**
 * Building the query record from a parse tree: the statement's subqueries,
 * the relations and columns it references, the columns it returns, and the
 * same for every subquery, recursively.
 *
 * Every collector walks the statement with `QueryTraversal.Walk`; a column or
 * a relation belongs to the innermost statement around it, because the walks
 * do not descend into subqueries (except the one collecting every relation
 * the query touches).
 */
module ParsePgQuery {

  import opened Wrappers
  import opened Sequences
  import opened Failures
  import opened JsStrings
  import opened PgNodeTypes
  import opened QueryTraversal
  import opened QueryTypes
  import opened ResolveReferences
  import opened Diagnostics

  /**
   * The `SELECT $n` a template expression is compiled to: a select without a
   * FROM clause whose only target is a parameter. It is not a subquery.
   */
  predicate IsPlaceholderSelect(node: Value) {
    var targetList := Prop(node, SelectStmtTag, "targetList");
    IsSelectStmt(node)
    && !Truthy(Prop(node, SelectStmtTag, "fromClause"))
    && targetList.Arr? && |targetList.items| == 1
    && IsResTarget(targetList.items[0])
    && IsParamRef(ResTargetVal(targetList.items[0]))
  }

  /** A statement node (its type ends in "Stmt") other than a placeholder select. */
  predicate IsSubquery(p: Path) {
    EndsWith(p.nodeType, "Stmt") && !IsPlaceholderSelect(p.node)
  }

  /** A subquery whose rows are its parent's rows: a UNION branch or an INSERT's SELECT. */
  predicate IsReturningIntoParentQuery(p: Path) {
    p.parentPropKey in ["larg", "rarg", "selectStmt"]
  }

  /** The paths a walk visited, or the error that stopped it. */
  function VisitedOrFailure(t: Traversal): (r: Result<seq<Path>>)
    ensures r.Ok? <==> t.failure.None?
    ensures r.Ok? ==> r.value == t.visited
  {
    if t.failure.Some? then Err(t.failure.value) else Ok(t.visited)
  }

  // ---------------------------------------------------------------------------
  // getSubqueries

  /** Descends into the statement itself and into anything that is not a subquery. */
  function StatementScope(stmt: Path): Path -> bool {
    (q: Path) => q.node == stmt.node || !IsSubquery(q)
  }

  /** No ancestor strictly between `stmt` and `q` is a subquery: `q` belongs to `stmt` itself. */
  ghost predicate DirectlyBelow(stmt: Path, q: Path) {
    |q.ancestors| > |stmt.ancestors|
    && q.ancestors[|stmt.ancestors|] == stmt
    && forall k | |stmt.ancestors| < k < |q.ancestors| :: !IsSubquery(q.ancestors[k])
  }

  function NestedSubqueries(stmt: Path, vs: seq<Path>): (r: seq<Path>)
    ensures forall q :: q in r <==> q in vs && q.node != stmt.node && IsSubquery(q)
  {
    if vs == [] then []
    else (if vs[0].node != stmt.node && IsSubquery(vs[0]) then [vs[0]] else []) + NestedSubqueries(stmt, vs[1..])
  }

  /**
   * `getSubqueries`: the outermost subqueries of the statement, in walk
   * order. Each is a node smaller than the statement, lies below it, and no
   * other subquery lies between the two; every subquery the walk reaches
   * (it does not descend into subqueries) is returned.
   */
  function GetSubqueries(stmt: Path): (r: Result<seq<Path>>)
    requires ValidPath(stmt)
    ensures r.Ok? <==> Walk(stmt, StatementScope(stmt)).failure.None?
    ensures r.Ok? ==> forall q | q in r.value ::
              ValidPath(q) && IsSubquery(q) && Size(q.node) < Size(stmt.node) && DirectlyBelow(stmt, q)
    ensures r.Ok? ==> forall q :: q in r.value <==>
              q in Walk(stmt, StatementScope(stmt)).visited && q.node != stmt.node && IsSubquery(q)
  {
    var visited :- VisitedOrFailure(Walk(stmt, StatementScope(stmt)));
    var subqueries := NestedSubqueries(stmt, visited);
    assert forall q | q in subqueries :: ValidPath(q) && Size(q.node) < Size(stmt.node) && DirectlyBelow(stmt, q) by {
      forall q | q in subqueries ensures ValidPath(q) && Size(q.node) < Size(stmt.node) && DirectlyBelow(stmt, q) {
        VisitedBelowRoot(stmt, StatementScope(stmt), q);
      }
    }
    Ok(subqueries)
  }

  /** No subquery `getSubqueries` returns lies inside another one it returns. */
  lemma SubqueriesDoNotNest(stmt: Path, i: nat, j: nat, k: nat)
    requires ValidPath(stmt) && GetSubqueries(stmt).Ok?
    requires i < |GetSubqueries(stmt).value| && j < |GetSubqueries(stmt).value|
    requires |stmt.ancestors| <= k < |GetSubqueries(stmt).value[j].ancestors|
    ensures GetSubqueries(stmt).value[j].ancestors[k] != GetSubqueries(stmt).value[i]
  {
    var subs := GetSubqueries(stmt).value;
    assert subs[i] in subs && subs[j] in subs;
    if k > |stmt.ancestors| {
      assert !IsSubquery(subs[j].ancestors[k]);
    } else {
      assert subs[j].ancestors[k] == stmt;
      VisitedBelowRoot(stmt, StatementScope(stmt), subs[i]);
    }
  }

  // ---------------------------------------------------------------------------
  // getTableReferences

  /** The callback of `getTableReferences`: stop only at subqueries, and only when they are excluded. */
  function TableScope(stmt: Path, includeSubQueries: bool): Path -> bool {
    (q: Path) => IsRelationRef(q.node) || includeSubQueries || q.node == stmt.node || !IsSubquery(q)
  }

  /** The `RangeVar` paths among the visited ones, each pushed when it is visited. */
  function RelationRefsIn(vs: seq<Path>): (r: seq<Path>)
    ensures forall q :: q in r <==> q in vs && IsRelationRef(q.node)
    ensures |r| <= |vs|
  {
    if vs == [] then []
    else (if IsRelationRef(vs[0].node) then [vs[0]] else []) + RelationRefsIn(vs[1..])
  }

  /**
   * The list grows in visit order: after the first `i + 1` visits it is the
   * list after the first `i`, with the `i`-th path pushed when it is a
   * `RangeVar`. With `RelationRefsIn([]) == []`, this fixes the whole list.
   */
  lemma RelationRefsInPushes(vs: seq<Path>, i: nat)
    requires i < |vs|
    ensures RelationRefsIn(vs[..i + 1])
            == RelationRefsIn(vs[..i]) + (if IsRelationRef(vs[i].node) then [vs[i]] else [])
  {
    PrefixPush(vs, i);
    RelationRefsInAppend(vs[..i], [vs[i]]);
    assert RelationRefsIn([vs[i]]) == (if IsRelationRef(vs[i].node) then [vs[i]] else []) + RelationRefsIn([]);
  }

  /**
   * `getTableReferences`: the `RangeVar` paths the walk visits, in walk
   * order; with `includeSubQueries` the walk descends everywhere.
   */
  function GetTableReferences(stmt: Path, includeSubQueries: bool): (r: Result<seq<Path>>)
    ensures r.Ok? <==> Walk(stmt, TableScope(stmt, includeSubQueries)).failure.None?
    ensures r.Ok? ==> r.value == RelationRefsIn(Walk(stmt, TableScope(stmt, includeSubQueries)).visited)
    ensures includeSubQueries ==> forall q :: TableScope(stmt, includeSubQueries)(q)
  {
    var visited :- VisitedOrFailure(Walk(stmt, TableScope(stmt, includeSubQueries)));
    Ok(RelationRefsIn(visited))
  }

  lemma {:induction false} RelationRefsInKeepAllowed(vs: seq<Path>, depth: nat, descend: Path -> bool)
    ensures RelationRefsIn(KeepAllowed(vs, depth, descend)) == KeepAllowed(RelationRefsIn(vs), depth, descend)
  {
    if vs != [] {
      RelationRefsInKeepAllowed(vs[1..], depth, descend);
      KeepAllowedAppend(if IsRelationRef(vs[0].node) then [vs[0]] else [], RelationRefsIn(vs[1..]), depth, descend);
      var keep := if AllowedBelow(vs[0], depth, descend) then [vs[0]] else [];
      assert RelationRefsIn(keep + KeepAllowed(vs[1..], depth, descend))
          == RelationRefsIn(keep) + RelationRefsIn(KeepAllowed(vs[1..], depth, descend)) by {
        RelationRefsInAppend(keep, KeepAllowed(vs[1..], depth, descend));
      }
    }
  }

  lemma {:induction false} RelationRefsInAppend(a: seq<Path>, b: seq<Path>)
    ensures RelationRefsIn(a + b) == RelationRefsIn(a) + RelationRefsIn(b)
  {
    if a != [] {
      RelationRefsInAppend(a[1..], b);
      assert (a + b)[0] == a[0];
      assert (a + b)[1..] == a[1..] + b;
      var first := if IsRelationRef(a[0].node) then [a[0]] else [];
      AppendAssociates(first, RelationRefsIn(a[1..]), RelationRefsIn(b));
    } else {
      assert a + b == b;
    }
  }

  /**
   * The relations in scope of a statement are exactly the relations of the
   * whole statement none of whose ancestors inside the statement is a
   * subquery, in the same order.
   */
  lemma ScopedTableReferences(stmt: Path)
    requires GetTableReferences(stmt, true).Ok?
    ensures GetTableReferences(stmt, false)
            == Ok(KeepAllowed(GetTableReferences(stmt, true).value, |stmt.ancestors|, TableScope(stmt, false)))
  {
    var everywhere := TableScope(stmt, true);
    var scoped := TableScope(stmt, false);
    assert forall q :: everywhere(q);
    PrunedWalk(stmt, scoped, everywhere);
    RelationRefsInKeepAllowed(Walk(stmt, everywhere).visited, |stmt.ancestors|, scoped);
  }

  // ---------------------------------------------------------------------------
  // getReferencedColumns

  /** Spread types by parameter number; `None` for an expression that is not a spread. */
  type SpreadTypes = map<int, Option<SpreadType>>

  /** `isParamRef(node) ? spreadTypes[node.ParamRef.number] : null`, a missing entry read as null. */
  function SpreadTypeAt(spreadTypes: SpreadTypes, node: Value): (r: Option<SpreadType>)
    ensures r.Some? ==> IsParamRef(node)
  {
    var number := ParamRefNumber(node);
    if IsParamRef(node) && number.Num? && number.n in spreadTypes then spreadTypes[number.n] else None
  }

  function KeyColumns(keys: seq<string>, scope: seq<TableReference>, path: Path): (refs: seq<ColumnReference>)
    ensures |refs| == |keys|
    ensures forall i :: 0 <= i < |keys| ==> refs[i] == Unqualified(scope, keys[i], path, false)
  {
    if keys == [] then [] else [Unqualified(scope, keys[0], path, false)] + KeyColumns(keys[1..], scope, path)
  }

  /**
   * The columns a spread argument references: one per known property, and
   * one unresolvable reference named "" when the properties are unknown.
   */
  function SpreadColumns(spreadType: SpreadType, scope: seq<TableReference>, path: Path): (refs: seq<ColumnReference>)
    ensures forall ref | ref in refs :: ref.Unqualified? && ref.path == path && ref.tableRefsInScope == scope
    ensures forall ref | ref in refs :: ref.any <==> spreadType.AnySpread? && ref.columnName == ""
    ensures |refs| == |spreadType.Keys()| + (if spreadType.AnySpread? then 1 else 0)
    ensures forall i | 0 <= i < |spreadType.Keys()| :: refs[i] == Unqualified(scope, spreadType.Keys()[i], path, false)
    ensures spreadType.AnySpread? ==> refs[|refs| - 1] == Unqualified(scope, "", path, true)
  {
    KeyColumns(spreadType.Keys(), scope, path) + (if spreadType.AnySpread? then [Unqualified(scope, "", path, true)] else [])
  }

  /** A resolved reference, unless it is none or names the spread placeholder column. */
  function KeepNamed(ref: Option<ColumnReference>): (refs: seq<ColumnReference>)
    ensures |refs| <= 1
    ensures forall r | r in refs :: ref == Some(r) && r.columnName != PlaceholderColumnName
  {
    if ref.Some? && ref.value.columnName != PlaceholderColumnName then [ref.value] else []
  }

  /**
   * What may be recorded at `q` for the statement `stmt`: a reference whose
   * path is `q`, which is neither the statement nor a subquery; only spread
   * parameters yield the placeholder column name or unresolvable references.
   */
  predicate RecordedAt(stmt: Path, spreadTypes: SpreadTypes, ref: ColumnReference, q: Path) {
    ref.path == q
    && q.node != stmt.node && !IsSubquery(q)
    && !ref.Resolved?
    && (ref.columnName == PlaceholderColumnName ==> IsParamRef(q.node))
    && (ref.IsUnresolvable() ==> ref.columnName == "" && SpreadTypeAt(spreadTypes, q.node) == Some(AnySpread))
  }

  /**
   * The callback of `getReferencedColumns` at one visited path. `relationRefs`
   * is the result of `getTableReferences(statement, false)`, which the callback
   * computes (and may fail on) only when it needs it.
   */
  function ColumnsAt(stmt: Path, spreadTypes: SpreadTypes, relationRefs: Result<seq<Path>>, q: Path)
    : (r: Result<seq<ColumnReference>>)
    ensures r.Ok? ==> forall ref | ref in r.value :: RecordedAt(stmt, spreadTypes, ref, q)
    ensures q.node == stmt.node || IsSubquery(q) ==> r == Ok([])
  {
    var spreadType := SpreadTypeAt(spreadTypes, q.node);
    if q.node == stmt.node || IsSubquery(q) then Ok([])
    else if IsColumnRef(q.node) then
      var refs :- relationRefs;
      var ref :- ResolveColumnReference(q, refs);
      Ok(KeepNamed(ref))
    else if IsResTarget(q.node) && Truthy(ResTargetName(q.node)) then
      var refs :- relationRefs;
      Ok(KeepNamed(ResolveResTarget(q, refs).value))
    else if spreadType.Some? then
      var refs :- relationRefs;
      Ok(SpreadColumns(spreadType.value, Scope(refs, q), q))
    else Ok([])
  }

  /** The callback applied to every visited path in order; the first error stops it. */
  function CollectColumns(stmt: Path, spreadTypes: SpreadTypes, relationRefs: Result<seq<Path>>, vs: seq<Path>)
    : (r: Result<seq<ColumnReference>>)
    ensures r.Ok? ==> forall ref | ref in r.value :: exists q | q in vs :: RecordedAt(stmt, spreadTypes, ref, q)
  {
    if vs == [] then Ok([])
    else
      var first :- ColumnsAt(stmt, spreadTypes, relationRefs, vs[0]);
      var rest :- CollectColumns(stmt, spreadTypes, relationRefs, vs[1..]);
      assert forall ref | ref in rest :: exists q | q in vs :: RecordedAt(stmt, spreadTypes, ref, q) by {
        forall ref | ref in rest ensures exists q | q in vs :: RecordedAt(stmt, spreadTypes, ref, q) {
          var q :| q in vs[1..] && RecordedAt(stmt, spreadTypes, ref, q);
        }
      }
      Ok(first + rest)
  }

  /**
   * `getReferencedColumns`: the columns the statement itself references, in
   * walk order. Every one lies directly below the statement (no subquery in
   * between) and is recorded at its own path.
   */
  function GetReferencedColumns(stmt: Path, spreadTypes: SpreadTypes): (r: Result<seq<ColumnReference>>)
    requires ValidPath(stmt)
    ensures r.Ok? ==> forall ref | ref in r.value ::
              ValidPath(ref.path) && DirectlyBelow(stmt, ref.path) && RecordedAt(stmt, spreadTypes, ref, ref.path)
  {
    var t := Walk(stmt, StatementScope(stmt));
    var refs :- CollectColumns(stmt, spreadTypes, GetTableReferences(stmt, false), t.visited);
    if t.failure.Some? then Err(t.failure.value)
    else
      assert forall ref | ref in refs :: ValidPath(ref.path) && DirectlyBelow(stmt, ref.path) by {
        forall ref | ref in refs ensures ValidPath(ref.path) && DirectlyBelow(stmt, ref.path) {
          var q :| q in t.visited && RecordedAt(stmt, spreadTypes, ref, q);
          VisitedBelowRoot(stmt, StatementScope(stmt), q);
        }
      }
      Ok(refs)
  }

  /** Whatever the callback records at a visited path ends up in the collected list. */
  lemma {:induction false} CollectedAt(stmt: Path, spreadTypes: SpreadTypes, relationRefs: Result<seq<Path>>,
                                       vs: seq<Path>, q: Path)
    requires CollectColumns(stmt, spreadTypes, relationRefs, vs).Ok? && q in vs
    ensures ColumnsAt(stmt, spreadTypes, relationRefs, q).Ok?
    ensures forall ref | ref in ColumnsAt(stmt, spreadTypes, relationRefs, q).value ::
              ref in CollectColumns(stmt, spreadTypes, relationRefs, vs).value
  {
    if vs[0] != q {
      CollectedAt(stmt, spreadTypes, relationRefs, vs[1..], q);
    }
  }

  /** What the callback records at a visited path is part of the result of `getReferencedColumns`. */
  lemma RecordedAtVisited(stmt: Path, spreadTypes: SpreadTypes, q: Path)
    requires ValidPath(stmt) && GetReferencedColumns(stmt, spreadTypes).Ok?
    requires q in Walk(stmt, StatementScope(stmt)).visited
    ensures ColumnsAt(stmt, spreadTypes, GetTableReferences(stmt, false), q).Ok?
    ensures forall ref | ref in ColumnsAt(stmt, spreadTypes, GetTableReferences(stmt, false), q).value ::
              ref in GetReferencedColumns(stmt, spreadTypes).value
  {
    var scope := GetTableReferences(stmt, false);
    var visited := Walk(stmt, StatementScope(stmt)).visited;
    assert CollectColumns(stmt, spreadTypes, scope, visited) == GetReferencedColumns(stmt, spreadTypes);
    CollectedAt(stmt, spreadTypes, scope, visited, q);
  }

  /**
   * What `getReferencedColumns` records for each path its walk visits below
   * the statement, with the relations in scope being those of
   * `getTableReferences(statement, false)`: the resolution of a column
   * reference, the name of a named target, and the key columns of a spread
   * parameter; none of them is left out unless it names the placeholder
   * column.
   */
  lemma GetReferencedColumnsComplete(stmt: Path, spreadTypes: SpreadTypes, q: Path)
    requires ValidPath(stmt) && GetReferencedColumns(stmt, spreadTypes).Ok?
    requires q in Walk(stmt, StatementScope(stmt)).visited && q.node != stmt.node && !IsSubquery(q)
    ensures var columns := GetReferencedColumns(stmt, spreadTypes).value;
            var scope := GetTableReferences(stmt, false);
            && (IsColumnRef(q.node) ==>
                  && scope.Ok? && ResolveColumnReference(q, scope.value).Ok?
                  && var ref := ResolveColumnReference(q, scope.value).value;
                     ref.Some? && ref.value.columnName != PlaceholderColumnName ==> ref.value in columns)
            && (!IsColumnRef(q.node) && IsResTarget(q.node) && Truthy(ResTargetName(q.node)) ==>
                  && scope.Ok?
                  && (StrOf(ResTargetName(q.node)) != PlaceholderColumnName ==>
                        Unqualified(Scope(scope.value, q), StrOf(ResTargetName(q.node)), q, false) in columns))
            && (!IsColumnRef(q.node) && !(IsResTarget(q.node) && Truthy(ResTargetName(q.node)))
                && SpreadTypeAt(spreadTypes, q.node).Some? ==>
                  && scope.Ok?
                  && forall ref | ref in SpreadColumns(SpreadTypeAt(spreadTypes, q.node).value, Scope(scope.value, q), q) ::
                       ref in columns)
  {
    var scope := GetTableReferences(stmt, false);
    RecordedAtVisited(stmt, spreadTypes, q);
    var recorded := ColumnsAt(stmt, spreadTypes, scope, q);
    if IsColumnRef(q.node) {
      assert scope.Ok? && recorded == Ok(KeepNamed(ResolveColumnReference(q, scope.value).value));
    } else if IsResTarget(q.node) && Truthy(ResTargetName(q.node)) {
      assert scope.Ok? && recorded == Ok(KeepNamed(ResolveResTarget(q, scope.value).value));
    } else if SpreadTypeAt(spreadTypes, q.node).Some? {
      assert scope.Ok? && recorded == Ok(SpreadColumns(SpreadTypeAt(spreadTypes, q.node).value, Scope(scope.value, q), q));
    }
  }

  // ---------------------------------------------------------------------------
  // getReturningColumns

  /** `body[key]`, a missing list read as empty, each item tagged with `key`. */
  function ListItems(stmt: Path, key: string): (items: seq<(Value, string)>)
    ensures forall item | item in items :: item.1 == key
  {
    Tag(ItemsOf(Prop(stmt.node, stmt.nodeType, key)), key)
  }

  function Tag(values: seq<Value>, key: string): (items: seq<(Value, string)>)
    ensures |items| == |values|
    ensures forall i :: 0 <= i < |values| ==> items[i] == (values[i], key)
  {
    if values == [] then [] else [(values[0], key)] + Tag(values[1..], key)
  }

  /** `.filter(node => getNodeType(node) === "ResTarget")`, which fails on the first non-node. */
  function FilterResTargets(items: seq<(Value, string)>): (r: Result<seq<(Value, string)>>)
    ensures r.Ok? <==> forall item | item in items :: |Keys(item.0)| == 1
    ensures r.Ok? ==> forall item | item in r.value :: item in items && IsResTarget(item.0)
    ensures r.Ok? ==> |r.value| <= |items|
  {
    if items == [] then Ok([])
    else
      var nodeType :- GetNodeType(items[0].0);
      var rest :- FilterResTargets(items[1..]);
      TagMatchesNodeType(items[0].0, ResTargetTag);
      Ok((if nodeType == ResTargetTag then [items[0]] else []) + rest)
  }

  /**
   * A returned column: a named target of the statement itself, or the column
   * reference that is the value of an unnamed target.
   */
  predicate ReturnedFrom(stmt: Path, ref: ColumnReference) {
    || (ref.path.ancestors == stmt.ancestors + [stmt]
        && ref.path.parentPropKey in ["returningList", "targetList"]
        && IsResTarget(ref.path.node) && ref.Unqualified?)
    || (|ref.path.ancestors| == |stmt.ancestors| + 2
        && ref.path.ancestors[..|stmt.ancestors| + 1] == stmt.ancestors + [stmt]
        && ref.path.parentPropKey == "val" && IsColumnRef(ref.path.node))
  }

  /** Resolves each target under the property key it came from; `null` resolutions are dropped. */
  function ResolveTargets(stmt: Path, relationRefs: seq<Path>, targets: seq<(Value, string)>)
    : (r: Result<seq<ColumnReference>>)
    requires forall t | t in targets :: IsResTarget(t.0) && t.1 in ["returningList", "targetList"]
    ensures r.Ok? ==> |r.value| <= |targets|
    ensures r.Ok? ==> forall ref | ref in r.value :: ReturnedFrom(stmt, ref)
  {
    if targets == [] then Ok([])
    else
      var path :- CreateQueryNodeSubpath(stmt, targets[0].0, targets[0].1);
      var ref :- ResolveResTarget(path, relationRefs);
      var rest :- ResolveTargets(stmt, relationRefs, targets[1..]);
      assert ref.Some? ==> ReturnedFrom(stmt, ref.value) by {
        if ref.Some? && !Truthy(ResTargetName(path.node)) {
          assert ref.value.path.ancestors == stmt.ancestors + [stmt] + [path];
          assert ref.value.path.ancestors[..|stmt.ancestors| + 1] == stmt.ancestors + [stmt];
        }
      }
      Ok((if ref.Some? then [ref.value] else []) + rest)
  }

  /** Filtering a concatenation filters each part, in order. */
  lemma {:induction false} FilterResTargetsAppend(a: seq<(Value, string)>, b: seq<(Value, string)>)
    ensures FilterResTargets(a + b).Ok? <==> FilterResTargets(a).Ok? && FilterResTargets(b).Ok?
    ensures FilterResTargets(a + b).Ok? ==>
              FilterResTargets(a + b).value == FilterResTargets(a).value + FilterResTargets(b).value
  {
    if a == [] {
      assert a + b == b;
    } else {
      assert (a + b)[0] == a[0] && (a + b)[1..] == a[1..] + b;
      FilterResTargetsAppend(a[1..], b);
      var nodeType := GetNodeType(a[0].0);
      if nodeType.Ok? {
        var first := if nodeType.value == ResTargetTag then [a[0]] else [];
        var tail := FilterResTargets(a[1..] + b);
        if tail.Ok? {
          var x := FilterResTargets(a[1..]).value;
          var y := FilterResTargets(b).value;
          assert FilterResTargets(a + b).value == first + (x + y);
          assert FilterResTargets(a).value == first + x;
          AppendAssociates(first, x, y);
        }
      }
    }
  }

  /** Resolving a concatenation resolves each part, in order; it fails when either part fails. */
  lemma {:induction false} ResolveTargetsAppend(stmt: Path, relationRefs: seq<Path>,
                                                a: seq<(Value, string)>, b: seq<(Value, string)>)
    requires forall t | t in a :: IsResTarget(t.0) && t.1 in ["returningList", "targetList"]
    requires forall t | t in b :: IsResTarget(t.0) && t.1 in ["returningList", "targetList"]
    ensures forall t | t in a + b :: IsResTarget(t.0) && t.1 in ["returningList", "targetList"]
    ensures ResolveTargets(stmt, relationRefs, a + b).Ok? <==>
              ResolveTargets(stmt, relationRefs, a).Ok? && ResolveTargets(stmt, relationRefs, b).Ok?
    ensures ResolveTargets(stmt, relationRefs, a + b).Ok? ==>
              ResolveTargets(stmt, relationRefs, a + b).value
              == ResolveTargets(stmt, relationRefs, a).value + ResolveTargets(stmt, relationRefs, b).value
  {
    if a == [] {
      assert a + b == b;
    } else {
      assert (a + b)[0] == a[0] && (a + b)[1..] == a[1..] + b;
      assert forall t | t in a[1..] :: t in a;
      ResolveTargetsAppend(stmt, relationRefs, a[1..], b);
      var path := CreateQueryNodeSubpath(stmt, a[0].0, a[0].1);
      if path.Ok? && ResolveResTarget(path.value, relationRefs).Ok? {
        var ref := ResolveResTarget(path.value, relationRefs).value;
        var first := if ref.Some? then [ref.value] else [];
        var whole := ResolveTargets(stmt, relationRefs, a + b);
        var tail := ResolveTargets(stmt, relationRefs, a[1..] + b);
        assert whole.Ok? <==> tail.Ok?;
        if tail.Ok? {
          var x := ResolveTargets(stmt, relationRefs, a[1..]).value;
          var y := ResolveTargets(stmt, relationRefs, b).value;
          assert whole.value == first + (x + y);
          assert ResolveTargets(stmt, relationRefs, a).value == first + x;
          AppendAssociates(first, x, y);
        }
      }
    }
  }

  /**
   * One target: it is resolved, at the path under the property key it came
   * from, with `resolveResTarget`, and kept unless that gives `null`.
   */
  lemma ResolveTargetsOne(stmt: Path, relationRefs: seq<Path>, t: (Value, string))
    requires IsResTarget(t.0) && t.1 in ["returningList", "targetList"]
    ensures var path := CreateQueryNodeSubpath(stmt, t.0, t.1);
            && (ResolveTargets(stmt, relationRefs, [t]).Ok? <==> path.Ok? && ResolveResTarget(path.value, relationRefs).Ok?)
            && (ResolveTargets(stmt, relationRefs, [t]).Ok? ==>
                  var ref := ResolveResTarget(path.value, relationRefs).value;
                  ResolveTargets(stmt, relationRefs, [t]).value == if ref.Some? then [ref.value] else [])
  {
    assert [t][1..] == [];
  }

  /** The columns one target list returns: its `ResTarget`s resolved in order, `null`s dropped. */
  function ReturnedByList(stmt: Path, relationRefs: seq<Path>, key: string): Result<seq<ColumnReference>>
    requires key in ["returningList", "targetList"]
  {
    var targets :- FilterResTargets(ListItems(stmt, key));
    ResolveTargets(stmt, relationRefs, targets)
  }

  /**
   * `getReturningColumns`: the RETURNING targets, then the select targets,
   * each resolved against the relations in scope.
   */
  function GetReturningColumns(stmt: Path): (r: Result<seq<ColumnReference>>)
    ensures r.Ok? ==> |r.value| <= |ListItems(stmt, "returningList")| + |ListItems(stmt, "targetList")|
    ensures r.Ok? ==> forall ref | ref in r.value :: ReturnedFrom(stmt, ref)
    ensures r.Ok? <==>
              && GetTableReferences(stmt, false).Ok?
              && ReturnedByList(stmt, GetTableReferences(stmt, false).value, "returningList").Ok?
              && ReturnedByList(stmt, GetTableReferences(stmt, false).value, "targetList").Ok?
    ensures r.Ok? ==>
              r.value == ReturnedByList(stmt, GetTableReferences(stmt, false).value, "returningList").value
                         + ReturnedByList(stmt, GetTableReferences(stmt, false).value, "targetList").value
  {
    var relationRefs :- GetTableReferences(stmt, false);
    var returning := ListItems(stmt, "returningList");
    var selected := ListItems(stmt, "targetList");
    FilterResTargetsAppend(returning, selected);
    var targets :- FilterResTargets(returning + selected);
    ResolveTargetsAppend(stmt, relationRefs, FilterResTargets(returning).value, FilterResTargets(selected).value);
    ResolveTargets(stmt, relationRefs, targets)
  }

  // ---------------------------------------------------------------------------
  // instantiateQuery

  /** What every (sub)query of one template shares. */
  datatype QueryContext = QueryContext(
    spreadTypes: SpreadTypes,
    query: string,
    sourceFile: SourceFile,
    sourceMap: seq<QuerySourceMapSpan>)

  /** `getNodeType(node).replace(/Stmt$/, "").toUpperCase()` */
  function QueryTypeOf(nodeType: string): (t: string)
    ensures EndsWith(nodeType, "Stmt") ==> |t| + 4 == |nodeType| && t == ToUpper(nodeType[..|nodeType| - 4])
    ensures !EndsWith(nodeType, "Stmt") ==> |t| == |nodeType| && t == ToUpper(nodeType)
  {
    ToUpper(StripSuffix(nodeType, "Stmt"))
  }

  /** The name of the CTE whose query this is, if its parent is a CTE. */
  function ExposedAsTable(path: Path): (r: Option<string>)
    ensures r.Some? <==> GetQueryPathParent(path).Some? && IsCommonTableExpr(GetQueryPathParent(path).value.node)
    ensures r.Some? ==> r.value == CteName(GetQueryPathParent(path).value.node)
  {
    var parent := GetQueryPathParent(path);
    if parent.Some? && IsCommonTableExpr(parent.value.node) then Some(CteName(parent.value.node)) else None
  }

  /** `{tableName: relname, path}`: the tables the whole query touches carry no alias. */
  function ReferencedTables(relations: seq<Path>): (refs: seq<TableReference>)
    ensures |refs| == |relations|
    ensures forall i :: 0 <= i < |relations| ==>
              refs[i] == TableReference(RelationName(relations[i].node), None, relations[i])
  {
    if relations == [] then []
    else [TableReference(RelationName(relations[0].node), None, relations[0])] + ReferencedTables(relations[1..])
  }

  /**
   * The shape of an instantiated query: it shares the template's text, file
   * and source map; its flags follow from its path; its columns lie directly
   * below it; and its subqueries are the outermost subqueries below it, each
   * shaped the same way.
   */
  ghost predicate WellFormed(q: Query, ctx: QueryContext) {
    QueryShape(q, ctx) && forall s | s in q.subqueries :: WellFormed(s, ctx)
  }

  /** The part of `WellFormed` about the query itself and where its subqueries lie. */
  ghost predicate QueryShape(q: Query, ctx: QueryContext) {
    && ValidPath(q.path)
    && q.query == ctx.query && q.sourceFile == ctx.sourceFile && q.sourceMap == ctx.sourceMap
    && q.queryType == QueryTypeOf(q.path.nodeType)
    && (q.returnsIntoParentQuery <==> IsReturningIntoParentQuery(q.path))
    && (q.exposedAsTable.Some? <==> GetQueryPathParent(q.path).Some? && IsCommonTableExpr(GetQueryPathParent(q.path).value.node))
    && (forall ref | ref in q.referencedColumns :: DirectlyBelow(q.path, ref.path) && !ref.Resolved?)
    && (forall ref | ref in q.returnedColumns :: ReturnedFrom(q.path, ref))
    && (forall t | t in q.referencedTables :: IsRelationRef(t.path.node) && t.alias.None?)
    && (forall s | s in q.subqueries :: IsSubquery(s.path) && DirectlyBelow(q.path, s.path))
  }

  /** `instantiateQuery`: the query record of the statement at `path` and, recursively, of its subqueries. */
  function InstantiateQuery(path: Path, ctx: QueryContext): (r: Result<Query>)
    requires ValidPath(path)
    ensures r.Ok? ==> r.value.path == path
    ensures r.Ok? ==> r.value.query == ctx.query && r.value.sourceFile == ctx.sourceFile
                      && r.value.sourceMap == ctx.sourceMap
    ensures r.Ok? ==> GetSubqueries(path).Ok?
                      && |r.value.subqueries| == |GetSubqueries(path).value|
                      && forall i | 0 <= i < |r.value.subqueries| ::
                           r.value.subqueries[i].path == GetSubqueries(path).value[i]
    decreases Size(path.node), 1, 0
  {
    var referencedColumns :- GetReferencedColumns(path, ctx.spreadTypes);
    var relations :- GetTableReferences(path, true);
    var returnedColumns :- GetReturningColumns(path);
    var subqueryPaths :- GetSubqueries(path);
    var subqueries :- InstantiateAll(subqueryPaths, ctx, Size(path.node));
    Ok(Query(
      QueryTypeOf(path.nodeType), path, ExposedAsTable(path),
      referencedColumns, ReferencedTables(relations), returnedColumns,
      IsReturningIntoParentQuery(path), subqueries,
      ctx.query, ctx.sourceFile, ctx.sourceMap))
  }

  /** The subqueries' records, in order; `bound` exceeds the size of every path. */
  function InstantiateAll(paths: seq<Path>, ctx: QueryContext, bound: nat): (r: Result<seq<Query>>)
    requires forall p | p in paths :: ValidPath(p) && Size(p.node) < bound
    ensures r.Ok? ==> |r.value| == |paths|
    ensures r.Ok? ==> forall i :: 0 <= i < |paths| ==> r.value[i].path == paths[i]
    decreases bound, 0, |paths|
  {
    if paths == [] then Ok([])
    else
      assert paths[0] in paths;
      var first :- InstantiateQuery(paths[0], ctx);
      var rest :- InstantiateAll(paths[1..], ctx, bound);
      Ok([first] + rest)
  }

  /** A successful `instantiateQuery` succeeded at every step, and its record holds what they found. */
  lemma InstantiateQuerySteps(path: Path, ctx: QueryContext)
    requires ValidPath(path)
    requires InstantiateQuery(path, ctx).Ok?
    ensures GetReferencedColumns(path, ctx.spreadTypes).Ok? && GetTableReferences(path, true).Ok?
    ensures GetReturningColumns(path).Ok? && GetSubqueries(path).Ok?
    ensures InstantiateAll(GetSubqueries(path).value, ctx, Size(path.node)).Ok?
    ensures InstantiateQuery(path, ctx).value == Query(
              QueryTypeOf(path.nodeType), path, ExposedAsTable(path),
              GetReferencedColumns(path, ctx.spreadTypes).value,
              ReferencedTables(GetTableReferences(path, true).value),
              GetReturningColumns(path).value,
              IsReturningIntoParentQuery(path),
              InstantiateAll(GetSubqueries(path).value, ctx, Size(path.node)).value,
              ctx.query, ctx.sourceFile, ctx.sourceMap)
  {
  }

  /** The record `instantiateQuery` builds has the shape `QueryShape` describes. */
  lemma InstantiatedQueryShape(path: Path, ctx: QueryContext)
    requires ValidPath(path)
    requires InstantiateQuery(path, ctx).Ok?
    ensures QueryShape(InstantiateQuery(path, ctx).value, ctx)
  {
    InstantiateQuerySteps(path, ctx);
    var q := InstantiateQuery(path, ctx).value;
    var subqueryPaths := GetSubqueries(path).value;
    var relations := GetTableReferences(path, true).value;
    forall s | s in q.subqueries ensures IsSubquery(s.path) && DirectlyBelow(path, s.path) {
      var i :| 0 <= i < |q.subqueries| && q.subqueries[i] == s;
      assert subqueryPaths[i] in subqueryPaths;
    }
    forall t | t in q.referencedTables ensures IsRelationRef(t.path.node) && t.alias.None? {
      var i :| 0 <= i < |q.referencedTables| && q.referencedTables[i] == t;
      assert relations[i] in relations;
    }
  }

  /** Every query `instantiateQuery` builds is well formed, and so are its subqueries. */
  lemma {:induction false} InstantiateQueryWellFormed(path: Path, ctx: QueryContext)
    requires ValidPath(path)
    requires InstantiateQuery(path, ctx).Ok?
    ensures WellFormed(InstantiateQuery(path, ctx).value, ctx)
    decreases Size(path.node), 1, 0
  {
    InstantiateQuerySteps(path, ctx);
    InstantiatedQueryShape(path, ctx);
    InstantiateAllWellFormed(GetSubqueries(path).value, ctx, Size(path.node));
  }

  lemma {:induction false} InstantiateAllWellFormed(paths: seq<Path>, ctx: QueryContext, bound: nat)
    requires forall p | p in paths :: ValidPath(p) && Size(p.node) < bound
    requires InstantiateAll(paths, ctx, bound).Ok?
    ensures forall s | s in InstantiateAll(paths, ctx, bound).value :: WellFormed(s, ctx)
    decreases bound, 0, |paths|
  {
    if paths != [] {
      assert paths[0] in paths;
      InstantiateQueryWellFormed(paths[0], ctx);
      InstantiateAllWellFormed(paths[1..], ctx, bound);
      assert InstantiateAll(paths, ctx, bound).value
          == [InstantiateQuery(paths[0], ctx).value] + InstantiateAll(paths[1..], ctx, bound).value;
    }
  }

  // ---------------------------------------------------------------------------
  // parsePostgresQuery

  /** The outcome of `QueryParser.parse`: the statements, or where the syntax error is. */
  datatype ParseResult = Parsed(statements: seq<Value>) | ParseError(cursorPosition: int)

  /** `{SelectStmt: {op: 0}}`, the statement a query with a syntax error is treated as. */
  const FakeStatement := Node(SelectStmtTag, [Field("op", Num(0))])

  function FakePath(): (p: Path)
    ensures ValidPath(p) && p.node == FakeStatement && p.ancestors == []
  {
    NodeHasItsTag(SelectStmtTag, [Field("op", Num(0))]);
    Path(FakeStatement, [], "", SelectStmtTag)
  }

  /** The fake statement has no node below it, so every walk of it visits it alone. */
  lemma FakeWalk(descend: Path -> bool)
    ensures Walk(FakePath(), descend) == Traversal([FakePath()], None)
  {
    var p := FakePath();
    NodeHasItsTag(SelectStmtTag, [Field("op", Num(0))]);
    assert WalkProperty(Num(0), [p], "op", descend) == Nothing;
    assert WalkFields([Field("op", Num(0))], [p], descend) == Nothing;
  }

  lemma FakeSubqueries()
    ensures GetSubqueries(FakePath()) == Ok([])
  {
    var p := FakePath();
    FakeWalk(StatementScope(p));
    assert NestedSubqueries(p, [p]) == [];
  }

  lemma FakeReferencedColumns(spreadTypes: SpreadTypes)
    ensures GetReferencedColumns(FakePath(), spreadTypes) == Ok([])
  {
    var p := FakePath();
    FakeWalk(StatementScope(p));
    assert ColumnsAt(p, spreadTypes, GetTableReferences(p, false), p) == Ok([]);
    assert [p][1..] == [];
    assert CollectColumns(p, spreadTypes, GetTableReferences(p, false), [p]) == Ok([]);
  }

  lemma FakeReturningColumns()
    ensures GetReturningColumns(FakePath()) == Ok([])
  {
    var p := FakePath();
    NodeHasItsTag(SelectStmtTag, [Field("op", Num(0))]);
    FakeWalk(TableScope(p, false));
    assert Prop(p.node, p.nodeType, "returningList") == Null;
    assert Prop(p.node, p.nodeType, "targetList") == Null;
  }

  /** Instantiating the fake statement cannot fail, and finds nothing. */
  lemma FakeQueryInstantiates(ctx: QueryContext)
    ensures InstantiateQuery(FakePath(), ctx).Ok?
    ensures InstantiateQuery(FakePath(), ctx).value.subqueries == []
    ensures InstantiateQuery(FakePath(), ctx).value.referencedColumns == []
  {
    FakeWalk(TableScope(FakePath(), true));
    FakeSubqueries();
    FakeReferencedColumns(ctx.spreadTypes);
    FakeReturningColumns();
  }

  /**
   * `parsePostgresQuery`: the query record of the first statement; on a
   * syntax error, the record of an empty SELECT and one error diagnostic at
   * the character before the parser's cursor.
   */
  method ParsePostgresQuery(
    queryString: string,
    sourceFile: SourceFile,
    sourceMap: seq<QuerySourceMapSpan>,
    spreadTypes: SpreadTypes,
    parse: ParseResult,
    diagnostics: DiagnosticsCollector)
    returns (r: Result<Query>)
    requires parse.ParseError? ==> |sourceMap| > 0
    modifies diagnostics
    ensures var ctx := QueryContext(spreadTypes, queryString, sourceFile, sourceMap);
            r.Ok? ==> WellFormed(r.value, ctx) && r.value.path.ancestors == []
    ensures parse.Parsed? ==> diagnostics.reported == old(diagnostics.reported)
    ensures parse.Parsed? && parse.statements != [] ==>
              (r.Ok? ==> r.value.path.node == parse.statements[0])
    ensures parse.Parsed? && parse.statements != [] && CreateQueryNodePath(parse.statements[0], [], "").Ok? ==>
              r == InstantiateQuery(CreateQueryNodePath(parse.statements[0], [], "").value,
                                    QueryContext(spreadTypes, queryString, sourceFile, sourceMap))
    ensures parse.Parsed? && (parse.statements == [] || |Keys(parse.statements[0])| != 1) ==> r.Err?
    ensures parse.ParseError? ==>
              r.Ok? && r.value.path.node == FakeStatement
              && diagnostics.reported == old(diagnostics.reported) + [
                   CreateQueryDiagnostic(Error, SyntaxError(Trim(queryString)), r.value, parse.cursorPosition - 1)]
    ensures diagnostics.collecting == old(diagnostics.collecting)
  {
    var ctx := QueryContext(spreadTypes, queryString, sourceFile, sourceMap);
    if parse.ParseError? {
      FakeQueryInstantiates(ctx);
      InstantiateQueryWellFormed(FakePath(), ctx);
      var query := InstantiateQuery(FakePath(), ctx).value;
      diagnostics.Report(CreateQueryDiagnostic(Error, SyntaxError(Trim(queryString)), query, parse.cursorPosition - 1));
      return Ok(query);
    }
    var parsedQuery := if parse.statements == [] then Null else parse.statements[0];
    var queryPath := CreateQueryNodePath(parsedQuery, [], "");
    if queryPath.Err? {
      return Err(queryPath.failure);
    }
    r := InstantiateQuery(queryPath.value, ctx);
    if r.Ok? {
      InstantiateQueryWellFormed(queryPath.value, ctx);
    }
  }
}

=== FILE: parse_query.dfy ===
/**
 * Compiling an `sql` template literal into a query string: the literal text
 * parts are kept, every embedded expression becomes a parameter placeholder
 * `$1`, `$2`, ..., and a source map records where each piece of the query
 * string came from. The spread helpers get special placeholders and the
 * property names TypeScript infers for their argument.
 */
module ParseQuery {

  import opened Wrappers
  import opened Sequences
  import opened Failures
  import opened JsStrings
  import opened QueryTypes
  import opened Diagnostics
  import opened ParsePgQuery
  import QueryTraversal

  /** A literal text part of the template and where it is in the file. */
  datatype Quasi = Quasi(cooked: string, loc: Option<SourceLocation>)

  /**
   * How an embedded expression is written: a call of an imported
   * `spreadInsert` or `spreadUpdate`, or anything else (a `spreadAnd` call is
   * anything else here).
   */
  datatype SpreadCall = PlainExpression | SpreadInsertCall | SpreadUpdateCall

  /**
   * An embedded expression: its form, the callee's name and argument count
   * when it is a call, where it is, and the property names TypeScript infers
   * for the first argument (`None` when it cannot).
   */
  datatype TemplateExpression = TemplateExpression(
    call: SpreadCall,
    callee: string,
    argumentCount: nat,
    loc: Option<SourceLocation>,
    inferredProperties: Option<seq<string>>)

  datatype Template = Template(quasis: seq<Quasi>, expressions: seq<TemplateExpression>)

  /**
   * `resolveSpreadExpressionType`: without type information every expression
   * counts as a spread of unknown properties; with it, a spread call has the
   * inferred properties or unknown ones, and anything else is no spread.
   */
  function ResolveSpreadExpressionType(expression: TemplateExpression, sourceFile: SourceFile)
    : (r: Result<Option<SpreadType>>)
    ensures !sourceFile.hasTypeInfo ==> r == Ok(Some(AnySpread))
    ensures sourceFile.hasTypeInfo && expression.call.PlainExpression? ==> r == Ok(None)
    ensures r.Err? <==> sourceFile.hasTypeInfo && !expression.call.PlainExpression? && expression.argumentCount == 0
    ensures r.Err? ==> r.failure == SpreadCallWithoutArguments(expression.callee)
    ensures r.Ok? && r.value.Some? && r.value.value.Properties? ==>
              expression.inferredProperties == Some(r.value.value.keys)
    ensures sourceFile.hasTypeInfo && !expression.call.PlainExpression? && expression.argumentCount > 0 ==>
              r == Ok(Some(if expression.inferredProperties.Some? then Properties(expression.inferredProperties.value) else AnySpread))
  {
    if !sourceFile.hasTypeInfo then Ok(Some(AnySpread))
    else if expression.call.SpreadInsertCall? || expression.call.SpreadUpdateCall? then
      if expression.argumentCount == 0 then Err(SpreadCallWithoutArguments(expression.callee))
      else if expression.inferredProperties.Some? then Ok(Some(Properties(expression.inferredProperties.value)))
      else Ok(Some(AnySpread))
    else Ok(None)
  }

  /** `$n` */
  function Parameter(paramNumber: nat): string {
    "$" + NatToString(paramNumber)
  }

  /**
   * `createExpressionPlaceholder`: `SELECT $n` for a spread insert, an
   * assignment to the placeholder column for a spread update, `$n` otherwise.
   */
  function CreateExpressionPlaceholder(expression: TemplateExpression, paramNumber: nat): (placeholder: string)
    ensures EndsWith(placeholder, Parameter(paramNumber))
    ensures expression.call.PlainExpression? ==> placeholder == Parameter(paramNumber)
    ensures expression.call.SpreadInsertCall? ==> placeholder == "SELECT " + Parameter(paramNumber)
    ensures expression.call.SpreadUpdateCall? ==>
              placeholder == "\"" + PlaceholderColumnName + "\" = " + Parameter(paramNumber)
  {
    var prefix :=
      match expression.call
      case SpreadInsertCall => "SELECT "
      case SpreadUpdateCall => "\"" + PlaceholderColumnName + "\" = "
      case PlainExpression => "";
    assert (prefix + Parameter(paramNumber))[|prefix|..] == Parameter(paramNumber);
    prefix + Parameter(paramNumber)
  }

  // ---------------------------------------------------------------------------
  // The compiled query, stated piece by piece

  /** A piece of the query string and where it came from. */
  datatype Piece = Piece(text: string, loc: Option<SourceLocation>, isTemplateExpression: bool)

  function QuasiPiece(quasi: Quasi): Piece {
    Piece(quasi.cooked, quasi.loc, false)
  }

  function ExpressionPiece(expression: TemplateExpression, paramNumber: nat): Piece {
    Piece(CreateExpressionPlaceholder(expression, paramNumber), expression.loc, true)
  }

  /**
   * The pieces after `k` expressions: the first text part, then for each
   * expression its placeholder and the text part after it, if there is one.
   */
  function Pieces(t: Template, k: nat): (ps: seq<Piece>)
    requires |t.quasis| > 0 && k <= |t.expressions|
    ensures |ps| > 0
  {
    if k == 0 then [QuasiPiece(t.quasis[0])]
    else
      Pieces(t, k - 1) + [ExpressionPiece(t.expressions[k - 1], k)]
      + (if k < |t.quasis| then [QuasiPiece(t.quasis[k])] else [])
  }

  /** The query string the pieces make up. */
  function QueryText(ps: seq<Piece>): string {
    if ps == [] then "" else QueryText(ps[..|ps| - 1]) + ps[|ps| - 1].text
  }

  /** The source map of the pieces: a span for every piece whose location is known. */
  function SpansOf(ps: seq<Piece>): seq<QuerySourceMapSpan> {
    if ps == [] then []
    else
      var init := ps[..|ps| - 1];
      var last := ps[|ps| - 1];
      SpansOf(init)
      + (if last.loc.Some? then
           [QuerySourceMapSpan(last.loc.value, |QueryText(init)|, |QueryText(init)| + |last.text|, last.isTemplateExpression)]
         else [])
  }

  /**
   * The spread types of the first `k` expressions, or the failure of the
   * first of them that cannot be resolved.
   */
  function ResolvedSpreadTypes(t: Template, sourceFile: SourceFile, k: nat): (r: Result<seq<Option<SpreadType>>>)
    requires k <= |t.expressions|
    ensures r.Ok? ==> |r.value| == k
  {
    if k == 0 then Ok([])
    else
      var previous :- ResolvedSpreadTypes(t, sourceFile, k - 1);
      var spreadType :- ResolveSpreadExpressionType(t.expressions[k - 1], sourceFile);
      Ok(previous + [spreadType])
  }

  /**
   * The spread types are resolved one by one: on success the `j`-th is that
   * of the `j`-th expression, and a failure is the failure of one of the
   * expressions.
   */
  lemma {:induction false} ResolvedSpreadTypesCorrect(t: Template, sourceFile: SourceFile, k: nat)
    requires k <= |t.expressions|
    ensures var r := ResolvedSpreadTypes(t, sourceFile, k);
      r.Ok? ==> forall j | 0 <= j < k :: ResolveSpreadExpressionType(t.expressions[j], sourceFile) == Ok(r.value[j])
    ensures var r := ResolvedSpreadTypes(t, sourceFile, k);
      r.Err? ==> exists j | 0 <= j < k :: ResolveSpreadExpressionType(t.expressions[j], sourceFile) == Err(r.failure)
  {
    if k > 0 {
      ResolvedSpreadTypesCorrect(t, sourceFile, k - 1);
    }
  }

  /** `expressionSpreadTypes`: parameter `n` maps to the spread type of the `n`-th expression. */
  function SpreadTypesMap(spreadTypes: seq<Option<SpreadType>>): (m: SpreadTypes)
    ensures forall n | n in m :: 1 <= n <= |spreadTypes|
    ensures forall n | 1 <= n <= |spreadTypes| :: n in m && m[n] == spreadTypes[n - 1]
  {
    if spreadTypes == [] then map[]
    else SpreadTypesMap(spreadTypes[..|spreadTypes| - 1])[|spreadTypes| := spreadTypes[|spreadTypes| - 1]]
  }

  /** The warning about a spread whose properties cannot be inferred. */
  function SpreadWarning(expression: TemplateExpression, sourceFile: SourceFile): Diagnostic {
    CreateSourceFileDiagnostic(Warning, SpreadNotInferrable, sourceFile, expression.loc)
  }

  /**
   * Whether an expression draws a warning: a spread call with arguments whose
   * properties cannot be inferred although type information is available.
   */
  predicate Uninferrable(expression: TemplateExpression, sourceFile: SourceFile)
    ensures Uninferrable(expression, sourceFile) <==>
              sourceFile.hasTypeInfo && ResolveSpreadExpressionType(expression, sourceFile) == Ok(Some(AnySpread))
  {
    && sourceFile.hasTypeInfo
    && !expression.call.PlainExpression?
    && expression.argumentCount > 0
    && expression.inferredProperties.None?
  }

  /** The warnings reported while compiling the first `k` expressions; none after a failure. */
  function ReportedWarnings(t: Template, sourceFile: SourceFile, k: nat): (ds: seq<Diagnostic>)
    requires k <= |t.expressions|
    ensures !sourceFile.hasTypeInfo ==> ds == []
  {
    if k == 0 then []
    else
      ReportedWarnings(t, sourceFile, k - 1)
      + (if ResolvedSpreadTypes(t, sourceFile, k).Ok? && Uninferrable(t.expressions[k - 1], sourceFile)
         then [SpreadWarning(t.expressions[k - 1], sourceFile)] else [])
  }

  /** The query string, spread types and source map the template compiles to. */
  function Compile(t: Template, sourceFile: SourceFile): (r: Result<QueryContext>)
    requires |t.quasis| > 0
    ensures r.Ok? ==> r.value.sourceFile == sourceFile
  {
    var spreadTypes :- ResolvedSpreadTypes(t, sourceFile, |t.expressions|);
    var pieces := Pieces(t, |t.expressions|);
    Ok(QueryContext(SpreadTypesMap(spreadTypes), QueryText(pieces), sourceFile, SpansOf(pieces)))
  }

  /**
   * The compiled spread types have a key for every parameter and no other,
   * and parameter `n` has the spread type of the `n`-th expression; the
   * template fails to compile exactly when one of its expressions does.
   */
  lemma CompiledSpreadTypes(t: Template, sourceFile: SourceFile)
    requires |t.quasis| > 0
    ensures var r := Compile(t, sourceFile);
      r.Ok? ==> forall n | n in r.value.spreadTypes :: 1 <= n <= |t.expressions|
    ensures var r := Compile(t, sourceFile);
      r.Ok? ==> forall n | 1 <= n <= |t.expressions| ::
                  n in r.value.spreadTypes
                  && ResolveSpreadExpressionType(t.expressions[n - 1], sourceFile) == Ok(r.value.spreadTypes[n])
    ensures Compile(t, sourceFile).Err? <==>
              exists j | 0 <= j < |t.expressions| :: ResolveSpreadExpressionType(t.expressions[j], sourceFile).Err?
  {
    ResolvedSpreadTypesCorrect(t, sourceFile, |t.expressions|);
  }

  /** Every reported warning is a warning about an uninferrable spread. */
  lemma {:induction false} ReportedWarningsAreSpreadWarnings(t: Template, sourceFile: SourceFile, k: nat)
    requires k <= |t.expressions|
    ensures forall d | d in ReportedWarnings(t, sourceFile, k) :: d.diagnosticType == Warning && d.message == SpreadNotInferrable
    ensures |ReportedWarnings(t, sourceFile, k)| <= k
  {
    if k > 0 {
      ReportedWarningsAreSpreadWarnings(t, sourceFile, k - 1);
    }
  }

  // ---------------------------------------------------------------------------
  // Properties of the compiled query

  lemma {:induction false} QueryTextPrefix(ps: seq<Piece>, i: nat)
    requires i <= |ps|
    ensures |QueryText(ps[..i])| <= |QueryText(ps)|
    ensures QueryText(ps)[..|QueryText(ps[..i])|] == QueryText(ps[..i])
  {
    if i < |ps| {
      assert ps[..|ps| - 1][..i] == ps[..i];
      QueryTextPrefix(ps[..|ps| - 1], i);
    } else {
      assert ps[..i] == ps;
    }
  }

  /**
   * A span holds exactly the text of the piece it was made for: the slice
   * `[queryStartIndex, queryEndIndex)` of the query string is the piece's
   * text, and the span has the piece's location and kind.
   */
  predicate SpanOfPiece(text: string, span: QuerySourceMapSpan, piece: Piece) {
    && 0 <= span.queryStartIndex <= span.queryEndIndex <= |text|
    && text[span.queryStartIndex..span.queryEndIndex] == piece.text
    && piece.loc == Some(span.sourceLocation)
    && piece.isTemplateExpression == span.isTemplateExpression
  }

  /**
   * Every span of the source map holds the text of one of the pieces, and
   * the spans come in order without overlapping.
   */
  lemma {:induction false} SpansMatchText(ps: seq<Piece>)
    ensures forall i | 0 <= i < |SpansOf(ps)| ::
              exists j | 0 <= j < |ps| :: SpanOfPiece(QueryText(ps), SpansOf(ps)[i], ps[j])
    ensures forall i, j | 0 <= i < j < |SpansOf(ps)| :: SpansOf(ps)[i].queryEndIndex <= SpansOf(ps)[j].queryStartIndex
    ensures forall i | 0 <= i < |SpansOf(ps)| :: SpansOf(ps)[i].queryEndIndex <= |QueryText(ps)|
  {
    if ps != [] {
      var init := ps[..|ps| - 1];
      var last := ps[|ps| - 1];
      var text := QueryText(ps);
      SpansMatchText(init);
      assert text == QueryText(init) + last.text;
      var spans := SpansOf(ps);
      var before := SpansOf(init);
      assert spans == before + (if last.loc.Some? then [spans[|spans| - 1]] else []);
      forall i | 0 <= i < |spans|
        ensures exists j | 0 <= j < |ps| :: SpanOfPiece(text, spans[i], ps[j])
      {
        if i < |before| {
          var j :| 0 <= j < |init| && SpanOfPiece(QueryText(init), before[i], init[j]);
          assert spans[i] == before[i];
          assert ps[j] == init[j];
          assert SpanOfPiece(text, spans[i], ps[j]);
        } else {
          assert SpanOfPiece(text, spans[i], ps[|ps| - 1]);
        }
      }
    } else {
      assert SpansOf(ps) == [];
    }
  }

  predicate AllLocated(ps: seq<Piece>) {
    forall j | 0 <= j < |ps| :: ps[j].loc.Some?
  }

  /**
   * When every piece has a location, the spans tile the query string: one
   * per piece, starting at 0, each beginning where the previous one ended,
   * the last ending at the end of the string.
   */
  lemma {:induction false} SpansTileText(ps: seq<Piece>)
    requires AllLocated(ps)
    ensures |SpansOf(ps)| == |ps|
    ensures |ps| > 0 ==> SpansOf(ps)[0].queryStartIndex == 0
                         && SpansOf(ps)[|ps| - 1].queryEndIndex == |QueryText(ps)|
    ensures forall i | 0 <= i < |ps| - 1 :: SpansOf(ps)[i].queryEndIndex == SpansOf(ps)[i + 1].queryStartIndex
  {
    if ps != [] {
      var init := ps[..|ps| - 1];
      assert AllLocated(init) by {
        forall j | 0 <= j < |init| ensures init[j].loc.Some? {
          assert init[j] == ps[j];
        }
      }
      SpansTileText(init);
      assert ps[|ps| - 1].loc.Some?;
      if init == [] {
        assert QueryText(init) == "";
      }
    }
  }

  /**
   * With a text part after every expression (as in every template literal),
   * the pieces alternate: text part `j` at `2j`, the placeholder of
   * parameter `j + 1` at `2j + 1`.
   */
  lemma {:induction false} PiecesAlternate(t: Template, k: nat)
    requires |t.quasis| == |t.expressions| + 1 && k <= |t.expressions|
    ensures |Pieces(t, k)| == 2 * k + 1
    ensures forall j | 0 <= j <= k :: Pieces(t, k)[2 * j] == QuasiPiece(t.quasis[j])
    ensures forall j | 0 <= j < k :: Pieces(t, k)[2 * j + 1] == ExpressionPiece(t.expressions[j], j + 1)
  {
    if k > 0 {
      PiecesAlternate(t, k - 1);
      var previous := Pieces(t, k - 1);
      var ps := Pieces(t, k);
      assert ps == previous + [ExpressionPiece(t.expressions[k - 1], k), QuasiPiece(t.quasis[k])];
      forall j | 0 <= j <= k ensures ps[2 * j] == QuasiPiece(t.quasis[j]) {
        if j < k {
          assert ps[2 * j] == previous[2 * j];
        }
      }
      forall j | 0 <= j < k ensures ps[2 * j + 1] == ExpressionPiece(t.expressions[j], j + 1) {
        if j < k - 1 {
          assert ps[2 * j + 1] == previous[2 * j + 1];
        }
      }
    }
  }

  /** Distinct expressions get distinct parameters. */
  lemma ParametersDistinct(m: nat, n: nat)
    requires m != n
    ensures Parameter(m) != Parameter(n)
  {
    if Parameter(m) == Parameter(n) {
      assert NatToString(m) == Parameter(m)[1..];
      NatToStringInjective(m, n);
    }
  }

  /**
   * When every expression resolves, a warning is reported exactly for the
   * expressions whose properties cannot be inferred although type
   * information is available.
   */
  lemma {:induction false} WarningsForUninferrableSpreads(t: Template, sourceFile: SourceFile, k: nat, d: Diagnostic)
    requires k <= |t.expressions| && ResolvedSpreadTypes(t, sourceFile, k).Ok?
    ensures d in ReportedWarnings(t, sourceFile, k) <==>
              exists j | 0 <= j < k :: Uninferrable(t.expressions[j], sourceFile) && d == SpreadWarning(t.expressions[j], sourceFile)
  {
    if k > 0 {
      assert ResolvedSpreadTypes(t, sourceFile, k - 1).Ok?;
      WarningsForUninferrableSpreads(t, sourceFile, k - 1, d);
    }
  }

  /** After the first failure the result stays that failure. */
  lemma {:induction false} FailureIsFinal(t: Template, sourceFile: SourceFile, k: nat, m: nat)
    requires k <= m <= |t.expressions|
    requires ResolvedSpreadTypes(t, sourceFile, k).Err?
    ensures ResolvedSpreadTypes(t, sourceFile, m) == ResolvedSpreadTypes(t, sourceFile, k)
    decreases m - k
  {
    if k < m {
      assert ResolvedSpreadTypes(t, sourceFile, k + 1) == ResolvedSpreadTypes(t, sourceFile, k);
      FailureIsFinal(t, sourceFile, k + 1, m);
    }
  }

  /** After the first failure no more warnings are reported. */
  lemma {:induction false} FailureWarnings(t: Template, sourceFile: SourceFile, k: nat, m: nat)
    requires k <= m <= |t.expressions|
    requires ResolvedSpreadTypes(t, sourceFile, k).Err?
    ensures ReportedWarnings(t, sourceFile, m) == ReportedWarnings(t, sourceFile, k)
    decreases m - k
  {
    if k < m {
      FailureIsFinal(t, sourceFile, k, k + 1);
      assert ReportedWarnings(t, sourceFile, k + 1) == ReportedWarnings(t, sourceFile, k);
      FailureWarnings(t, sourceFile, k + 1, m);
    }
  }

  lemma WarningsStep(t: Template, sourceFile: SourceFile, k: nat)
    requires k < |t.expressions| && ResolvedSpreadTypes(t, sourceFile, k + 1).Ok?
    ensures ReportedWarnings(t, sourceFile, k + 1) == ReportedWarnings(t, sourceFile, k)
              + (if Uninferrable(t.expressions[k], sourceFile) then [SpreadWarning(t.expressions[k], sourceFile)] else [])
  {
  }

  /** The first text part comes first in the source map when it has a location. */
  lemma {:induction false} SpansStartWithFirstPart(t: Template, k: nat)
    requires |t.quasis| > 0 && k <= |t.expressions|
    requires t.quasis[0].loc.Some?
    ensures |SpansOf(Pieces(t, k))| > 0
  {
    if k == 0 {
      var ps := Pieces(t, 0);
      assert ps[..|ps| - 1] == [];
    } else {
      SpansStartWithFirstPart(t, k - 1);
      var a := Pieces(t, k - 1);
      var b := Pieces(t, k)[|a|..];
      assert a + b == Pieces(t, k);
      SpansOfPrefix(a, b);
    }
  }

  lemma {:induction false} SpansOfPrefix(a: seq<Piece>, b: seq<Piece>)
    ensures |SpansOf(a)| <= |SpansOf(a + b)|
    ensures SpansOf(a + b)[..|SpansOf(a)|] == SpansOf(a)
    decreases |b|
  {
    if b == [] {
      assert a + b == a;
    } else {
      var ab := a + b;
      assert ab[..|ab| - 1] == a + b[..|b| - 1];
      SpansOfPrefix(a, b[..|b| - 1]);
    }
  }

  // ---------------------------------------------------------------------------
  // parseQuery

  /**
   * `addToQueryString`: appends a piece to the query string, and a span for
   * it to the source map when its location is known.
   */
  method AddToQueryString(queryString: string, sourceMap: seq<QuerySourceMapSpan>, piece: Piece, ghost pieces: seq<Piece>)
    returns (newQueryString: string, newSourceMap: seq<QuerySourceMapSpan>)
    requires queryString == QueryText(pieces) && sourceMap == SpansOf(pieces)
    ensures newQueryString == QueryText(pieces + [piece]) && newSourceMap == SpansOf(pieces + [piece])
    ensures newQueryString[..|queryString|] == queryString
  {
    newSourceMap := sourceMap;
    if piece.loc.Some? {
      newSourceMap := newSourceMap + [QuerySourceMapSpan(piece.loc.value, |queryString|, |queryString| + |piece.text|, piece.isTemplateExpression)];
    }
    newQueryString := queryString + piece.text;
    assert (pieces + [piece])[..|pieces|] == pieces;
  }

  /** The query string, source map and spread types compiled so far. */
  datatype Compiled = Compiled(queryString: string, sourceMap: seq<QuerySourceMapSpan>, spreadTypes: seq<Option<SpreadType>>)

  /** What compiling the first `k` expressions yields. */
  predicate CompiledUpTo(t: Template, sourceFile: SourceFile, k: nat, c: Compiled)
    requires |t.quasis| > 0 && k <= |t.expressions|
  {
    && c.queryString == QueryText(Pieces(t, k))
    && c.sourceMap == SpansOf(Pieces(t, k))
    && ResolvedSpreadTypes(t, sourceFile, k) == Ok(c.spreadTypes)
  }

  lemma CompileFails(t: Template, sourceFile: SourceFile, k: nat, failure: Failure)
    requires |t.quasis| > 0 && k < |t.expressions|
    requires ResolvedSpreadTypes(t, sourceFile, k).Ok? && ResolvedSpreadTypes(t, sourceFile, k + 1) == Err(failure)
    ensures Compile(t, sourceFile) == Err(failure)
    ensures ReportedWarnings(t, sourceFile, |t.expressions|) == ReportedWarnings(t, sourceFile, k)
  {
    FailureIsFinal(t, sourceFile, k + 1, |t.expressions|);
    FailureWarnings(t, sourceFile, k + 1, |t.expressions|);
  }

  lemma CompileSucceeds(t: Template, sourceFile: SourceFile, c: Compiled)
    requires |t.quasis| > 0 && CompiledUpTo(t, sourceFile, |t.expressions|, c)
    ensures Compile(t, sourceFile) == Ok(QueryContext(SpreadTypesMap(c.spreadTypes), c.queryString, sourceFile, c.sourceMap))
  {
  }

  /**
   * One round of the loop of `parseQuery`: appends the placeholder of the
   * expression, resolves its spread type, warns when its properties cannot
   * be inferred, and appends the text part after it.
   */
  method AddExpression(t: Template, sourceFile: SourceFile, index: nat, c: Compiled, diagnostics: DiagnosticsCollector,
                       ghost before: seq<Diagnostic>)
    returns (r: Result<Compiled>)
    requires |t.quasis| > 0 && index < |t.expressions|
    requires CompiledUpTo(t, sourceFile, index, c)
    requires diagnostics.reported == before + ReportedWarnings(t, sourceFile, index)
    modifies diagnostics
    ensures r.Err? ==> ResolvedSpreadTypes(t, sourceFile, index + 1) == Err(r.failure)
                       && diagnostics.reported == old(diagnostics.reported)
    ensures r.Ok? ==> CompiledUpTo(t, sourceFile, index + 1, r.value)
                      && diagnostics.reported == before + ReportedWarnings(t, sourceFile, index + 1)
    ensures diagnostics.collecting == old(diagnostics.collecting)
  {
    var expression := t.expressions[index];
    var paramNumber := index + 1;
    ghost var pieces := Pieces(t, index);

    var placeholder := CreateExpressionPlaceholder(expression, paramNumber);
    var queryString, sourceMap := AddToQueryString(c.queryString, c.sourceMap, Piece(placeholder, expression.loc, true), pieces);
    pieces := pieces + [ExpressionPiece(expression, paramNumber)];

    var spreadType := ResolveSpreadExpressionType(expression, sourceFile);
    if spreadType.Err? {
      return Err(spreadType.failure);
    }
    var spreadTypes := c.spreadTypes + [spreadType.value];

    WarningsStep(t, sourceFile, index);
    if spreadType.value == Some(AnySpread) && sourceFile.hasTypeInfo {
      diagnostics.Report(SpreadWarning(expression, sourceFile));
      AppendAssociates(before, ReportedWarnings(t, sourceFile, index), [SpreadWarning(expression, sourceFile)]);
    } else {
      assert ReportedWarnings(t, sourceFile, index + 1) == ReportedWarnings(t, sourceFile, index);
    }

    if paramNumber < |t.quasis| {
      queryString, sourceMap := AddToQueryString(queryString, sourceMap, QuasiPiece(t.quasis[paramNumber]), pieces);
      pieces := pieces + [QuasiPiece(t.quasis[paramNumber])];
    }
    assert pieces == Pieces(t, paramNumber);
    r := Ok(Compiled(queryString, sourceMap, spreadTypes));
  }

  /**
   * The loop of `parseQuery`: compiles every expression in turn and stops at
   * the first failure, having reported the warnings of the expressions
   * before it.
   */
  method CompileTemplate(t: Template, sourceFile: SourceFile, diagnostics: DiagnosticsCollector)
    returns (r: Result<QueryContext>)
    requires |t.quasis| > 0
    modifies diagnostics
    ensures r == Compile(t, sourceFile)
    ensures diagnostics.reported == old(diagnostics.reported) + ReportedWarnings(t, sourceFile, |t.expressions|)
    ensures diagnostics.collecting == old(diagnostics.collecting)
  {
    var queryString, sourceMap := AddToQueryString("", [], QuasiPiece(t.quasis[0]), []);
    assert [QuasiPiece(t.quasis[0])] == Pieces(t, 0);
    var c := Compiled(queryString, sourceMap, []);
    ghost var before := diagnostics.reported;

    for index := 0 to |t.expressions|
      invariant CompiledUpTo(t, sourceFile, index, c)
      invariant diagnostics.reported == before + ReportedWarnings(t, sourceFile, index)
      invariant diagnostics.collecting == old(diagnostics.collecting)
    {
      var next := AddExpression(t, sourceFile, index, c, diagnostics, before);
      if next.Err? {
        CompileFails(t, sourceFile, index, next.failure);
        return Err(next.failure);
      }
      c := next.value;
    }
    CompileSucceeds(t, sourceFile, c);
    r := Ok(QueryContext(SpreadTypesMap(c.spreadTypes), c.queryString, sourceFile, c.sourceMap));
  }

  /**
   * `parseQuery`: compiles the template, reporting a warning for every spread
   * whose properties cannot be inferred, then parses the compiled query. It
   * stops at the first spread call without arguments.
   */
  method ParseQuery(t: Template, sourceFile: SourceFile, parse: ParseResult, diagnostics: DiagnosticsCollector)
    returns (r: Result<Query>)
    requires |t.quasis| > 0
    requires parse.ParseError? ==> t.quasis[0].loc.Some?
    modifies diagnostics
    ensures Compile(t, sourceFile).Err? ==> r == Err(Compile(t, sourceFile).failure)
    ensures r.Ok? ==> Compile(t, sourceFile).Ok? && WellFormed(r.value, Compile(t, sourceFile).value)
    ensures Compile(t, sourceFile).Ok? && parse.Parsed? && parse.statements != []
            && QueryTraversal.CreateQueryNodePath(parse.statements[0], [], "").Ok? ==>
              r == InstantiateQuery(QueryTraversal.CreateQueryNodePath(parse.statements[0], [], "").value, Compile(t, sourceFile).value)
    ensures Compile(t, sourceFile).Err? || parse.Parsed? ==>
              diagnostics.reported == old(diagnostics.reported) + ReportedWarnings(t, sourceFile, |t.expressions|)
    ensures Compile(t, sourceFile).Ok? && parse.ParseError? ==>
              && r.Ok? && |r.value.sourceMap| > 0
              && diagnostics.reported == old(diagnostics.reported) + ReportedWarnings(t, sourceFile, |t.expressions|)
                   + [CreateQueryDiagnostic(Error, SyntaxError(Trim(r.value.query)), r.value, parse.cursorPosition - 1)]
    ensures diagnostics.collecting == old(diagnostics.collecting)
  {
    var compiled := CompileTemplate(t, sourceFile, diagnostics);
    if compiled.Err? {
      return Err(compiled.failure);
    }
    var ctx := compiled.value;
    assert parse.ParseError? ==> |ctx.sourceMap| > 0 by {
      if parse.ParseError? {
        SpansStartWithFirstPart(t, |t.expressions|);
      }
    }
    r := ParsePostgresQuery(ctx.query, sourceFile, ctx.sourceMap, ctx.spreadTypes, parse, diagnostics);
  }
}

=== FILE: pg_node_types.dfy ===
/**
 * Parse-tree nodes as pg-query-parser produces them: plain JSON where every
 * node is an object with a single key, the node type, whose value holds the
 * node's properties (`{ColumnRef: {fields: [...], location: 7}}`).
 *
 * Nodes are kept as generic JSON values rather than one datatype per node
 * type, because the core walks them by their keys, in key order, whatever
 * their type, and because "not exactly one key" is an error it reports.
 */
module PgNodeTypes {

  import opened Wrappers
  import opened Failures

  /** A JSON value; object fields keep their insertion order, as `Object.keys` does. */
  datatype Value =
    | Null
    | Bool(b: bool)
    | Num(n: int)
    | Str(s: string)
    | Arr(items: seq<Value>)
    | Obj(fields: seq<Field>)

  datatype Field = Field(key: string, value: Value)

  /** Number of JSON values in `v`, used as the termination measure of every walk. */
  function Size(v: Value): (n: nat)
    ensures n >= 1
  {
    match v
    case Arr(items) => 1 + SizeItems(items)
    case Obj(fields) => 1 + SizeFields(fields)
    case _ => 1
  }

  function SizeItems(items: seq<Value>): nat
  {
    if items == [] then 0 else Size(items[0]) + SizeItems(items[1..])
  }

  function SizeFields(fields: seq<Field>): nat
  {
    if fields == [] then 0 else Size(fields[0].value) + SizeFields(fields[1..])
  }

  /** JavaScript truthiness. */
  predicate Truthy(v: Value) {
    match v
    case Null => false
    case Bool(b) => b
    case Num(n) => n != 0
    case Str(s) => s != ""
    case _ => true
  }

  function KeysOf(fields: seq<Field>): (keys: seq<string>)
    ensures |keys| == |fields|
    ensures forall i :: 0 <= i < |fields| ==> keys[i] == fields[i].key
  {
    if fields == [] then [] else [fields[0].key] + KeysOf(fields[1..])
  }

  /** `Object.keys(v)`; a value that is not an object has none. */
  function Keys(v: Value): seq<string>
  {
    if v.Obj? then KeysOf(v.fields) else []
  }

  /** `key in v`. */
  predicate Has(v: Value, key: string) {
    key in Keys(v)
  }

  /** The value of the first field named `key`. */
  function Lookup(fields: seq<Field>, key: string): (r: Option<Value>)
    ensures r.Some? <==> key in KeysOf(fields)
    ensures r.Some? ==> Size(r.value) <= SizeFields(fields)
  {
    if fields == [] then None
    else if fields[0].key == key then Some(fields[0].value)
    else Lookup(fields[1..], key)
  }

  /** A value found under `key` is that of a field named `key`. */
  lemma {:induction false} LookupField(fields: seq<Field>, key: string)
    requires Lookup(fields, key).Some?
    ensures exists i :: 0 <= i < |fields| && fields[i] == Field(key, Lookup(fields, key).value)
  {
    if fields[0].key != key {
      LookupField(fields[1..], key);
      var i :| 0 <= i < |fields[1..]| && fields[1..][i] == Field(key, Lookup(fields, key).value);
      assert fields[i + 1] == fields[1..][i];
    }
  }

  /** `v[key]`, with `undefined` read as `Null`. */
  function Get(v: Value, key: string): (r: Value)
    ensures Has(v, key) ==> Size(r) < Size(v)
    ensures !Has(v, key) ==> r == Null
  {
    if v.Obj? then Lookup(v.fields, key).GetOr(Null) else Null
  }

  function StrOf(v: Value): string {
    if v.Str? then v.s else ""
  }

  function ItemsOf(v: Value): seq<Value> {
    if v.Arr? then v.items else []
  }

  function FieldsOf(v: Value): seq<Field> {
    if v.Obj? then v.fields else []
  }

  /** The properties of a node of type `nodeType`: the fields of `node[nodeType]`. */
  function BodyFields(node: Value, nodeType: string): (fields: seq<Field>)
    ensures SizeFields(fields) < Size(node)
  {
    var body := Get(node, nodeType);
    FieldsOf(body)
  }

  /** `node[tag][key]`. */
  function Prop(node: Value, tag: string, key: string): Value {
    Get(Get(node, tag), key)
  }

  /** A node `{tag: {props}}`. */
  function Node(tag: string, props: seq<Field>): Value {
    Obj([Field(tag, Obj(props))])
  }

  const ColumnRefTag := "ColumnRef"
  const CommonTableExprTag := "CommonTableExpr"
  const ParamRefTag := "ParamRef"
  const StringTag := "String"
  const RangeVarTag := "RangeVar"
  const ResTargetTag := "ResTarget"
  const SelectStmtTag := "SelectStmt"
  const StarTag := "A_Star"

  predicate IsColumnRef(node: Value) { Has(node, ColumnRefTag) }
  predicate IsCommonTableExpr(node: Value) { Has(node, CommonTableExprTag) }
  predicate IsParamRef(node: Value) { Has(node, ParamRefTag) }
  predicate IsPgString(node: Value) { Has(node, StringTag) }
  predicate IsRelationRef(node: Value) { Has(node, RangeVarTag) }
  predicate IsResTarget(node: Value) { Has(node, ResTargetTag) }
  predicate IsSelectStmt(node: Value) { Has(node, SelectStmtTag) }
  predicate IsStar(node: Value) { Has(node, StarTag) }

  /** The node type: the object's only key; anything else is not a node. */
  function GetNodeType(node: Value): (r: Result<string>)
    ensures r.Ok? <==> |Keys(node)| == 1
    ensures r.Ok? ==> Keys(node) == [r.value]
    ensures r.Err? ==> r.failure == NotANode(Keys(node))
  {
    var keys := Keys(node);
    if |keys| != 1 then Err(NotANode(keys)) else Ok(keys[0])
  }

  /**
   * On a node, a tag predicate holds exactly for the node's own type, so at
   * most one of `IsColumnRef`, `IsPgString`, ... holds for it.
   */
  lemma TagMatchesNodeType(node: Value, tag: string)
    requires GetNodeType(node).Ok?
    ensures Has(node, tag) <==> GetNodeType(node).value == tag
  {
  }

  lemma NodeHasItsTag(tag: string, props: seq<Field>)
    ensures GetNodeType(Node(tag, props)) == Ok(tag)
    ensures Has(Node(tag, props), tag)
    ensures BodyFields(Node(tag, props), tag) == props
  {
    assert Keys(Node(tag, props)) == [tag];
  }

  // Typed views on the node shapes the core reads.

  /** `node.ColumnRef.fields` */
  function ColumnRefFields(node: Value): seq<Value> {
    ItemsOf(Prop(node, ColumnRefTag, "fields"))
  }

  /** `node.String.str` */
  function StringValue(node: Value): string {
    StrOf(Prop(node, StringTag, "str"))
  }

  /** `node.RangeVar.relname` */
  function RelationName(node: Value): string {
    StrOf(Prop(node, RangeVarTag, "relname"))
  }

  /** `node.RangeVar.alias ? node.RangeVar.alias.Alias.aliasname : undefined` */
  function RelationAlias(node: Value): Option<string> {
    var alias := Prop(node, RangeVarTag, "alias");
    if Truthy(alias) then Some(StrOf(Prop(alias, "Alias", "aliasname"))) else None
  }

  /** `node.ResTarget.name` */
  function ResTargetName(node: Value): Value {
    Prop(node, ResTargetTag, "name")
  }

  /** `node.ResTarget.val` */
  function ResTargetVal(node: Value): Value {
    Prop(node, ResTargetTag, "val")
  }

  /** `node.ParamRef.number` */
  function ParamRefNumber(node: Value): Value {
    Prop(node, ParamRefTag, "number")
  }

  /** `node.CommonTableExpr.ctename` */
  function CteName(node: Value): string {
    StrOf(Prop(node, CommonTableExprTag, "ctename"))
  }
}

=== FILE: query_traversal.dfy ===
/**
 * Paths into the parse tree and the pre-order walk over it.
 *
 * A path is a node together with the chain of paths above it. The walk visits a
 * node, asks the callback whether to go on below it, and then visits the node's
 * properties in key order: arrays item by item (skipping falsy items and
 * flattening nested arrays), objects as child nodes, and nothing else.
 *
 * The callbacks of the core do two things: they decide whether to descend and
 * they collect paths. The model splits the two: `descend` decides, and the
 * callers fold over the list of visited paths the walk returns. A walk that
 * meets an object which is not a node stops there, with the paths visited so
 * far and the failure.
 */
module QueryTraversal {

  import opened Wrappers
  import opened Failures
  import opened JsStrings
  import opened PgNodeTypes

  /**
   * A node, the paths of its ancestors from the root down, the key of the
   * parent property it was found under ("" at the root), and its node type.
   */
  datatype Path = Path(node: Value, ancestors: seq<Path>, parentPropKey: string, nodeType: string)

  /** The path's node type is the node's only key, as `createQueryNodePath` guarantees. */
  predicate ValidPath(p: Path) {
    Keys(p.node) == [p.nodeType]
  }

  function CreateQueryNodePath(node: Value, ancestors: seq<Path>, parentPropKey: string): (r: Result<Path>)
    ensures r.Ok? <==> |Keys(node)| == 1
    ensures r.Ok? ==> ValidPath(r.value)
    ensures r.Ok? ==> r.value.node == node && r.value.ancestors == ancestors && r.value.parentPropKey == parentPropKey
    ensures r.Err? ==> r.failure == NotANode(Keys(node))
  {
    var nodeType :- GetNodeType(node);
    Ok(Path(node, ancestors, parentPropKey, nodeType))
  }

  /** The path of `node`, found under property `parentPropKey` of `parent`'s node. */
  function CreateQueryNodeSubpath(parent: Path, node: Value, parentPropKey: string): (r: Result<Path>)
    ensures r.Ok? ==> r.value.ancestors == parent.ancestors + [parent] && GetQueryPathParent(r.value) == Some(parent)
  {
    CreateQueryNodePath(node, parent.ancestors + [parent], parentPropKey)
  }

  function GetQueryPathParent(p: Path): (r: Option<Path>)
    ensures r.None? <==> p.ancestors == []
    ensures r.Some? ==> r.value in p.ancestors
  {
    if p.ancestors == [] then None else Some(p.ancestors[|p.ancestors| - 1])
  }

  /** The paths a walk visited, in visiting order, and the error that stopped it, if any. */
  datatype Traversal = Traversal(visited: seq<Path>, failure: Option<Failure>)

  const Nothing := Traversal([], None)

  /** Runs `rest` after `first`, unless `first` was stopped by an error. */
  function Then(first: Traversal, rest: Traversal): Traversal {
    if first.failure.Some? then first else Traversal(first.visited + rest.visited, rest.failure)
  }

  lemma ThenAssociative(a: Traversal, b: Traversal, c: Traversal)
    ensures Then(Then(a, b), c) == Then(a, Then(b, c))
  {
  }

  /** The walk below an existing path: visit it, then its properties if `descend` allows. */
  function Walk(p: Path, descend: Path -> bool): Traversal
    decreases Size(p.node), 0, 0
  {
    if !descend(p) then Traversal([p], None)
    else Then(Traversal([p], None), WalkFields(BodyFields(p.node, p.nodeType), p.ancestors + [p], descend))
  }

  /** `traverseSubTree(node, ancestors, callback)`: make the node's path, then walk it. */
  function WalkNode(node: Value, ancestors: seq<Path>, parentPropKey: string, descend: Path -> bool): Traversal
    decreases Size(node), 0, 1
  {
    match CreateQueryNodePath(node, ancestors, parentPropKey)
    case Err(f) => Traversal([], Some(f))
    case Ok(p) => Walk(p, descend)
  }

  /** The properties of one node, in key order. */
  function WalkFields(fields: seq<Field>, ancestors: seq<Path>, descend: Path -> bool): Traversal
    decreases SizeFields(fields), 2, |fields|
  {
    if fields == [] then Nothing
    else Then(WalkProperty(fields[0].value, ancestors, fields[0].key, descend), WalkFields(fields[1..], ancestors, descend))
  }

  /** One property value: an array is walked item by item, an object as a node, anything else is skipped. */
  function WalkProperty(v: Value, ancestors: seq<Path>, key: string, descend: Path -> bool): Traversal
    decreases Size(v), 1, 0
  {
    match v
    case Arr(items) => WalkItems(items, ancestors, key, descend)
    case Obj(_) => WalkNode(v, ancestors, key, descend)
    case _ => Nothing
  }

  /** `traverseArray`: falsy items are skipped and nested arrays flattened. */
  function WalkItems(items: seq<Value>, ancestors: seq<Path>, key: string, descend: Path -> bool): Traversal
    decreases SizeItems(items), 2, |items|
  {
    if items == [] then Nothing
    else
      var item := items[0];
      var first :=
        if !Truthy(item) then Nothing
        else if item.Arr? then
          assert Size(item) == 1 + SizeItems(item.items);
          WalkItems(item.items, ancestors, key, descend)
        else WalkNode(item, ancestors, key, descend);
      Then(first, WalkItems(items[1..], ancestors, key, descend))
  }

  // ---------------------------------------------------------------------------
  // The shape of a walk: every visited path is a node whose parent, when the
  // parent lies inside the walk, was visited before it and was allowed to be
  // descended into.

  predicate IsPrefix(prefix: seq<Path>, s: seq<Path>) {
    |prefix| <= |s| && s[..|prefix|] == prefix
  }

  /**
   * The `j`-th visited path, relative to the ancestors `base` the walk started
   * with: it is a node; it lies below `base`; its parent, if inside the walk,
   * was visited earlier and is the last entry of its ancestors; and every
   * ancestor inside the walk was allowed to be descended into.
   */
  ghost predicate NestedAt(vs: seq<Path>, j: nat, base: seq<Path>, descend: Path -> bool)
    requires j < |vs|
  {
    var q := vs[j];
    ValidPath(q)
    && IsPrefix(base, q.ancestors)
    && (|q.ancestors| > |base| ==>
          var parent := q.ancestors[|q.ancestors| - 1];
          parent in vs[..j] && q.ancestors == parent.ancestors + [parent])
    && (forall k | |base| <= k < |q.ancestors| :: descend(q.ancestors[k]))
  }

  ghost predicate WellNested(vs: seq<Path>, base: seq<Path>, descend: Path -> bool) {
    forall j | 0 <= j < |vs| :: NestedAt(vs, j, base, descend)
  }

  /** Every visited node is at most `bound` large. */
  ghost predicate Bounded(vs: seq<Path>, bound: int) {
    forall j | 0 <= j < |vs| :: Size(vs[j].node) <= bound
  }

  lemma WellNestedAppend(a: seq<Path>, b: seq<Path>, base: seq<Path>, descend: Path -> bool)
    requires WellNested(a, base, descend) && WellNested(b, base, descend)
    ensures WellNested(a + b, base, descend)
  {
    var vs := a + b;
    forall j | 0 <= j < |vs|
      ensures NestedAt(vs, j, base, descend)
    {
      if j < |a| {
        assert vs[j] == a[j] && vs[..j] == a[..j];
        assert NestedAt(a, j, base, descend);
      } else {
        assert vs[j] == b[j - |a|] && vs[..j] == a + b[..j - |a|];
        assert NestedAt(b, j - |a|, base, descend);
      }
    }
  }

  lemma WellNestedThen(t1: Traversal, t2: Traversal, base: seq<Path>, descend: Path -> bool, bound: int)
    requires WellNested(t1.visited, base, descend) && WellNested(t2.visited, base, descend)
    requires Bounded(t1.visited, bound) && Bounded(t2.visited, bound)
    ensures WellNested(Then(t1, t2).visited, base, descend)
    ensures Bounded(Then(t1, t2).visited, bound)
  {
    if t1.failure.None? {
      WellNestedAppend(t1.visited, t2.visited, base, descend);
    }
  }

  /** A walk below `p` whose descendants were walked from `p`'s children. */
  lemma WellNestedCons(p: Path, rest: seq<Path>, descend: Path -> bool)
    requires ValidPath(p) && descend(p)
    requires WellNested(rest, p.ancestors + [p], descend)
    ensures WellNested([p] + rest, p.ancestors, descend)
  {
    var vs := [p] + rest;
    var base := p.ancestors;
    forall j | 0 <= j < |vs|
      ensures NestedAt(vs, j, base, descend)
    {
      if j == 0 {
        assert vs[0] == p;
      } else {
        var q := vs[j];
        assert q == rest[j - 1];
        assert NestedAt(rest, j - 1, base + [p], descend);
        assert vs[..j] == [p] + rest[..j - 1];
        assert q.ancestors[..|base|] == (q.ancestors[..|base| + 1])[..|base|];
        if |q.ancestors| == |base| + 1 {
          assert q.ancestors == base + [p];
        }
        forall k | |base| <= k < |q.ancestors|
          ensures descend(q.ancestors[k])
        {
          if k == |base| {
            assert q.ancestors[k] == (q.ancestors[..|base| + 1])[k];
          }
        }
      }
    }
  }

  lemma {:induction false} WalkShape(p: Path, descend: Path -> bool)
    requires ValidPath(p)
    ensures |Walk(p, descend).visited| >= 1 && Walk(p, descend).visited[0] == p
    ensures WellNested(Walk(p, descend).visited, p.ancestors, descend)
    ensures Bounded(Walk(p, descend).visited[1..], Size(p.node) - 1)
    decreases Size(p.node), 0, 0
  {
    var t := Walk(p, descend);
    if descend(p) {
      var fields := BodyFields(p.node, p.nodeType);
      var rest := WalkFields(fields, p.ancestors + [p], descend);
      WalkFieldsShape(fields, p.ancestors + [p], descend);
      assert t.visited == [p] + rest.visited;
      WellNestedCons(p, rest.visited, descend);
      assert t.visited[1..] == rest.visited;
    } else {
      assert t.visited == [p];
      assert NestedAt(t.visited, 0, p.ancestors, descend);
    }
  }

  lemma {:induction false} WalkNodeShape(node: Value, ancestors: seq<Path>, key: string, descend: Path -> bool)
    ensures WellNested(WalkNode(node, ancestors, key, descend).visited, ancestors, descend)
    ensures Bounded(WalkNode(node, ancestors, key, descend).visited, Size(node))
    decreases Size(node), 0, 1
  {
    var r := CreateQueryNodePath(node, ancestors, key);
    if r.Ok? {
      var p := r.value;
      WalkShape(p, descend);
      var vs := Walk(p, descend).visited;
      assert vs == [p] + vs[1..];
      forall j | 0 <= j < |vs|
        ensures Size(vs[j].node) <= Size(node)
      {
        if j > 0 {
          assert vs[j] == vs[1..][j - 1];
        }
      }
    }
  }

  lemma {:induction false} WalkFieldsShape(fields: seq<Field>, ancestors: seq<Path>, descend: Path -> bool)
    ensures WellNested(WalkFields(fields, ancestors, descend).visited, ancestors, descend)
    ensures Bounded(WalkFields(fields, ancestors, descend).visited, SizeFields(fields))
    decreases SizeFields(fields), 2, |fields|
  {
    if fields != [] {
      WalkPropertyShape(fields[0].value, ancestors, fields[0].key, descend);
      WalkFieldsShape(fields[1..], ancestors, descend);
      WellNestedThen(WalkProperty(fields[0].value, ancestors, fields[0].key, descend),
                     WalkFields(fields[1..], ancestors, descend), ancestors, descend, SizeFields(fields));
    }
  }

  lemma {:induction false} WalkPropertyShape(v: Value, ancestors: seq<Path>, key: string, descend: Path -> bool)
    ensures WellNested(WalkProperty(v, ancestors, key, descend).visited, ancestors, descend)
    ensures Bounded(WalkProperty(v, ancestors, key, descend).visited, Size(v))
    decreases Size(v), 1, 0
  {
    match v
    case Arr(items) => WalkItemsShape(items, ancestors, key, descend);
    case Obj(_) => WalkNodeShape(v, ancestors, key, descend);
    case _ =>
  }

  lemma {:induction false} WalkItemsShape(items: seq<Value>, ancestors: seq<Path>, key: string, descend: Path -> bool)
    ensures WellNested(WalkItems(items, ancestors, key, descend).visited, ancestors, descend)
    ensures Bounded(WalkItems(items, ancestors, key, descend).visited, SizeItems(items))
    decreases SizeItems(items), 2, |items|
  {
    if items != [] {
      var item := items[0];
      if Truthy(item) {
        if item.Arr? {
          assert Size(item) == 1 + SizeItems(item.items);
          WalkItemsShape(item.items, ancestors, key, descend);
        } else {
          WalkNodeShape(item, ancestors, key, descend);
        }
      }
      var first :=
        if !Truthy(item) then Nothing
        else if item.Arr? then WalkItems(item.items, ancestors, key, descend)
        else WalkNode(item, ancestors, key, descend);
      WalkItemsShape(items[1..], ancestors, key, descend);
      WellNestedThen(first, WalkItems(items[1..], ancestors, key, descend), ancestors, descend, SizeItems(items));
    }
  }

  /**
   * Pre-order and pruning: the walk starts at `p`; every other visited path has
   * its parent visited before it; and no visited path lies below a path, other
   * than those above `p`, that `descend` refused.
   */
  lemma WalkIsPreOrder(p: Path, descend: Path -> bool, j: nat)
    requires ValidPath(p)
    requires 0 < j < |Walk(p, descend).visited|
    ensures var q := Walk(p, descend).visited[j];
      ValidPath(q)
      && |q.ancestors| > |p.ancestors|
      && q.ancestors[..|p.ancestors|] == p.ancestors
      && GetQueryPathParent(q).Some?
      && GetQueryPathParent(q).value in Walk(p, descend).visited[..j]
      && (forall k | |p.ancestors| <= k < |q.ancestors| :: descend(q.ancestors[k]))
      && Size(q.node) < Size(p.node)
  {
    var vs := Walk(p, descend).visited;
    WalkShape(p, descend);
    WalkDepth(p, descend, j);
    assert NestedAt(vs, j, p.ancestors, descend);
    assert vs[j] == vs[1..][j - 1];
  }

  /** Below the root, every visited path is deeper than the root. */
  lemma WalkDepth(p: Path, descend: Path -> bool, j: nat)
    requires ValidPath(p)
    requires 0 < j < |Walk(p, descend).visited|
    ensures |Walk(p, descend).visited[j].ancestors| > |p.ancestors|
  {
    if descend(p) {
      var fields := BodyFields(p.node, p.nodeType);
      var rest := WalkFields(fields, p.ancestors + [p], descend);
      WalkFieldsShape(fields, p.ancestors + [p], descend);
      assert Walk(p, descend).visited == [p] + rest.visited;
      assert NestedAt(rest.visited, j - 1, p.ancestors + [p], descend);
    }
  }

  /**
   * Every ancestor of a visited path that lies inside the walk was itself
   * visited earlier, at its own depth.
   */
  lemma {:induction false} AncestorVisited(p: Path, descend: Path -> bool, j: nat, k: nat)
    requires ValidPath(p)
    requires 0 < j < |Walk(p, descend).visited|
    requires |p.ancestors| <= k < |Walk(p, descend).visited[j].ancestors|
    ensures exists i :: 0 <= i < j && Walk(p, descend).visited[i] == Walk(p, descend).visited[j].ancestors[k]
                        && |Walk(p, descend).visited[i].ancestors| == k
    decreases j
  {
    var vs := Walk(p, descend).visited;
    WalkShape(p, descend);
    WalkDepth(p, descend, j);
    assert NestedAt(vs, j, p.ancestors, descend);
    var q := vs[j];
    var parent := q.ancestors[|q.ancestors| - 1];
    assert parent in vs[..j];
    var i :| 0 <= i < j && vs[..j][i] == parent;
    assert vs[i] == parent;
    if k < |q.ancestors| - 1 {
      assert q.ancestors[k] == parent.ancestors[k];
      AncestorVisited(p, descend, i, k);
    }
  }

  /**
   * Below the root, the ancestor of a visited path at the root's depth is the
   * root itself, and the ancestors deeper than that are smaller than the root.
   */
  lemma AncestorsInsideWalk(p: Path, descend: Path -> bool, j: nat)
    requires ValidPath(p)
    requires 0 < j < |Walk(p, descend).visited|
    ensures |Walk(p, descend).visited[j].ancestors| > |p.ancestors|
    ensures Walk(p, descend).visited[j].ancestors[|p.ancestors|] == p
    ensures forall k | |p.ancestors| < k < |Walk(p, descend).visited[j].ancestors| ::
              Size(Walk(p, descend).visited[j].ancestors[k].node) < Size(p.node)
  {
    var vs := Walk(p, descend).visited;
    WalkShape(p, descend);
    WalkDepth(p, descend, j);
    AncestorVisited(p, descend, j, |p.ancestors|);
    var i0 :| 0 <= i0 < j && vs[i0] == vs[j].ancestors[|p.ancestors|] && |vs[i0].ancestors| == |p.ancestors|;
    if i0 > 0 {
      WalkDepth(p, descend, i0);
    }
    forall k | |p.ancestors| < k < |vs[j].ancestors| ensures Size(vs[j].ancestors[k].node) < Size(p.node) {
      AncestorVisited(p, descend, j, k);
      var i :| 0 <= i < j && vs[i] == vs[j].ancestors[k] && |vs[i].ancestors| == k;
      WalkIsPreOrder(p, descend, i);
    }
  }

  /**
   * A visited path whose node is not the root's, seen from the root: it is a
   * node, smaller than the root, below the root, and every ancestor between
   * the root and it was descended into and is a different node than the root.
   */
  lemma VisitedBelowRoot(p: Path, descend: Path -> bool, q: Path)
    requires ValidPath(p)
    requires q in Walk(p, descend).visited && q.node != p.node
    ensures ValidPath(q) && Size(q.node) < Size(p.node)
    ensures |q.ancestors| > |p.ancestors| && q.ancestors[|p.ancestors|] == p
    ensures forall k | |p.ancestors| <= k < |q.ancestors| :: descend(q.ancestors[k])
    ensures forall k | |p.ancestors| < k < |q.ancestors| :: q.ancestors[k].node != p.node
  {
    var vs := Walk(p, descend).visited;
    WalkShape(p, descend);
    var j :| 0 <= j < |vs| && vs[j] == q;
    WalkIsPreOrder(p, descend, j);
    AncestorsInsideWalk(p, descend, j);
  }

  // ---------------------------------------------------------------------------
  // Pruning: a walk that may refuse to descend visits exactly the paths of the
  // unpruned walk none of whose ancestors inside the walk was refused. Pruning
  // a node therefore hides its descendants and nothing else; its siblings and
  // their subtrees are still visited, in the same order.

  ghost predicate AllowedBelow(q: Path, depth: nat, descend: Path -> bool) {
    forall k | depth <= k < |q.ancestors| :: descend(q.ancestors[k])
  }

  ghost function KeepAllowed(vs: seq<Path>, depth: nat, descend: Path -> bool): seq<Path> {
    if vs == [] then []
    else (if AllowedBelow(vs[0], depth, descend) then [vs[0]] else []) + KeepAllowed(vs[1..], depth, descend)
  }

  lemma {:induction false} KeepAllowedAppend(a: seq<Path>, b: seq<Path>, depth: nat, descend: Path -> bool)
    ensures KeepAllowed(a + b, depth, descend) == KeepAllowed(a, depth, descend) + KeepAllowed(b, depth, descend)
  {
    if a != [] {
      assert (a + b)[0] == a[0] && (a + b)[1..] == a[1..] + b;
      KeepAllowedAppend(a[1..], b, depth, descend);
    } else {
      assert a + b == b;
    }
  }

  ghost predicate AllBelow(vs: seq<Path>, prefix: seq<Path>) {
    forall j | 0 <= j < |vs| :: IsPrefix(prefix, vs[j].ancestors)
  }

  /** Below an allowed path, being allowed below it and below its parent coincide. */
  lemma {:induction false} KeepAllowedShift(vs: seq<Path>, p: Path, descend: Path -> bool)
    requires AllBelow(vs, p.ancestors + [p]) && descend(p)
    ensures KeepAllowed(vs, |p.ancestors|, descend) == KeepAllowed(vs, |p.ancestors| + 1, descend)
  {
    if vs != [] {
      var q := vs[0];
      assert IsPrefix(p.ancestors + [p], q.ancestors);
      assert q.ancestors[|p.ancestors|] == (p.ancestors + [p])[|p.ancestors|] == p;
      assert AllowedBelow(q, |p.ancestors|, descend) == AllowedBelow(q, |p.ancestors| + 1, descend);
      assert AllBelow(vs[1..], p.ancestors + [p]) by {
        forall j | 0 <= j < |vs[1..]| ensures IsPrefix(p.ancestors + [p], vs[1..][j].ancestors) {
          assert vs[1..][j] == vs[j + 1];
        }
      }
      KeepAllowedShift(vs[1..], p, descend);
    }
  }

  /** Below a refused path nothing is allowed. */
  lemma {:induction false} KeepAllowedRefused(vs: seq<Path>, p: Path, descend: Path -> bool)
    requires AllBelow(vs, p.ancestors + [p]) && !descend(p)
    ensures KeepAllowed(vs, |p.ancestors|, descend) == []
  {
    if vs != [] {
      var q := vs[0];
      assert IsPrefix(p.ancestors + [p], q.ancestors);
      assert q.ancestors[|p.ancestors|] == (p.ancestors + [p])[|p.ancestors|] == p;
      assert !AllowedBelow(q, |p.ancestors|, descend);
      assert AllBelow(vs[1..], p.ancestors + [p]) by {
        forall j | 0 <= j < |vs[1..]| ensures IsPrefix(p.ancestors + [p], vs[1..][j].ancestors) {
          assert vs[1..][j] == vs[j + 1];
        }
      }
      KeepAllowedRefused(vs[1..], p, descend);
    }
  }

  lemma WellNestedAllBelow(vs: seq<Path>, base: seq<Path>, descend: Path -> bool)
    requires WellNested(vs, base, descend)
    ensures AllBelow(vs, base)
  {
    forall j | 0 <= j < |vs| ensures IsPrefix(base, vs[j].ancestors) {
      assert NestedAt(vs, j, base, descend);
    }
  }

  lemma {:induction false} PrunedWalk(p: Path, descend: Path -> bool, everywhere: Path -> bool)
    requires forall q :: everywhere(q)
    requires Walk(p, everywhere).failure.None?
    ensures Walk(p, descend) == Traversal(KeepAllowed(Walk(p, everywhere).visited, |p.ancestors|, descend), None)
    decreases Size(p.node), 0, 0
  {
    var fields := BodyFields(p.node, p.nodeType);
    var below := p.ancestors + [p];
    var all := WalkFields(fields, below, everywhere);
    assert everywhere(p);
    assert Walk(p, everywhere).visited == [p] + all.visited;
    KeepAllowedAppend([p], all.visited, |p.ancestors|, descend);
    assert KeepAllowed([p], |p.ancestors|, descend) == [p];
    WalkFieldsShape(fields, below, everywhere);
    WellNestedAllBelow(all.visited, below, everywhere);
    if descend(p) {
      PrunedWalkFields(fields, below, descend, everywhere);
      KeepAllowedShift(all.visited, p, descend);
    } else {
      KeepAllowedRefused(all.visited, p, descend);
    }
  }

  lemma {:induction false} PrunedWalkNode(node: Value, ancestors: seq<Path>, key: string, descend: Path -> bool, everywhere: Path -> bool)
    requires forall q :: everywhere(q)
    requires WalkNode(node, ancestors, key, everywhere).failure.None?
    ensures WalkNode(node, ancestors, key, descend)
            == Traversal(KeepAllowed(WalkNode(node, ancestors, key, everywhere).visited, |ancestors|, descend), None)
    decreases Size(node), 0, 1
  {
    var r := CreateQueryNodePath(node, ancestors, key);
    if r.Ok? {
      PrunedWalk(r.value, descend, everywhere);
    }
  }

  lemma {:induction false} PrunedWalkFields(fields: seq<Field>, ancestors: seq<Path>, descend: Path -> bool, everywhere: Path -> bool)
    requires forall q :: everywhere(q)
    requires WalkFields(fields, ancestors, everywhere).failure.None?
    ensures WalkFields(fields, ancestors, descend)
            == Traversal(KeepAllowed(WalkFields(fields, ancestors, everywhere).visited, |ancestors|, descend), None)
    decreases SizeFields(fields), 2, |fields|
  {
    if fields != [] {
      var first := WalkProperty(fields[0].value, ancestors, fields[0].key, everywhere);
      var rest := WalkFields(fields[1..], ancestors, everywhere);
      PrunedWalkProperty(fields[0].value, ancestors, fields[0].key, descend, everywhere);
      PrunedWalkFields(fields[1..], ancestors, descend, everywhere);
      KeepAllowedAppend(first.visited, rest.visited, |ancestors|, descend);
    }
  }

  lemma {:induction false} PrunedWalkProperty(v: Value, ancestors: seq<Path>, key: string, descend: Path -> bool, everywhere: Path -> bool)
    requires forall q :: everywhere(q)
    requires WalkProperty(v, ancestors, key, everywhere).failure.None?
    ensures WalkProperty(v, ancestors, key, descend)
            == Traversal(KeepAllowed(WalkProperty(v, ancestors, key, everywhere).visited, |ancestors|, descend), None)
    decreases Size(v), 1, 0
  {
    match v
    case Arr(items) => PrunedWalkItems(items, ancestors, key, descend, everywhere);
    case Obj(_) => PrunedWalkNode(v, ancestors, key, descend, everywhere);
    case _ =>
  }

  lemma {:induction false} PrunedWalkItems(items: seq<Value>, ancestors: seq<Path>, key: string, descend: Path -> bool, everywhere: Path -> bool)
    requires forall q :: everywhere(q)
    requires WalkItems(items, ancestors, key, everywhere).failure.None?
    ensures WalkItems(items, ancestors, key, descend)
            == Traversal(KeepAllowed(WalkItems(items, ancestors, key, everywhere).visited, |ancestors|, descend), None)
    decreases SizeItems(items), 2, |items|
  {
    if items != [] {
      var item := items[0];
      if Truthy(item) {
        if item.Arr? {
          assert Size(item) == 1 + SizeItems(item.items);
          PrunedWalkItems(item.items, ancestors, key, descend, everywhere);
        } else {
          PrunedWalkNode(item, ancestors, key, descend, everywhere);
        }
      }
      var first :=
        if !Truthy(item) then Nothing
        else if item.Arr? then WalkItems(item.items, ancestors, key, everywhere)
        else WalkNode(item, ancestors, key, everywhere);
      var rest := WalkItems(items[1..], ancestors, key, everywhere);
      PrunedWalkItems(items[1..], ancestors, key, descend, everywhere);
      KeepAllowedAppend(first.visited, rest.visited, |ancestors|, descend);
    }
  }

  // ---------------------------------------------------------------------------
  // Imperative traversal, as the source writes it: a loop over the properties of
  // a node and a loop over the items of an array, recursing into each other.

  lemma {:induction false} FieldSizeBound(fields: seq<Field>, i: nat)
    requires i < |fields|
    ensures Size(fields[i].value) <= SizeFields(fields)
  {
    if i > 0 {
      FieldSizeBound(fields[1..], i - 1);
    }
  }

  lemma {:induction false} ItemSizeBound(items: seq<Value>, i: nat)
    requires i < |items|
    ensures Size(items[i]) <= SizeItems(items)
  {
    if i > 0 {
      ItemSizeBound(items[1..], i - 1);
    }
  }

  /** `traverseSubTree`: visits `node` and, unless `descend` refuses, every node below it. */
  method TraverseSubTree(node: Value, ancestors: seq<Path>, parentPropKey: string, descend: Path -> bool)
    returns (t: Traversal)
    ensures t == WalkNode(node, ancestors, parentPropKey, descend)
    decreases Size(node), 0, 1
  {
    var created := CreateQueryNodePath(node, ancestors, parentPropKey);
    if created.Err? {
      return Traversal([], Some(created.failure));
    }
    var path := created.value;
    if !descend(path) {
      return Traversal([path], None);
    }
    var fields := BodyFields(node, path.nodeType);
    var childAncestors := ancestors + [path];
    var visited := [path];
    for i := 0 to |fields|
      invariant Then(Traversal(visited, None), WalkFields(fields[i..], childAncestors, descend))
                == WalkNode(node, ancestors, parentPropKey, descend)
    {
      assert fields[i..][0] == fields[i] && fields[i..][1..] == fields[i + 1..];
      var key := fields[i].key;
      var propValue := fields[i].value;
      FieldSizeBound(fields, i);
      var sub := Nothing;
      if propValue.Arr? {
        sub := TraverseArray(propValue.items, childAncestors, key, descend);
      } else if propValue.Obj? {
        sub := TraverseSubTree(propValue, childAncestors, key, descend);
      }
      assert sub == WalkProperty(propValue, childAncestors, key, descend);
      ThenAssociative(Traversal(visited, None), sub, WalkFields(fields[i + 1..], childAncestors, descend));
      if sub.failure.Some? {
        return Traversal(visited + sub.visited, sub.failure);
      }
      visited := visited + sub.visited;
    }
    assert fields[|fields|..] == [];
    return Traversal(visited, None);
  }

  /** `traverseArray`: the items of an array, skipping falsy ones and flattening nested arrays. */
  method TraverseArray(items: seq<Value>, ancestors: seq<Path>, parentPropKey: string, descend: Path -> bool)
    returns (t: Traversal)
    ensures t == WalkItems(items, ancestors, parentPropKey, descend)
    decreases SizeItems(items), 2, |items|
  {
    var visited := [];
    for i := 0 to |items|
      invariant Then(Traversal(visited, None), WalkItems(items[i..], ancestors, parentPropKey, descend))
                == WalkItems(items, ancestors, parentPropKey, descend)
    {
      assert items[i..][0] == items[i] && items[i..][1..] == items[i + 1..];
      var item := items[i];
      ItemSizeBound(items, i);
      var sub := Nothing;
      if !Truthy(item) {
        // a hole or a null entry
      } else if item.Arr? {
        sub := TraverseArray(item.items, ancestors, parentPropKey, descend);
      } else {
        sub := TraverseSubTree(item, ancestors, parentPropKey, descend);
      }
      ThenAssociative(Traversal(visited, None), sub, WalkItems(items[i + 1..], ancestors, parentPropKey, descend));
      if sub.failure.Some? {
        return Traversal(visited + sub.visited, sub.failure);
      }
      visited := visited + sub.visited;
    }
    assert items[|items|..] == [];
    return Traversal(visited, None);
  }

  /**
   * `findParentQueryStatement`: the nearest ancestor whose node type ends in
   * "Stmt", searching from the parent upwards.
   */
  method FindParentQueryStatement(p: Path) returns (r: Option<Path>)
    ensures r.Some? ==> exists k :: 0 <= k < |p.ancestors| && r.value == p.ancestors[k]
                          && EndsWith(r.value.nodeType, "Stmt")
                          && forall m :: k < m < |p.ancestors| ==> !EndsWith(p.ancestors[m].nodeType, "Stmt")
    ensures r.None? ==> forall m :: 0 <= m < |p.ancestors| ==> !EndsWith(p.ancestors[m].nodeType, "Stmt")
  {
    var k := |p.ancestors|;
    while k > 0
      invariant 0 <= k <= |p.ancestors|
      invariant forall m :: k <= m < |p.ancestors| ==> !EndsWith(p.ancestors[m].nodeType, "Stmt")
    {
      k := k - 1;
      var ancestor := p.ancestors[k];
      if EndsWith(ancestor.nodeType, "Stmt") {
        return Some(ancestor);
      }
    }
    return None;
  }
}

=== FILE: query_types.dfy ===
/**
 * The records the pipeline passes between its stages: source positions, the
 * source map of a compiled template, table and column references, table
 * schemas and the query record built from a parse tree.
 */
module QueryTypes {

  import opened Wrappers
  import opened QueryTraversal

  /**
   * The name the template compiler gives the column of a `spreadUpdate`
   * placeholder. Its value is defined outside the modelled files; the model
   * only relies on it being one fixed string.
   */
  const PlaceholderColumnName: string

  datatype Position = Position(line: int, column: int)

  /** A location in the source file; `end` is absent for locations computed from a query offset. */
  datatype SourceLocation = SourceLocation(start: Position, end: Option<Position>)

  /** A source file; `hasTypeInfo` says whether TypeScript type information is available for it. */
  datatype SourceFile = SourceFile(filePath: string, fileContent: string, hasTypeInfo: bool)

  /** A stretch `[queryStartIndex, queryEndIndex)` of the query string and where it came from. */
  datatype QuerySourceMapSpan = QuerySourceMapSpan(
    sourceLocation: SourceLocation,
    queryStartIndex: int,
    queryEndIndex: int,
    isTemplateExpression: bool)

  /**
   * What TypeScript could tell about a spread argument: its property names, or
   * nothing (`spreadTypeAny`, an object without enumerable keys).
   */
  datatype SpreadType = AnySpread | Properties(keys: seq<string>) {
    /** `Object.keys(spreadType)` */
    function Keys(): seq<string> {
      if AnySpread? then [] else keys
    }
  }

  /** A relation mentioned by a query: its real name, its alias if any, and where. */
  datatype TableReference = TableReference(tableName: string, alias: Option<string>, path: Path)

  /**
   * A column mentioned by a query. `Qualified` names its table; `Unqualified`
   * lists the tables in scope instead and `any` marks the placeholder of a
   * spread whose properties are unknown; `Resolved` is an unqualified
   * reference to which the resolver added the table (`{...ref, tableName}`).
   */
  datatype ColumnReference =
    | Qualified(tableName: string, columnName: string, path: Path)
    | Unqualified(tableRefsInScope: seq<TableReference>, columnName: string, path: Path, any: bool)
    | Resolved(tableName: string, tableRefsInScope: seq<TableReference>, columnName: string, path: Path, any: bool)
  {
    /** `"tableName" in ref` */
    predicate HasTableName() {
      !Unqualified?
    }

    /** `ref.any || false` */
    predicate IsUnresolvable() {
      !Qualified? && any
    }

    /** `ref.columnName === "*"` */
    predicate IsAllOf() {
      columnName == "*"
    }
  }

  /** A column descriptor of a table schema; only `hasDefault` matters to validation. */
  datatype ColumnDescriptor = ColumnDescriptor(columnType: string, hasDefault: bool)

  /** `Schema.Any`: a column of unknown type without a default. */
  const AnyColumn := ColumnDescriptor("any", false)

  /** A column descriptor dictionary, in insertion order. */
  type Descriptors = seq<(string, ColumnDescriptor)>

  datatype TableSchema = TableSchema(
    tableName: string,
    columnNames: seq<string>,
    columnDescriptors: Descriptors,
    sourceFile: SourceFile,
    loc: Option<SourceLocation>)

  /**
   * A (sub)query: its statement type ("SELECT", "INSERT", ...), its path in
   * the parse tree, the CTE name it is exposed under, the columns and tables
   * it references, the columns it returns, whether those flow into the parent
   * query, its subqueries, and the query text, file and source map it shares
   * with the whole template.
   */
  datatype Query = Query(
    queryType: string,
    path: Path,
    exposedAsTable: Option<string>,
    referencedColumns: seq<ColumnReference>,
    referencedTables: seq<TableReference>,
    returnedColumns: seq<ColumnReference>,
    returnsIntoParentQuery: bool,
    subqueries: seq<Query>,
    query: string,
    sourceFile: SourceFile,
    sourceMap: seq<QuerySourceMapSpan>)

  /** The expected result row type of a query invocation and where it was written. */
  datatype ResultTypeAssertion = ResultTypeAssertion(schema: Descriptors, loc: Option<SourceLocation>)

  datatype QueryInvocation = QueryInvocation(query: Query, resultTypeAssertion: Option<ResultTypeAssertion>)
}

=== FILE: resolve_references.dfy ===
/**
 * Turning `ColumnRef` and `ResTarget` nodes into column references, given the
 * range variables (`RangeVar` nodes) in scope: qualifiers are resolved alias
 * first, and unqualified names keep the list of tables in scope for the
 * resolver to choose from.
 */
module ResolveReferences {

  import opened Wrappers
  import opened Failures
  import opened PgNodeTypes
  import opened QueryTraversal
  import opened QueryTypes

  // ---------------------------------------------------------------------------
  // filterDuplicateTableRefs

  predicate NoDuplicates<T(==)>(s: seq<T>) {
    forall i, j | 0 <= i < j < |s| :: s[i] != s[j]
  }

  /** The elements of `s` that do not occur earlier in `s`, in their order. */
  function FirstOccurrences<T(==)>(s: seq<T>): seq<T> {
    if s == [] then []
    else
      var init := s[..|s| - 1];
      FirstOccurrences(init) + (if s[|s| - 1] in init then [] else [s[|s| - 1]])
  }

  /** One step of the `reduce`: keep `ref` unless an equal reference was kept already. */
  function KeepNew(filtered: seq<TableReference>, ref: TableReference): seq<TableReference> {
    if ref in filtered then filtered else filtered + [ref]
  }

  /** The `reduce` of `filterDuplicateTableRefs`, from the references kept so far. */
  function DedupeFrom(filtered: seq<TableReference>, refs: seq<TableReference>): seq<TableReference>
    decreases |refs|
  {
    if refs == [] then filtered else DedupeFrom(KeepNew(filtered, refs[0]), refs[1..])
  }

  /**
   * `filterDuplicateTableRefs`: keeps the first of every group of equal
   * references (equal as JSON, which on these records is structural equality).
   */
  function FilterDuplicateTableRefs(refs: seq<TableReference>): (r: seq<TableReference>)
    ensures r == FirstOccurrences(refs)
  {
    DedupeFromFirstOccurrences([], refs);
    assert FirstOccurrences<TableReference>([]) == [];
    assert [] + refs == refs;
    DedupeFrom([], refs)
  }

  lemma {:induction false} FirstOccurrencesElements<T>(s: seq<T>)
    ensures forall x :: x in FirstOccurrences(s) <==> x in s
    ensures NoDuplicates(FirstOccurrences(s))
    ensures |FirstOccurrences(s)| <= |s|
  {
    if s != [] {
      var init := s[..|s| - 1];
      FirstOccurrencesElements(init);
      assert s == init + [s[|s| - 1]];
    }
  }

  lemma {:induction false} DedupeFromFirstOccurrences(done: seq<TableReference>, refs: seq<TableReference>)
    ensures DedupeFrom(FirstOccurrences(done), refs) == FirstOccurrences(done + refs)
    decreases |refs|
  {
    if refs == [] {
      assert done + refs == done;
    } else {
      var next := done + [refs[0]];
      KeepNewFirstOccurrences(done, refs[0]);
      DedupeFromFirstOccurrences(next, refs[1..]);
      MoveFirst(done, refs);
    }
  }

  lemma MoveFirst<T>(done: seq<T>, refs: seq<T>)
    requires refs != []
    ensures (done + [refs[0]]) + refs[1..] == done + refs
  {
  }

  lemma KeepNewFirstOccurrences(done: seq<TableReference>, ref: TableReference)
    ensures KeepNew(FirstOccurrences(done), ref) == FirstOccurrences(done + [ref])
  {
    FirstOccurrencesElements(done);
    assert (done + [ref])[..|done|] == done;
  }

  /**
   * The result has no duplicates and the same elements as the input; it is
   * the input itself when that has no duplicates, so deduplicating twice
   * changes nothing.
   */
  lemma {:induction false} FilterDuplicateTableRefsProperties(refs: seq<TableReference>)
    ensures NoDuplicates(FilterDuplicateTableRefs(refs))
    ensures forall x :: x in FilterDuplicateTableRefs(refs) <==> x in refs
    ensures NoDuplicates(refs) ==> FilterDuplicateTableRefs(refs) == refs
    ensures FilterDuplicateTableRefs(FilterDuplicateTableRefs(refs)) == FilterDuplicateTableRefs(refs)
  {
    FirstOccurrencesElements(refs);
    FirstOccurrencesOfDistinct(refs);
    FirstOccurrencesOfDistinct(FirstOccurrences(refs));
  }

  lemma {:induction false} FirstOccurrencesOfDistinct<T>(s: seq<T>)
    ensures NoDuplicates(s) ==> FirstOccurrences(s) == s
  {
    if s != [] && NoDuplicates(s) {
      var init := s[..|s| - 1];
      assert forall i :: 0 <= i < |init| ==> init[i] == s[i];
      FirstOccurrencesOfDistinct(init);
      assert s == init + [s[|s| - 1]];
    }
  }

  // ---------------------------------------------------------------------------
  // Range variables in scope

  /** `refNode.RangeVar.alias ? aliasname === identifier : relname === identifier` */
  predicate MatchesIdentifier(relation: Path, identifier: string) {
    match RelationAlias(relation.node)
    case Some(alias) => alias == identifier
    case None => RelationName(relation.node) == identifier
  }

  function RelationNames(relationRefs: seq<Path>): (names: seq<string>)
    ensures |names| == |relationRefs|
    ensures forall i :: 0 <= i < |relationRefs| ==> names[i] == RelationName(relationRefs[i].node)
  {
    if relationRefs == [] then [] else [RelationName(relationRefs[0].node)] + RelationNames(relationRefs[1..])
  }

  /**
   * `resolveTableName`: the real name of the first range variable called
   * `identifier`: by its alias if it has one, else by its name.
   */
  function ResolveTableName(identifier: string, relationRefs: seq<Path>): (r: Result<string>)
    ensures r.Err? <==> forall i :: 0 <= i < |relationRefs| ==> !MatchesIdentifier(relationRefs[i], identifier)
    ensures r.Err? ==> r.failure == NoMatchingTableReference(identifier)
    ensures r.Ok? ==> r.value in RelationNames(relationRefs)
  {
    if relationRefs == [] then Err(NoMatchingTableReference(identifier))
    else if MatchesIdentifier(relationRefs[0], identifier) then Ok(RelationName(relationRefs[0].node))
    else
      assert forall k | 1 <= k < |relationRefs| :: relationRefs[k] == relationRefs[1..][k - 1];
      ResolveTableName(identifier, relationRefs[1..])
  }

  /** A resolved name is that of the first range variable the identifier matches. */
  lemma {:induction false} ResolveTableNameFirstMatch(identifier: string, relationRefs: seq<Path>)
    requires ResolveTableName(identifier, relationRefs).Ok?
    ensures exists i :: 0 <= i < |relationRefs| && MatchesIdentifier(relationRefs[i], identifier)
                        && ResolveTableName(identifier, relationRefs).value == RelationName(relationRefs[i].node)
                        && forall k :: 0 <= k < i ==> !MatchesIdentifier(relationRefs[k], identifier)
  {
    if !MatchesIdentifier(relationRefs[0], identifier) {
      var rest := relationRefs[1..];
      ResolveTableNameFirstMatch(identifier, rest);
      var i :| 0 <= i < |rest| && MatchesIdentifier(rest[i], identifier)
               && ResolveTableName(identifier, rest).value == RelationName(rest[i].node)
               && forall k :: 0 <= k < i ==> !MatchesIdentifier(rest[k], identifier);
      assert relationRefs[i + 1] == rest[i];
      forall k | 0 <= k < i + 1 ensures !MatchesIdentifier(relationRefs[k], identifier) {
        if k > 0 {
          assert relationRefs[k] == rest[k - 1];
        }
      }
    }
  }

  /** `relationRefs.map(ref => ({as: alias, tableName: relname, path}))` */
  function TableRefsInScope(relationRefs: seq<Path>, path: Path): (refs: seq<TableReference>)
    ensures |refs| == |relationRefs|
    ensures forall i :: 0 <= i < |relationRefs| ==>
              refs[i] == TableReference(RelationName(relationRefs[i].node), RelationAlias(relationRefs[i].node), path)
  {
    if relationRefs == [] then []
    else [TableReference(RelationName(relationRefs[0].node), RelationAlias(relationRefs[0].node), path)]
         + TableRefsInScope(relationRefs[1..], path)
  }

  /** The deduplicated scope of an unqualified reference at `path`. */
  function Scope(relationRefs: seq<Path>, path: Path): (refs: seq<TableReference>)
    ensures NoDuplicates(refs)
    ensures forall t :: t in refs <==> t in TableRefsInScope(relationRefs, path)
  {
    FilterDuplicateTableRefsProperties(TableRefsInScope(relationRefs, path));
    FilterDuplicateTableRefs(TableRefsInScope(relationRefs, path))
  }

  // ---------------------------------------------------------------------------
  // The table of an unqualified `*`

  /**
   * As the source computes it: the alias of the only range variable if it has
   * one, otherwise its name. A qualified `u.*` resolves the alias `u` to the
   * real name instead, and every later lookup of the table goes by real name.
   */
  function UnqualifiedStarTableAsWritten(relation: Path): (name: string)
    ensures RelationAlias(relation.node).Some? ==> name == RelationAlias(relation.node).value
    ensures RelationAlias(relation.node).None? ==> name == RelationName(relation.node)
  {
    match RelationAlias(relation.node)
    case Some(alias) => alias
    case None => RelationName(relation.node)
  }

  /** As intended: the real name of the only range variable, as for `u.*`. */
  function UnqualifiedStarTable(relation: Path): (name: string)
    ensures name == RelationName(relation.node)
  {
    RelationName(relation.node)
  }

  /** The intended table is what resolving the name the source computes would give, as for `u.*`. */
  lemma UnqualifiedStarTableResolved(relation: Path)
    ensures ResolveTableName(UnqualifiedStarTableAsWritten(relation), [relation])
            == Ok(UnqualifiedStarTable(relation))
  {
  }

  // ---------------------------------------------------------------------------
  // resolveColumnReference, resolveResTarget

  /** The name a column field denotes: its string, or "*". */
  predicate IsColumnField(field: Value) {
    IsPgString(field) || IsStar(field)
  }

  function ColumnFieldName(field: Value): string {
    if IsPgString(field) then StringValue(field) else "*"
  }

  /**
   * `resolveColumnReference`: `col` and `*` with one field, `tbl.col` and
   * `tbl.*` with two; `null` when the last field is neither a string nor a star.
   * An unqualified `*` takes the real name of the only table in scope (see
   * `UnqualifiedStarTableAsWritten` for what the source does instead).
   */
  function ResolveColumnReference(path: Path, relationRefs: seq<Path>): (r: Result<Option<ColumnReference>>)
    ensures |ColumnRefFields(path.node)| != 1 && |ColumnRefFields(path.node)| != 2 ==>
              r == Err(BadColumnRefFormat(|ColumnRefFields(path.node)|))
    ensures r.Ok? && r.value.Some? ==>
              r.value.value.path == path && !r.value.value.Resolved? && !r.value.value.IsUnresolvable()
    ensures r.Ok? && r.value.Some? && r.value.value.Qualified? ==> r.value.value.tableName in RelationNames(relationRefs)
  {
    var fields := ColumnRefFields(path.node);
    if |fields| == 1 then
      var columnNode := fields[0];
      if IsPgString(columnNode) then
        Ok(Some(Unqualified(Scope(relationRefs, path), StringValue(columnNode), path, false)))
      else if IsStar(columnNode) then
        if |relationRefs| != 1 then Err(UnqualifiedStarScope(RelationNames(relationRefs)))
        else Ok(Some(Qualified(UnqualifiedStarTable(relationRefs[0]), "*", path)))
      else Ok(None)
    else if |fields| == 2 then
      var tableNode := fields[0];
      var columnNode := fields[1];
      if !IsPgString(tableNode) then
        var nodeType :- GetNodeType(tableNode);
        Err(FirstFieldNotString(nodeType))
      else if IsColumnField(columnNode) then
        var tableName :- ResolveTableName(StringValue(tableNode), relationRefs);
        Ok(Some(Qualified(tableName, ColumnFieldName(columnNode), path)))
      else Ok(None)
    else Err(BadColumnRefFormat(|fields|))
  }

  /**
   * The cases of `resolveColumnReference` with one or two fields: which field
   * shapes give no reference, which give an unqualified one (with the
   * deduplicated scope), which a qualified one and with which table, and
   * when the qualifier or the unqualified `*` fails to resolve.
   */
  ghost predicate ColumnReferenceShape(path: Path, relationRefs: seq<Path>)
    requires |ColumnRefFields(path.node)| == 1 || |ColumnRefFields(path.node)| == 2
  {
    var fields := ColumnRefFields(path.node);
    var r := ResolveColumnReference(path, relationRefs);
    && (r.Ok? && r.value.None? <==>
          !IsColumnField(fields[|fields| - 1]) && (|fields| == 2 ==> IsPgString(fields[0])))
    && (r.Ok? && r.value.Some? ==>
          IsColumnField(fields[|fields| - 1])
          && r.value.value.columnName == ColumnFieldName(fields[|fields| - 1])
          && (r.value.value.Unqualified? <==> |fields| == 1 && IsPgString(fields[0])))
    && (r.Ok? && r.value.Some? && r.value.value.Unqualified? ==>
          !r.value.value.any && r.value.value.tableRefsInScope == Scope(relationRefs, path))
    && (|fields| == 1 && IsStar(fields[0]) && !IsPgString(fields[0]) ==>
          (r.Err? <==> |relationRefs| != 1))
    && (|fields| == 1 && IsStar(fields[0]) && !IsPgString(fields[0]) && |relationRefs| == 1 ==>
          r == Ok(Some(Qualified(RelationName(relationRefs[0].node), "*", path))))
    && (|fields| == 2 && !IsPgString(fields[0]) ==> r.Err?)
    && (|fields| == 2 && IsPgString(fields[0]) && IsColumnField(fields[1]) ==>
          (r.Err? <==> ResolveTableName(StringValue(fields[0]), relationRefs).Err?))
    && (|fields| == 2 && IsPgString(fields[0]) && IsColumnField(fields[1])
        && ResolveTableName(StringValue(fields[0]), relationRefs).Ok? ==>
          r == Ok(Some(Qualified(ResolveTableName(StringValue(fields[0]), relationRefs).value,
                                 ColumnFieldName(fields[1]), path))))
  }

  lemma OneFieldColumnReference(path: Path, relationRefs: seq<Path>)
    requires |ColumnRefFields(path.node)| == 1
    ensures ColumnReferenceShape(path, relationRefs)
  {
    var field := ColumnRefFields(path.node)[0];
    if IsPgString(field) {
      ColumnNameReference(path, relationRefs);
    } else if IsStar(field) {
      UnqualifiedStarReference(path, relationRefs);
    } else {
      NoColumnReference(path, relationRefs);
    }
  }

  lemma NoColumnReference(path: Path, relationRefs: seq<Path>)
    requires |ColumnRefFields(path.node)| == 1 && !IsColumnField(ColumnRefFields(path.node)[0])
    ensures ColumnReferenceShape(path, relationRefs)
  {
    assert ResolveColumnReference(path, relationRefs) == Ok(None);
  }

  lemma ColumnNameReference(path: Path, relationRefs: seq<Path>)
    requires |ColumnRefFields(path.node)| == 1 && IsPgString(ColumnRefFields(path.node)[0])
    ensures ColumnReferenceShape(path, relationRefs)
  {
    var field := ColumnRefFields(path.node)[0];
    var scope := Scope(relationRefs, path);
    assert ResolveColumnReference(path, relationRefs) == Ok(Some(Unqualified(scope, StringValue(field), path, false)));
    assert IsColumnField(field) && ColumnFieldName(field) == StringValue(field);
  }

  lemma UnqualifiedStarReference(path: Path, relationRefs: seq<Path>)
    requires |ColumnRefFields(path.node)| == 1
    requires IsStar(ColumnRefFields(path.node)[0]) && !IsPgString(ColumnRefFields(path.node)[0])
    ensures ColumnReferenceShape(path, relationRefs)
  {
    var field := ColumnRefFields(path.node)[0];
    assert IsColumnField(field) && ColumnFieldName(field) == "*";
    if |relationRefs| == 1 {
      assert ResolveColumnReference(path, relationRefs) == Ok(Some(Qualified(UnqualifiedStarTable(relationRefs[0]), "*", path)));
    } else {
      assert ResolveColumnReference(path, relationRefs).Err?;
    }
  }

  lemma TwoFieldColumnReference(path: Path, relationRefs: seq<Path>)
    requires |ColumnRefFields(path.node)| == 2
    ensures ColumnReferenceShape(path, relationRefs)
  {
    var fields := ColumnRefFields(path.node);
    if !IsPgString(fields[0]) {
      assert ResolveColumnReference(path, relationRefs).Err?;
    } else if IsColumnField(fields[1]) {
    } else {
      assert ResolveColumnReference(path, relationRefs) == Ok(None);
    }
  }

  /**
   * The cases of `resolveColumnReference`: which field shapes give no
   * reference, which give an unqualified one (with the deduplicated scope),
   * which a qualified one and with which table, and when the qualifier or
   * the unqualified `*` fails to resolve.
   */
  lemma ResolveColumnReferenceCases(path: Path, relationRefs: seq<Path>)
    ensures var fields := ColumnRefFields(path.node);
            var r := ResolveColumnReference(path, relationRefs);
            (|fields| == 1 || |fields| == 2) ==>
            && (r.Ok? && r.value.None? <==>
                  !IsColumnField(fields[|fields| - 1]) && (|fields| == 2 ==> IsPgString(fields[0])))
            && (r.Ok? && r.value.Some? ==>
                  IsColumnField(fields[|fields| - 1])
                  && r.value.value.columnName == ColumnFieldName(fields[|fields| - 1])
                  && (r.value.value.Unqualified? <==> |fields| == 1 && IsPgString(fields[0])))
            && (r.Ok? && r.value.Some? && r.value.value.Unqualified? ==>
                  !r.value.value.any && r.value.value.tableRefsInScope == Scope(relationRefs, path))
            && (|fields| == 1 && IsStar(fields[0]) && !IsPgString(fields[0]) ==>
                  (r.Err? <==> |relationRefs| != 1))
            && (|fields| == 1 && IsStar(fields[0]) && !IsPgString(fields[0]) && |relationRefs| == 1 ==>
                  r == Ok(Some(Qualified(RelationName(relationRefs[0].node), "*", path))))
            && (|fields| == 2 && !IsPgString(fields[0]) ==> r.Err?)
            && (|fields| == 2 && IsPgString(fields[0]) && IsColumnField(fields[1]) ==>
                  (r.Err? <==> ResolveTableName(StringValue(fields[0]), relationRefs).Err?))
            && (|fields| == 2 && IsPgString(fields[0]) && IsColumnField(fields[1])
                && ResolveTableName(StringValue(fields[0]), relationRefs).Ok? ==>
                  r == Ok(Some(Qualified(ResolveTableName(StringValue(fields[0]), relationRefs).value,
                                         ColumnFieldName(fields[1]), path))))
  {
    if |ColumnRefFields(path.node)| == 1 {
      OneFieldColumnReference(path, relationRefs);
    } else if |ColumnRefFields(path.node)| == 2 {
      TwoFieldColumnReference(path, relationRefs);
    }
  }

  /**
   * `resolveResTarget`: a named target (`SET name = ...`, `AS name`, an INSERT
   * column) is an unqualified reference to that name; an unnamed one whose
   * value is a column reference is resolved as that column reference, under
   * the path key "val"; anything else references nothing.
   */
  function ResolveResTarget(path: Path, relationRefs: seq<Path>): (r: Result<Option<ColumnReference>>)
    ensures Truthy(ResTargetName(path.node)) ==>
              r == Ok(Some(Unqualified(Scope(relationRefs, path), StrOf(ResTargetName(path.node)), path, false)))
    ensures !Truthy(ResTargetName(path.node)) && !IsColumnRef(ResTargetVal(path.node)) ==> r == Ok(None)
    ensures !Truthy(ResTargetName(path.node)) && IsColumnRef(ResTargetVal(path.node)) && r.Ok? && r.value.Some? ==>
              var ref := r.value.value;
              ref.path.node == ResTargetVal(path.node) && ref.path.parentPropKey == "val"
              && ref.path.ancestors == path.ancestors + [path] && GetQueryPathParent(ref.path) == Some(path)
  {
    var name := ResTargetName(path.node);
    if Truthy(name) then
      Ok(Some(Unqualified(Scope(relationRefs, path), StrOf(name), path, false)))
    else
      var val := ResTargetVal(path.node);
      if IsColumnRef(val) then
        var valPath :- CreateQueryNodeSubpath(path, val, "val");
        ResolveColumnReference(valPath, relationRefs)
      else Ok(None)
  }
}

=== FILE: resolver.dfy ===
/**
 * The name resolver: finds the table schema a column reference belongs to,
 * expands `*` selectors into one reference per declared column, and collects
 * the columns a query uses, including those its subqueries return into it.
 */
module Resolver {

  import opened Wrappers
  import opened Sequences
  import opened Failures
  import opened QueryTraversal
  import opened PgNodeTypes
  import opened QueryTypes
  import opened ResolveReferences

  // ---------------------------------------------------------------------------
  // getTableByName

  function TableNames(tables: seq<TableSchema>): (names: seq<string>)
    ensures |names| == |tables|
    ensures forall i | 0 <= i < |tables| :: names[i] == tables[i].tableName
  {
    if tables == [] then [] else [tables[0].tableName] + TableNames(tables[1..])
  }

  /** The index of the first schema called `tableName`, or `|tables|` when there is none. */
  function FindTable(tables: seq<TableSchema>, tableName: string): (i: nat)
    ensures i <= |tables|
    ensures i < |tables| ==> tables[i].tableName == tableName
    ensures forall j | 0 <= j < i :: tables[j].tableName != tableName
  {
    if tables == [] then 0
    else if tables[0].tableName == tableName then 0
    else 1 + FindTable(tables[1..], tableName)
  }

  predicate Declares(tables: seq<TableSchema>, tableName: string) {
    exists j | 0 <= j < |tables| :: tables[j].tableName == tableName
  }

  /**
   * `getTableByName`: the first schema called `tableName`; an error listing
   * the known tables when there is none.
   */
  function GetTableByName(tables: seq<TableSchema>, tableName: string): (r: Result<TableSchema>)
    ensures r.Ok? <==> Declares(tables, tableName)
    ensures r.Ok? ==> r.value.tableName == tableName
    ensures r.Ok? ==> exists i | 0 <= i < |tables| ::
              tables[i] == r.value && forall j | 0 <= j < i :: tables[j].tableName != tableName
    ensures r.Err? ==> r.failure == NoTableNamed(tableName, TableNames(tables))
  {
    var i := FindTable(tables, tableName);
    if i < |tables| then Ok(tables[i]) else Err(NoTableNamed(tableName, TableNames(tables)))
  }

  // ---------------------------------------------------------------------------
  // resolveUnqualifiedColumnRef

  /** `tables.filter(schema => schema.tableName === tableName)` */
  function SchemasNamed(tables: seq<TableSchema>, tableName: string): (named: seq<TableSchema>)
    ensures forall s :: s in named <==> s in tables && s.tableName == tableName
    ensures |named| <= |tables|
  {
    if tables == [] then []
    else (if tables[0].tableName == tableName then [tables[0]] else []) + SchemasNamed(tables[1..], tableName)
  }

  /**
   * The schemas of the tables in scope, in the order the tables are in scope:
   * for each table not yet represented, every schema declared under its name.
   */
  function InScopeSchemas(tableRefs: seq<TableReference>, tables: seq<TableSchema>): seq<TableSchema> {
    if tableRefs == [] then []
    else
      var before := InScopeSchemas(tableRefs[..|tableRefs| - 1], tables);
      var tableName := tableRefs[|tableRefs| - 1].tableName;
      before + (if Declares(before, tableName) then [] else SchemasNamed(tables, tableName))
  }

  /** `schemas.filter(schema => schema.columnNames.indexOf(columnName) > -1)` */
  function SchemasWithColumn(schemas: seq<TableSchema>, columnName: string): (containing: seq<TableSchema>)
    ensures forall s :: s in containing <==> s in schemas && columnName in s.columnNames
    ensures |containing| <= |schemas|
  {
    if schemas == [] then []
    else
      (if columnName in schemas[0].columnNames then [schemas[0]] else [])
      + SchemasWithColumn(schemas[1..], columnName)
  }

  /** `{...columnRef, tableName}` */
  function WithTableName(columnRef: ColumnReference, tableName: string): ColumnReference
    requires columnRef.Unqualified?
  {
    Resolved(tableName, columnRef.tableRefsInScope, columnRef.columnName, columnRef.path, columnRef.any)
  }

  /**
   * What `resolveUnqualifiedColumnRef` returns: a spread placeholder goes to
   * the only table in scope; any other reference to the only in-scope schema
   * that declares the column.
   */
  function UnqualifiedResolution(columnRef: ColumnReference, tables: seq<TableSchema>): (r: Result<ColumnReference>)
    requires columnRef.Unqualified?
    ensures r.Ok? ==> r.value.Resolved?
  {
    var scope := columnRef.tableRefsInScope;
    if columnRef.any then
      if |scope| == 1 then
        var table :- GetTableByName(tables, scope[0].tableName);
        Ok(WithTableName(columnRef, table.tableName))
      else Err(NonInferrableSpread)
    else
      var schemas := InScopeSchemas(scope, tables);
      var containing := SchemasWithColumn(schemas, columnRef.columnName);
      if |containing| == 0 then Err(NoTableHasColumn(columnRef.columnName, TableNames(schemas)))
      else if |containing| > 1 then Err(AmbiguousColumn(columnRef.columnName, TableNames(containing)))
      else Ok(WithTableName(columnRef, containing[0].tableName))
  }

  /**
   * `resolveUnqualifiedColumnRef`: collects the in-scope schemas table by
   * table, then picks the one declaring the column.
   */
  method ResolveUnqualifiedColumnRef(columnRef: ColumnReference, tables: seq<TableSchema>) returns (r: Result<ColumnReference>)
    requires columnRef.Unqualified?
    ensures r == UnqualifiedResolution(columnRef, tables)
  {
    if columnRef.any {
      if |columnRef.tableRefsInScope| == 1 {
        var table := GetTableByName(tables, columnRef.tableRefsInScope[0].tableName);
        if table.Err? {
          return Err(table.failure);
        }
        return Ok(WithTableName(columnRef, table.value.tableName));
      } else {
        return Err(NonInferrableSpread);
      }
    }

    var tablesInScopeSchemas: seq<TableSchema> := [];
    for i := 0 to |columnRef.tableRefsInScope|
      invariant tablesInScopeSchemas == InScopeSchemas(columnRef.tableRefsInScope[..i], tables)
    {
      var availableTableRef := columnRef.tableRefsInScope[i];
      var added: seq<TableSchema> := [];
      if !Declares(tablesInScopeSchemas, availableTableRef.tableName) {
        added := SchemasNamed(tables, availableTableRef.tableName);
      }
      assert columnRef.tableRefsInScope[..i + 1][..i] == columnRef.tableRefsInScope[..i];
      tablesInScopeSchemas := tablesInScopeSchemas + added;
    }
    assert columnRef.tableRefsInScope[..|columnRef.tableRefsInScope|] == columnRef.tableRefsInScope;

    var containing := SchemasWithColumn(tablesInScopeSchemas, columnRef.columnName);
    if |containing| == 0 {
      r := Err(NoTableHasColumn(columnRef.columnName, TableNames(tablesInScopeSchemas)));
    } else if |containing| > 1 {
      r := Err(AmbiguousColumn(columnRef.columnName, TableNames(containing)));
    } else {
      r := Ok(WithTableName(columnRef, containing[0].tableName));
    }
  }

  /** The in-scope schemas are declared schemas of tables in scope. */
  lemma {:induction false} InScopeSchemasDeclared(tableRefs: seq<TableReference>, tables: seq<TableSchema>)
    ensures forall s | s in InScopeSchemas(tableRefs, tables) ::
              s in tables && exists i | 0 <= i < |tableRefs| :: tableRefs[i].tableName == s.tableName
  {
    if tableRefs != [] {
      var init := tableRefs[..|tableRefs| - 1];
      var last := tableRefs[|tableRefs| - 1];
      InScopeSchemasDeclared(init, tables);
      var before := InScopeSchemas(init, tables);
      var added := if Declares(before, last.tableName) then [] else SchemasNamed(tables, last.tableName);
      assert InScopeSchemas(tableRefs, tables) == before + added;
      forall s | s in before + added
        ensures s in tables && exists i | 0 <= i < |tableRefs| :: tableRefs[i].tableName == s.tableName
      {
        if s in before {
          var i :| 0 <= i < |init| && init[i].tableName == s.tableName;
          assert tableRefs[i] == init[i];
        } else {
          assert tableRefs[|tableRefs| - 1].tableName == s.tableName;
        }
      }
    }
  }

  /**
   * Every table in scope that some schema declares is represented among the
   * in-scope schemas (the converse is `InScopeSchemasDeclared`).
   */
  lemma {:induction false} InScopeSchemasComplete(tableRefs: seq<TableReference>, tables: seq<TableSchema>, i: nat)
    requires i < |tableRefs| && Declares(tables, tableRefs[i].tableName)
    ensures Declares(InScopeSchemas(tableRefs, tables), tableRefs[i].tableName)
  {
    var init := tableRefs[..|tableRefs| - 1];
    var name := tableRefs[i].tableName;
    var before := InScopeSchemas(init, tables);
    var added := if Declares(before, tableRefs[|tableRefs| - 1].tableName) then []
      else SchemasNamed(tables, tableRefs[|tableRefs| - 1].tableName);
    assert InScopeSchemas(tableRefs, tables) == before + added;
    if i < |init| {
      assert init[i] == tableRefs[i];
      InScopeSchemasComplete(init, tables, i);
      BeforeDeclares(before, added, name);
    } else if Declares(before, name) {
      BeforeDeclares(before, added, name);
    } else {
      assert tableRefs[|tableRefs| - 1].tableName == name;
      assert added == SchemasNamed(tables, name);
      SchemasNamedDeclares(tables, name);
      AddedDeclares(before, added, name);
    }
  }

  lemma SchemasNamedDeclares(tables: seq<TableSchema>, name: string)
    requires Declares(tables, name)
    ensures Declares(SchemasNamed(tables, name), name)
  {
    var k :| 0 <= k < |tables| && tables[k].tableName == name;
    assert tables[k] in SchemasNamed(tables, name);
  }

  lemma AddedDeclares(before: seq<TableSchema>, added: seq<TableSchema>, name: string)
    requires Declares(added, name)
    ensures Declares(before + added, name)
  {
    var j :| 0 <= j < |added| && added[j].tableName == name;
    assert (before + added)[|before| + j] == added[j];
  }

  lemma BeforeDeclares(before: seq<TableSchema>, added: seq<TableSchema>, name: string)
    requires Declares(before, name)
    ensures Declares(before + added, name)
  {
    var j :| 0 <= j < |before| && before[j].tableName == name;
    assert (before + added)[j] == before[j];
  }

  predicate UniqueNames(tables: seq<TableSchema>) {
    forall i, j | 0 <= i < j < |tables| :: tables[i].tableName != tables[j].tableName
  }

  /** Without two schemas of one name, every in-scope table has at most one in-scope schema. */
  lemma {:induction false} InScopeSchemasUnique(tableRefs: seq<TableReference>, tables: seq<TableSchema>)
    requires UniqueNames(tables)
    ensures UniqueNames(InScopeSchemas(tableRefs, tables))
  {
    if tableRefs != [] {
      var init := tableRefs[..|tableRefs| - 1];
      var name := tableRefs[|tableRefs| - 1].tableName;
      InScopeSchemasUnique(init, tables);
      var before := InScopeSchemas(init, tables);
      if !Declares(before, name) {
        var added := SchemasNamed(tables, name);
        SchemasNamedDistinct(tables, name);
        var result := before + added;
        forall i, j | 0 <= i < j < |result| ensures result[i].tableName != result[j].tableName {
          if j >= |before| {
            assert result[j] in added;
            if i < |before| {
              assert result[i] == before[i];
            }
          }
        }
      }
    }
  }

  /** Without two schemas of one name, at most one schema has a given name. */
  lemma {:induction false} SchemasNamedDistinct(tables: seq<TableSchema>, tableName: string)
    requires UniqueNames(tables)
    ensures |SchemasNamed(tables, tableName)| <= 1
  {
    if tables != [] {
      var rest := tables[1..];
      assert UniqueNames(rest) by {
        forall i, j | 0 <= i < j < |rest| ensures rest[i].tableName != rest[j].tableName {
          assert rest[i] == tables[i + 1] && rest[j] == tables[j + 1];
        }
      }
      SchemasNamedDistinct(rest, tableName);
      if tables[0].tableName == tableName {
        forall s | s in rest ensures s.tableName != tableName {
          var k :| 0 <= k < |rest| && rest[k] == s;
          assert tables[k + 1] == s;
        }
        NoneNamed(rest, tableName);
      }
    }
  }

  lemma {:induction false} NoneNamed(tables: seq<TableSchema>, tableName: string)
    requires forall s | s in tables :: s.tableName != tableName
    ensures SchemasNamed(tables, tableName) == []
  {
    if tables != [] {
      assert tables[0] in tables;
      assert forall s | s in tables[1..] :: s in tables;
      NoneNamed(tables[1..], tableName);
    }
  }

  /**
   * A reference that is not a spread placeholder resolves exactly when one
   * in-scope schema declares the column, and then to that schema's table
   * with every other field unchanged; otherwise the error says whether no
   * schema or several declare it.
   */
  lemma UnqualifiedResolutionCases(columnRef: ColumnReference, tables: seq<TableSchema>)
    requires columnRef.Unqualified? && !columnRef.any
    ensures var containing := SchemasWithColumn(InScopeSchemas(columnRef.tableRefsInScope, tables), columnRef.columnName);
      var r := UnqualifiedResolution(columnRef, tables);
      && (r.Ok? <==> |containing| == 1)
      && (r.Ok? ==> r.value == WithTableName(columnRef, containing[0].tableName)
                    && containing[0] in tables
                    && columnRef.columnName in containing[0].columnNames)
      && (|containing| == 0 ==> r.Err? && r.failure.NoTableHasColumn?)
      && (|containing| > 1 ==> r == Err(AmbiguousColumn(columnRef.columnName, TableNames(containing))))
  {
    InScopeSchemasDeclared(columnRef.tableRefsInScope, tables);
    var containing := SchemasWithColumn(InScopeSchemas(columnRef.tableRefsInScope, tables), columnRef.columnName);
    if |containing| == 1 {
      assert containing[0] in containing;
    }
  }

  /**
   * A spread placeholder resolves exactly when one table is in scope and a
   * schema declares it, and then to that table.
   */
  lemma SpreadResolutionCases(columnRef: ColumnReference, tables: seq<TableSchema>)
    requires columnRef.Unqualified? && columnRef.any
    ensures var r := UnqualifiedResolution(columnRef, tables);
      && (r.Ok? <==> |columnRef.tableRefsInScope| == 1 && Declares(tables, columnRef.tableRefsInScope[0].tableName))
      && (r.Ok? ==> r.value == WithTableName(columnRef, columnRef.tableRefsInScope[0].tableName))
      && (|columnRef.tableRefsInScope| != 1 ==> r == Err(NonInferrableSpread))
  {
  }

  // ---------------------------------------------------------------------------
  // resolveTable, resolveStarColumnRef

  /**
   * `resolveTable`: the schema of a reference's table, or of the only table
   * in scope of an unqualified reference.
   */
  function ResolveTable(columnRef: ColumnReference, tables: seq<TableSchema>): (r: Result<TableSchema>)
    ensures columnRef.HasTableName() ==> r == GetTableByName(tables, columnRef.tableName)
    ensures !columnRef.HasTableName() && |columnRef.tableRefsInScope| == 0 ==> r == Err(StarWithoutTables)
    ensures !columnRef.HasTableName() && |columnRef.tableRefsInScope| > 1 ==> r.Err? && r.failure.StarWithManyTables?
    ensures !columnRef.HasTableName() && |columnRef.tableRefsInScope| == 1 ==>
              r == GetTableByName(tables, columnRef.tableRefsInScope[0].tableName)
  {
    if columnRef.HasTableName() then GetTableByName(tables, columnRef.tableName)
    else
      var scope := columnRef.tableRefsInScope;
      if |scope| == 0 then Err(StarWithoutTables)
      else if |scope| > 1 then Err(StarWithManyTables(TableRefNames(scope)))
      else GetTableByName(tables, scope[0].tableName)
  }

  function TableRefNames(tableRefs: seq<TableReference>): (names: seq<string>)
    ensures |names| == |tableRefs|
  {
    if tableRefs == [] then [] else [tableRefs[0].tableName] + TableRefNames(tableRefs[1..])
  }

  /**
   * `resolveStarColumnRef`: one qualified reference per declared column of
   * the table, in declared order, each at the selector's path.
   */
  function ResolveStarColumnRef(columnRef: ColumnReference, tables: seq<TableSchema>): (r: Result<seq<ColumnReference>>)
    ensures r.Ok? <==> ResolveTable(columnRef, tables).Ok?
    ensures r.Ok? ==>
              var table := ResolveTable(columnRef, tables).value;
              && |r.value| == |table.columnNames|
              && forall i | 0 <= i < |r.value| :: r.value[i] == Qualified(table.tableName, table.columnNames[i], columnRef.path)
  {
    var table :- ResolveTable(columnRef, tables);
    Ok(seq(|table.columnNames|, i requires 0 <= i < |table.columnNames| => Qualified(table.tableName, table.columnNames[i], columnRef.path)))
  }

  // ---------------------------------------------------------------------------
  // resolveToConcreteColumnRefs

  /** A reference as it is, or the expansion of a `*`. */
  function Concrete(columnRef: ColumnReference, tables: seq<TableSchema>): Result<seq<ColumnReference>> {
    if !columnRef.IsAllOf() then Ok([columnRef]) else ResolveStarColumnRef(columnRef, tables)
  }

  /**
   * `resolveToConcreteColumnRefs`: every `*` selector replaced by the columns
   * of its table; the first selector that cannot be expanded fails the whole.
   */
  function ResolveToConcreteColumnRefs(columnRefs: seq<ColumnReference>, tables: seq<TableSchema>)
    : (r: Result<seq<ColumnReference>>)
    ensures r.Ok? ==> |r.value| >= |NonStar(columnRefs)|
    ensures r.Ok? <==> forall i | 0 <= i < |columnRefs| :: columnRefs[i].IsAllOf() ==> ResolveTable(columnRefs[i], tables).Ok?
  {
    if columnRefs == [] then Ok([])
    else
      assert forall i | 1 <= i < |columnRefs| :: columnRefs[1..][i - 1] == columnRefs[i];
      var first :- Concrete(columnRefs[0], tables);
      var rest :- ResolveToConcreteColumnRefs(columnRefs[1..], tables);
      Ok(first + rest)
  }

  /** Expanding a concatenation expands each part, in order; it fails when either part fails. */
  lemma {:induction false} ConcreteColumnRefsAppend(a: seq<ColumnReference>, b: seq<ColumnReference>,
                                                    tables: seq<TableSchema>)
    ensures ResolveToConcreteColumnRefs(a + b, tables).Ok? <==>
              ResolveToConcreteColumnRefs(a, tables).Ok? && ResolveToConcreteColumnRefs(b, tables).Ok?
    ensures ResolveToConcreteColumnRefs(a + b, tables).Ok? ==>
              ResolveToConcreteColumnRefs(a + b, tables).value
              == ResolveToConcreteColumnRefs(a, tables).value + ResolveToConcreteColumnRefs(b, tables).value
  {
    if a == [] {
      assert a + b == b;
    } else {
      assert (a + b)[0] == a[0] && (a + b)[1..] == a[1..] + b;
      ConcreteColumnRefsAppend(a[1..], b, tables);
      if Concrete(a[0], tables).Ok? && ResolveToConcreteColumnRefs(a[1..] + b, tables).Ok? {
        AppendAssociates(Concrete(a[0], tables).value,
                         ResolveToConcreteColumnRefs(a[1..], tables).value, ResolveToConcreteColumnRefs(b, tables).value);
      }
    }
  }

  /**
   * The expansion is in place: the `i`-th reference, or the columns of its
   * table when it is a `*`, sits between the expansions of the references
   * before and after it.
   */
  lemma ConcreteColumnRefsAt(columnRefs: seq<ColumnReference>, tables: seq<TableSchema>, i: nat)
    requires ResolveToConcreteColumnRefs(columnRefs, tables).Ok? && i < |columnRefs|
    ensures ResolveToConcreteColumnRefs(columnRefs[..i], tables).Ok?
    ensures ResolveToConcreteColumnRefs(columnRefs[i + 1..], tables).Ok?
    ensures columnRefs[i].IsAllOf() ==> ResolveStarColumnRef(columnRefs[i], tables).Ok?
    ensures var expanded := if columnRefs[i].IsAllOf() then ResolveStarColumnRef(columnRefs[i], tables).value
                            else [columnRefs[i]];
            ResolveToConcreteColumnRefs(columnRefs, tables).value
            == ResolveToConcreteColumnRefs(columnRefs[..i], tables).value + expanded
               + ResolveToConcreteColumnRefs(columnRefs[i + 1..], tables).value
  {
    var after := [columnRefs[i]] + columnRefs[i + 1..];
    SplitAt(columnRefs, i);
    ConcreteColumnRefsAppend(columnRefs[..i], after, tables);
    AppendAssociates(ResolveToConcreteColumnRefs(columnRefs[..i], tables).value,
                     Concrete(columnRefs[i], tables).value, ResolveToConcreteColumnRefs(columnRefs[i + 1..], tables).value);
  }

  /** `columnRefs.filter(columnRef => columnRef.columnName !== "*")` */
  function NonStar(columnRefs: seq<ColumnReference>): (kept: seq<ColumnReference>)
    ensures |kept| <= |columnRefs|
    ensures forall c | c in kept :: c in columnRefs && !c.IsAllOf()
    ensures forall c | c in columnRefs && !c.IsAllOf() :: c in kept
  {
    if columnRefs == [] then []
    else (if columnRefs[0].IsAllOf() then [] else [columnRefs[0]]) + NonStar(columnRefs[1..])
  }

  predicate NoStar(columnRefs: seq<ColumnReference>) {
    forall i | 0 <= i < |columnRefs| :: !columnRefs[i].IsAllOf()
  }

  /** No schema declares a column called `*`. */
  predicate NoStarColumns(tables: seq<TableSchema>) {
    forall i | 0 <= i < |tables| :: "*" !in tables[i].columnNames
  }

  /** References without `*` pass through unchanged and in order. */
  lemma {:induction false} ConcreteColumnRefsKeepPlain(columnRefs: seq<ColumnReference>, tables: seq<TableSchema>)
    requires NoStar(columnRefs)
    ensures ResolveToConcreteColumnRefs(columnRefs, tables) == Ok(columnRefs)
  {
    if columnRefs != [] {
      assert !columnRefs[0].IsAllOf();
      ConcreteColumnRefsKeepPlain(columnRefs[1..], tables);
      assert [columnRefs[0]] + columnRefs[1..] == columnRefs;
    }
  }

  /** When no schema declares a column called `*`, the expansion leaves no `*`. */
  lemma {:induction false} ConcreteColumnRefsHaveNoStar(columnRefs: seq<ColumnReference>, tables: seq<TableSchema>)
    requires NoStarColumns(tables)
    requires ResolveToConcreteColumnRefs(columnRefs, tables).Ok?
    ensures NoStar(ResolveToConcreteColumnRefs(columnRefs, tables).value)
  {
    if columnRefs != [] {
      var first := Concrete(columnRefs[0], tables).value;
      var rest := ResolveToConcreteColumnRefs(columnRefs[1..], tables).value;
      ConcreteColumnRefsHaveNoStar(columnRefs[1..], tables);
      ConcreteHasNoStar(columnRefs[0], tables);
      assert ResolveToConcreteColumnRefs(columnRefs, tables).value == first + rest;
      NoStarAppend(first, rest);
    }
  }

  /** The expansion of one reference has no `*` when no schema declares a column called `*`. */
  lemma ConcreteHasNoStar(columnRef: ColumnReference, tables: seq<TableSchema>)
    requires NoStarColumns(tables) && Concrete(columnRef, tables).Ok?
    ensures NoStar(Concrete(columnRef, tables).value)
  {
    var expanded := Concrete(columnRef, tables).value;
    if columnRef.IsAllOf() {
      var table := ResolveTable(columnRef, tables).value;
      assert table in tables;
      var k :| 0 <= k < |tables| && tables[k] == table;
      forall i | 0 <= i < |expanded| ensures !expanded[i].IsAllOf() {
        assert expanded[i].columnName == table.columnNames[i];
      }
    }
  }

  lemma NoStarAppend(first: seq<ColumnReference>, rest: seq<ColumnReference>)
    requires NoStar(first) && NoStar(rest)
    ensures NoStar(first + rest)
  {
    forall i | 0 <= i < |first + rest| ensures !(first + rest)[i].IsAllOf() {
      if i >= |first| {
        assert (first + rest)[i] == rest[i - |first|];
      }
    }
  }

  /** Expanding twice is expanding once. */
  lemma ConcreteColumnRefsIdempotent(columnRefs: seq<ColumnReference>, tables: seq<TableSchema>)
    requires NoStarColumns(tables)
    requires ResolveToConcreteColumnRefs(columnRefs, tables).Ok?
    ensures var once := ResolveToConcreteColumnRefs(columnRefs, tables).value;
      ResolveToConcreteColumnRefs(once, tables) == Ok(once)
  {
    ConcreteColumnRefsHaveNoStar(columnRefs, tables);
    ConcreteColumnRefsKeepPlain(ResolveToConcreteColumnRefs(columnRefs, tables).value, tables);
  }

  /** The non-`*` references of the input keep their order in the output. */
  lemma {:induction false} ConcreteColumnRefsKeepOrder(columnRefs: seq<ColumnReference>, tables: seq<TableSchema>)
    requires ResolveToConcreteColumnRefs(columnRefs, tables).Ok?
    ensures IsSubsequence(NonStar(columnRefs), ResolveToConcreteColumnRefs(columnRefs, tables).value)
  {
    if columnRefs != [] {
      ConcreteColumnRefsKeepOrder(columnRefs[1..], tables);
      var rest := ResolveToConcreteColumnRefs(columnRefs[1..], tables).value;
      var first := Concrete(columnRefs[0], tables).value;
      assert ResolveToConcreteColumnRefs(columnRefs, tables).value == first + rest;
      if columnRefs[0].IsAllOf() {
        assert NonStar(columnRefs) == NonStar(columnRefs[1..]);
        SubsequenceOfSuffix(NonStar(columnRefs[1..]), first, rest);
      } else {
        var kept := NonStar(columnRefs);
        assert kept == [columnRefs[0]] + NonStar(columnRefs[1..]);
        assert first == [columnRefs[0]];
        assert kept[0] == (first + rest)[0] && kept[1..] == NonStar(columnRefs[1..]) && (first + rest)[1..] == rest;
      }
    }
  }

  /** `a` is `b` with some elements left out. */
  predicate IsSubsequence<T(==)>(a: seq<T>, b: seq<T>)
    decreases |b|
  {
    if a == [] then true
    else if b == [] then false
    else (a[0] == b[0] && IsSubsequence(a[1..], b[1..])) || IsSubsequence(a, b[1..])
  }

  lemma {:induction false} SubsequenceOfSuffix<T>(a: seq<T>, prefix: seq<T>, b: seq<T>)
    requires IsSubsequence(a, b)
    ensures IsSubsequence(a, prefix + b)
    decreases |prefix|
  {
    if prefix != [] && a != [] {
      SubsequenceOfSuffix(a, prefix[1..], b);
      assert (prefix + b)[1..] == prefix[1..] + b;
    } else if prefix == [] {
      assert prefix + b == b;
    }
  }

  // ---------------------------------------------------------------------------
  // resolveColumnReferences

  /** A returned column as is when it names its table, resolved otherwise. */
  function ResolveReturnedColumn(columnRef: ColumnReference, tables: seq<TableSchema>): (r: Result<ColumnReference>)
    ensures r.Ok? ==> r.value.HasTableName()
    ensures columnRef.HasTableName() ==> r == Ok(columnRef)
    ensures !columnRef.HasTableName() ==> r == UnqualifiedResolution(columnRef, tables)
  {
    if columnRef.HasTableName() then Ok(columnRef) else UnqualifiedResolution(columnRef, tables)
  }

  function ResolveReturnedColumns(columnRefs: seq<ColumnReference>, tables: seq<TableSchema>)
    : (r: Result<seq<ColumnReference>>)
    ensures r.Ok? ==> |r.value| == |columnRefs|
    ensures r.Ok? ==> forall i | 0 <= i < |columnRefs| :: ResolveReturnedColumn(columnRefs[i], tables) == Ok(r.value[i])
    ensures r.Ok? <==> forall i | 0 <= i < |columnRefs| :: ResolveReturnedColumn(columnRefs[i], tables).Ok?
  {
    if columnRefs == [] then Ok([])
    else
      assert forall i | 1 <= i < |columnRefs| :: columnRefs[1..][i - 1] == columnRefs[i];
      var first :- ResolveReturnedColumn(columnRefs[0], tables);
      var rest :- ResolveReturnedColumns(columnRefs[1..], tables);
      Ok([first] + rest)
  }

  /** The first column that cannot be resolved gives the failure. */
  lemma {:induction false} ResolveReturnedColumnsFirstFailure(columnRefs: seq<ColumnReference>, tables: seq<TableSchema>)
    requires ResolveReturnedColumns(columnRefs, tables).Err?
    ensures exists k | 0 <= k < |columnRefs| ::
              && ResolveReturnedColumn(columnRefs[k], tables) == Err(ResolveReturnedColumns(columnRefs, tables).failure)
              && forall j | 0 <= j < k :: ResolveReturnedColumn(columnRefs[j], tables).Ok?
  {
    if ResolveReturnedColumn(columnRefs[0], tables).Ok? {
      var rest := columnRefs[1..];
      ResolveReturnedColumnsFirstFailure(rest, tables);
      var k :| 0 <= k < |rest| && ResolveReturnedColumn(rest[k], tables) == Err(ResolveReturnedColumns(rest, tables).failure)
               && forall j | 0 <= j < k :: ResolveReturnedColumn(rest[j], tables).Ok?;
      assert columnRefs[k + 1] == rest[k];
      forall j | 0 <= j < k + 1 ensures ResolveReturnedColumn(columnRefs[j], tables).Ok? {
        if j > 0 {
          assert columnRefs[j] == rest[j - 1];
        }
      }
    }
  }

  /**
   * The columns one subquery returns into its parent: none unless it is a
   * UNION branch or an INSERT's SELECT; otherwise its returned columns with
   * every `*` expanded, each then resolved to its table.
   */
  function ColumnsReturnedBy(subquery: Query, tables: seq<TableSchema>): (r: Result<seq<ColumnReference>>)
    ensures !subquery.returnsIntoParentQuery ==> r == Ok([])
    ensures subquery.returnsIntoParentQuery ==>
              var concrete := ResolveToConcreteColumnRefs(subquery.returnedColumns, tables);
              && (r.Ok? <==> concrete.Ok? && ResolveReturnedColumns(concrete.value, tables).Ok?)
              && (r.Ok? ==> |r.value| == |concrete.value|
                            && forall i | 0 <= i < |r.value| :: ResolveReturnedColumn(concrete.value[i], tables) == Ok(r.value[i]))
  {
    if !subquery.returnsIntoParentQuery then Ok([])
    else
      var columnRefs :- ResolveToConcreteColumnRefs(subquery.returnedColumns, tables);
      ResolveReturnedColumns(columnRefs, tables)
  }

  function ColumnsReturnedBySubqueries(subqueries: seq<Query>, tables: seq<TableSchema>)
    : (r: Result<seq<ColumnReference>>)
    ensures r.Ok? ==> forall i | 0 <= i < |r.value| :: r.value[i].HasTableName()
    ensures r.Ok? <==> forall i | 0 <= i < |subqueries| :: ColumnsReturnedBy(subqueries[i], tables).Ok?
  {
    if subqueries == [] then Ok([])
    else
      assert forall i | 1 <= i < |subqueries| :: subqueries[1..][i - 1] == subqueries[i];
      var first :- ColumnsReturnedBy(subqueries[0], tables);
      var rest :- ColumnsReturnedBySubqueries(subqueries[1..], tables);
      assert forall i | 0 <= i < |first| :: first[i].HasTableName();
      Ok(first + rest)
  }

  lemma {:induction false} ColumnsReturnedBySubqueriesAppend(a: seq<Query>, b: seq<Query>, tables: seq<TableSchema>)
    ensures ColumnsReturnedBySubqueries(a + b, tables).Ok? <==>
              ColumnsReturnedBySubqueries(a, tables).Ok? && ColumnsReturnedBySubqueries(b, tables).Ok?
    ensures ColumnsReturnedBySubqueries(a + b, tables).Ok? ==>
              ColumnsReturnedBySubqueries(a + b, tables).value
              == ColumnsReturnedBySubqueries(a, tables).value + ColumnsReturnedBySubqueries(b, tables).value
  {
    if a == [] {
      assert a + b == b;
    } else {
      assert (a + b)[0] == a[0] && (a + b)[1..] == a[1..] + b;
      ColumnsReturnedBySubqueriesAppend(a[1..], b, tables);
      if ColumnsReturnedBy(a[0], tables).Ok? && ColumnsReturnedBySubqueries(a[1..] + b, tables).Ok? {
        AppendAssociates(ColumnsReturnedBy(a[0], tables).value,
                         ColumnsReturnedBySubqueries(a[1..], tables).value, ColumnsReturnedBySubqueries(b, tables).value);
      }
    }
  }

  /**
   * The merged columns are those of each subquery in turn: the `i`-th
   * subquery's returned columns sit between those of the subqueries before
   * and after it (and are none when it does not return into its parent).
   */
  lemma ColumnsReturnedBySubqueriesAt(subqueries: seq<Query>, tables: seq<TableSchema>, i: nat)
    requires ColumnsReturnedBySubqueries(subqueries, tables).Ok? && i < |subqueries|
    ensures ColumnsReturnedBySubqueries(subqueries[..i], tables).Ok?
    ensures ColumnsReturnedBy(subqueries[i], tables).Ok?
    ensures ColumnsReturnedBySubqueries(subqueries[i + 1..], tables).Ok?
    ensures ColumnsReturnedBySubqueries(subqueries, tables).value
            == ColumnsReturnedBySubqueries(subqueries[..i], tables).value + ColumnsReturnedBy(subqueries[i], tables).value
               + ColumnsReturnedBySubqueries(subqueries[i + 1..], tables).value
  {
    var after := [subqueries[i]] + subqueries[i + 1..];
    SplitAt(subqueries, i);
    ColumnsReturnedBySubqueriesAppend(subqueries[..i], after, tables);
    AppendAssociates(ColumnsReturnedBySubqueries(subqueries[..i], tables).value,
                     ColumnsReturnedBy(subqueries[i], tables).value,
                     ColumnsReturnedBySubqueries(subqueries[i + 1..], tables).value);
  }

  /**
   * `resolveColumnReferences`: the query's own references other than `*`,
   * followed by the resolved columns its subqueries return into it.
   */
  function ResolveColumnReferences(query: Query, tables: seq<TableSchema>): (r: Result<seq<ColumnReference>>)
    ensures r.Ok? ==> |r.value| >= |NonStar(query.referencedColumns)|
    ensures r.Ok? ==> r.value[..|NonStar(query.referencedColumns)|] == NonStar(query.referencedColumns)
    ensures r.Ok? ==> forall i | |NonStar(query.referencedColumns)| <= i < |r.value| :: r.value[i].HasTableName()
    ensures r.Err? <==> ColumnsReturnedBySubqueries(query.subqueries, tables).Err?
    ensures r.Ok? ==> r.value[|NonStar(query.referencedColumns)|..] == ColumnsReturnedBySubqueries(query.subqueries, tables).value
  {
    var returned :- ColumnsReturnedBySubqueries(query.subqueries, tables);
    var own := NonStar(query.referencedColumns);
    AppendParts(own, returned);
    Ok(own + returned)
  }

  /** Subqueries that return nothing into the query add nothing. */
  lemma {:induction false} NoReturningSubqueries(query: Query, tables: seq<TableSchema>)
    requires forall i | 0 <= i < |query.subqueries| :: !query.subqueries[i].returnsIntoParentQuery
    ensures ResolveColumnReferences(query, tables) == Ok(NonStar(query.referencedColumns))
  {
    NothingReturned(query.subqueries, tables);
    assert NonStar(query.referencedColumns) + [] == NonStar(query.referencedColumns);
  }

  lemma {:induction false} NothingReturned(subqueries: seq<Query>, tables: seq<TableSchema>)
    requires forall i | 0 <= i < |subqueries| :: !subqueries[i].returnsIntoParentQuery
    ensures ColumnsReturnedBySubqueries(subqueries, tables) == Ok([])
  {
    if subqueries != [] {
      assert ColumnsReturnedBy(subqueries[0], tables) == Ok([]);
      assert forall i | 0 <= i < |subqueries[1..]| :: subqueries[1..][i] == subqueries[i + 1];
      NothingReturned(subqueries[1..], tables);
      var none: seq<ColumnReference> := [];
      assert none + none == none;
    }
  }

  // ---------------------------------------------------------------------------
  // The unqualified `*` of an aliased relation

  /**
   * With the table name the reference extractor gives an unqualified `*`
   * over one aliased relation (its alias), the selector cannot be expanded
   * unless some schema happens to be called like the alias; with the
   * relation's real name it expands to the columns of that table.
   */
  lemma AliasedStarExpansion(relation: Path, path: Path, tables: seq<TableSchema>)
    requires RelationAlias(relation.node).Some?
    requires !Declares(tables, RelationAlias(relation.node).value)
    requires Declares(tables, RelationName(relation.node))
    ensures ResolveStarColumnRef(Qualified(UnqualifiedStarTableAsWritten(relation), "*", path), tables)
            == Err(NoTableNamed(RelationAlias(relation.node).value, TableNames(tables)))
    ensures ResolveStarColumnRef(Qualified(UnqualifiedStarTable(relation), "*", path), tables).Ok?
  {
  }

  /** `users u`, a relation aliased as `u`. */
  const UsersAliasedU := Path(Node(RangeVarTag, [Field("relname", Str("users")),
                                                 Field("alias", Node("Alias", [Field("aliasname", Str("u"))]))]),
                              [], "fromClause", RangeVarTag)

  /** A schema for `users` with columns `id` and `name`. */
  const UsersSchema := TableSchema("users", ["id", "name"], [], SourceFile("schema.ts", "", false), None)

  lemma UsersAliasedUNames()
    ensures RelationName(UsersAliasedU.node) == "users"
    ensures RelationAlias(UsersAliasedU.node) == Some("u")
  {
    var rangeVar := Get(UsersAliasedU.node, RangeVarTag);
    assert rangeVar == Obj([Field("relname", Str("users")), Field("alias", Node("Alias", [Field("aliasname", Str("u"))]))]);
    assert Get(rangeVar, "relname") == Str("users");
    var alias := Get(rangeVar, "alias");
    assert alias == Node("Alias", [Field("aliasname", Str("u"))]);
    assert Get(Get(alias, "Alias"), "aliasname") == Str("u");
  }

  /** `SELECT * FROM users u` with a `users` schema: as written, the `*` is given the alias and fails to expand. */
  lemma AliasedStarCounterexample()
    ensures UnqualifiedStarTableAsWritten(UsersAliasedU) == "u"
    ensures ResolveStarColumnRef(Qualified(UnqualifiedStarTableAsWritten(UsersAliasedU), "*", UsersAliasedU), [UsersSchema])
            == Err(NoTableNamed("u", ["users"]))
  {
    UsersAliasedUNames();
    var tables := [UsersSchema];
    assert tables[0].tableName == "users";
    assert !Declares(tables, "u");
    assert TableNames(tables) == ["users"];
  }

  /** With the real name, the same `*` expands to the two columns of `users`. */
  lemma AliasedStarCorrected()
    ensures UnqualifiedStarTable(UsersAliasedU) == "users"
    ensures ResolveStarColumnRef(Qualified(UnqualifiedStarTable(UsersAliasedU), "*", UsersAliasedU), [UsersSchema])
            == Ok([Qualified("users", "id", UsersAliasedU), Qualified("users", "name", UsersAliasedU)])
  {
    UsersAliasedUNames();
    UsersStarExpands(UsersAliasedU);
  }

  lemma UsersStarExpands(path: Path)
    ensures ResolveStarColumnRef(Qualified("users", "*", path), [UsersSchema])
            == Ok([Qualified("users", "id", path), Qualified("users", "name", path)])
  {
    var tables := [UsersSchema];
    var star := Qualified("users", "*", path);
    assert ResolveTable(star, tables) == Ok(UsersSchema) by {
      assert FindTable(tables, "users") == 0;
    }
    var r := ResolveStarColumnRef(star, tables);
    assert |r.value| == 2;
    assert r.value == [Qualified("users", "id", path), Qualified("users", "name", path)];
  }
}

=== FILE: sequences.dfy ===
/** Small facts about sequences that the proofs of several modules share. */
module Sequences {

  lemma AppendAssociates<T>(a: seq<T>, b: seq<T>, c: seq<T>)
    ensures (a + b) + c == a + (b + c)
  {
  }

  lemma PrefixPush<T>(s: seq<T>, i: nat)
    requires i < |s|
    ensures s[..i + 1] == s[..i] + [s[i]]
    ensures [s[i]][1..] == []
  {
  }

  lemma AppendParts<T>(a: seq<T>, b: seq<T>)
    ensures (a + b)[..|a|] == a && (a + b)[|a|..] == b
    ensures forall i | |a| <= i < |a + b| :: (a + b)[i] == b[i - |a|]
  {
  }

  /** Indexing into a sequence with one element pushed. */
  lemma PushIndex<T>(a: seq<T>, x: T, i: nat)
    requires i <= |a|
    ensures i < |a| ==> (a + [x])[i] == a[i]
    ensures i == |a| ==> (a + [x])[i] == x
  {
  }

  /** `s` cut around its `i`-th element. */
  lemma SplitAt<T>(s: seq<T>, i: nat)
    requires i < |s|
    ensures s == s[..i] + ([s[i]] + s[i + 1..])
    ensures ([s[i]] + s[i + 1..])[0] == s[i] && ([s[i]] + s[i + 1..])[1..] == s[i + 1..]
  {
  }
}

=== FILE: sql.dfy ===
/**
 * The `sql` template tag of the test helpers: it turns a template and its
 * interpolated values into a query text with numbered placeholders (`$1`,
 * `$2`, ...) and the list of values those placeholders stand for. `raw(...)`
 * and `spreadInsert(...)` values are special expressions, serialised into the
 * text instead of being passed as one parameter. Parameter values are of any
 * type `V`: the serialiser only passes them on.
 */
module SqlTemplate {

  import opened Wrappers
  import opened Failures
  import opened JsStrings

  /**
   * A value interpolated into the template. The source tells the kinds apart
   * by the `type` and `subtype` symbols of an object; here they are
   * constructors.
   */
  datatype Expression<V> =
      // anything other than an SQL expression object: falsy values, primitives, plain objects
    | Parameter(value: V)
      // `raw(rawValue)`
    | RawExpression(rawValue: string)
      // `spreadInsert(record)`: the entries of `Object.entries(record)`, in order
    | InsertValues(record: seq<(string, V)>)
      // an SQL expression object whose subtype is neither of the two above
    | OtherSpecial(subtype: string)

  /** `raw` */
  function Raw<V>(rawValue: string): Expression<V> {
    RawExpression(rawValue)
  }

  /** `spreadInsert` */
  function SpreadInsert<V>(record: seq<(string, V)>): Expression<V> {
    InsertValues(record)
  }

  /** What `sql` returns: pg's `QueryConfig`. */
  datatype QueryConfig<V> = QueryConfig(text: string, values: seq<V>)

  // ---------------------------------------------------------------------------
  // escapeIdentifier

  /**
   * The identifier without one pair of surrounding double quotes, if it has
   * them. A lone `"` both starts and ends with a quote: `substr(1, -1)` of it
   * is empty.
   */
  function StripQuotes(identifier: string): (stripped: string)
    ensures |stripped| <= |identifier|
  {
    if |identifier| >= 1 && identifier[0] == '"' && identifier[|identifier| - 1] == '"' then
      if |identifier| == 1 then "" else identifier[1..|identifier| - 1]
    else identifier
  }

  /** A double-quoted SQL identifier with no double quote inside. */
  predicate IsQuotedIdentifier(s: string) {
    |s| >= 2 && s[0] == '"' && s[|s| - 1] == '"' && '"' !in s[1..|s| - 1]
  }

  /** `escapeIdentifier`: the identifier in double quotes; a double quote inside it throws. */
  function EscapeIdentifier(identifier: string): (r: Result<string>)
    ensures r.Err? ==> r.failure.InvalidIdentifier?
  {
    var stripped := StripQuotes(identifier);
    if '"' in stripped then Err(InvalidIdentifier(stripped)) else Ok("\"" + stripped + "\"")
  }

  /**
   * `escapeIdentifier` accepts a bare identifier without double quotes, the
   * same in one pair of double quotes, or a lone `"`, and yields a quoted
   * identifier; a bare identifier comes back in double quotes.
   */
  lemma EscapeIdentifierAccepts(identifier: string)
    ensures EscapeIdentifier(identifier).Ok? <==>
              || '"' !in identifier
              || identifier == "\""
              || (|identifier| >= 2 && identifier[0] == '"' && identifier[|identifier| - 1] == '"'
                  && '"' !in identifier[1..|identifier| - 1])
    ensures EscapeIdentifier(identifier).Ok? ==> IsQuotedIdentifier(EscapeIdentifier(identifier).value)
    ensures '"' !in identifier ==> EscapeIdentifier(identifier) == Ok("\"" + identifier + "\"")
  {
    var stripped := StripQuotes(identifier);
    var quoted := "\"" + stripped + "\"";
    assert quoted[1..|quoted| - 1] == stripped;
  }

  /** Escaping an escaped identifier changes nothing. */
  lemma EscapeIdentifierIdempotent(identifier: string)
    requires EscapeIdentifier(identifier).Ok?
    ensures EscapeIdentifier(EscapeIdentifier(identifier).value) == EscapeIdentifier(identifier)
  {
    var quoted := EscapeIdentifier(identifier).value;
    var stripped := StripQuotes(identifier);
    assert quoted == "\"" + stripped + "\"";
    assert StripQuotes(quoted) == stripped;
  }

  // ---------------------------------------------------------------------------
  // pushSqlParameter

  /** The placeholder of the parameter at 1-based `position`: `$` and the number in decimal. */
  function Placeholder(position: nat): (p: string)
    ensures |p| >= 2 && p[0] == '$'
  {
    "$" + NatToString(position)
  }

  /** Reading the number back from a placeholder gives its position. */
  lemma PlaceholderPosition(position: nat)
    ensures DigitsValue(Placeholder(position)[1..]) == position
  {
    assert Placeholder(position)[1..] == NatToString(position);
    NatToStringRoundTrip(position);
  }

  /** Different positions never share a placeholder. */
  lemma PlaceholdersDistinct(m: nat, n: nat)
    requires Placeholder(m) == Placeholder(n)
    ensures m == n
  {
    PlaceholderPosition(m);
    PlaceholderPosition(n);
  }

  /** The `parameterValues` array that `sql` hands to each serialisation. */
  class ParameterValues<V> {
    var values: seq<V>

    constructor ()
      ensures values == []
    {
      values := [];
    }

    /** `pushSqlParameter`: the value goes last and its placeholder numbers its position. */
    method Push(value: V) returns (placeholder: string)
      modifies this
      ensures values == old(values) + [value]
      ensures placeholder == Placeholder(|values|)
    {
      values := values + [value];
      placeholder := Placeholder(|values|);
    }
  }

  // ---------------------------------------------------------------------------
  // serializeSqlSpecialExpression, serializeSqlTemplateExpression

  /** The placeholders of `count` values pushed after `pushedBefore` others. */
  function Placeholders(pushedBefore: nat, count: nat): (placeholders: seq<string>)
    ensures |placeholders| == count
  {
    if count == 0 then [] else Placeholders(pushedBefore, count - 1) + [Placeholder(pushedBefore + count)]
  }

  /** The `j`th placeholder names the `j + 1`th value pushed after the first `pushedBefore`. */
  lemma {:induction false} PlaceholdersAt(pushedBefore: nat, count: nat)
    ensures forall j | 0 <= j < count :: Placeholders(pushedBefore, count)[j] == Placeholder(pushedBefore + j + 1)
  {
    if count > 0 {
      PlaceholdersAt(pushedBefore, count - 1);
    }
  }

  /** The values of a record's entries, in order. */
  function RecordValues<V>(record: seq<(string, V)>): (values: seq<V>)
    ensures |values| == |record|
  {
    if record == [] then [] else RecordValues(record[..|record| - 1]) + [record[|record| - 1].1]
  }

  /** The `j`th value is that of the `j`th entry. */
  lemma {:induction false} RecordValuesAt<V>(record: seq<(string, V)>)
    ensures forall j | 0 <= j < |record| :: RecordValues(record)[j] == record[j].1
  {
    if record != [] {
      var init := record[..|record| - 1];
      RecordValuesAt(init);
      assert forall j | 0 <= j < |init| :: record[j] == init[j];
    }
  }

  /** The escaped column names of a record's entries; the first that cannot be escaped throws. */
  function EscapedColumns<V>(record: seq<(string, V)>): (r: Result<seq<string>>)
    ensures r.Err? ==> r.failure.InvalidIdentifier?
  {
    if record == [] then Ok([])
    else
      var column :- EscapeIdentifier(record[0].0);
      var columns :- EscapedColumns(record[1..]);
      Ok([column] + columns)
  }

  /** The columns escape exactly when every entry's key does, one escaped name per entry in order. */
  lemma {:induction false} EscapedColumnsEach<V>(record: seq<(string, V)>)
    ensures var r := EscapedColumns(record);
            && (r.Ok? <==> forall j | 0 <= j < |record| :: EscapeIdentifier(record[j].0).Ok?)
            && (r.Ok? ==> |r.value| == |record| && forall j | 0 <= j < |record| :: EscapeIdentifier(record[j].0) == Ok(r.value[j]))
  {
    if record != [] {
      EscapedColumnsEach(record[1..]);
      assert forall j | 1 <= j < |record| :: record[1..][j - 1] == record[j];
    }
  }

  /** A throw is the error of the first key that cannot be escaped. */
  lemma {:induction false} EscapedColumnsFirstFailure<V>(record: seq<(string, V)>)
    requires EscapedColumns(record).Err?
    ensures exists j | 0 <= j < |record| ::
              && EscapeIdentifier(record[j].0) == Err(EscapedColumns(record).failure)
              && forall i | 0 <= i < j :: EscapeIdentifier(record[i].0).Ok?
  {
    if EscapeIdentifier(record[0].0).Ok? {
      var rest := record[1..];
      EscapedColumnsFirstFailure(rest);
      var j :| 0 <= j < |rest| && EscapeIdentifier(rest[j].0) == Err(EscapedColumns(record).failure)
               && forall i | 0 <= i < j :: EscapeIdentifier(rest[i].0).Ok?;
      assert record[j + 1] == rest[j];
      assert forall i | 1 <= i < j + 1 :: record[i] == rest[i - 1];
    }
  }

  /** The serialisation succeeds: a known kind, and for an insert spread every column escapes. */
  predicate Serializable<V>(expression: Expression<V>) {
    && !expression.OtherSpecial?
    && (expression.InsertValues? ==>
          forall j | 0 <= j < |expression.record| :: EscapeIdentifier(expression.record[j].0).Ok?)
  }

  /** The parameter values a successful serialisation pushes. */
  function Pushed<V>(expression: Expression<V>): seq<V> {
    match expression
    case Parameter(value) => [value]
    case InsertValues(record) => RecordValues(record)
    case _ => []
  }

  /**
   * The text an expression serialises to when `pushedBefore` values were
   * pushed before it: a placeholder for a parameter, the raw text verbatim,
   * and for an insert spread its escaped columns and their placeholders.
   */
  function SerializedText<V>(expression: Expression<V>, pushedBefore: nat): (r: Result<string>)
  {
    match expression
    case Parameter(_) => Ok(Placeholder(pushedBefore + 1))
    case RawExpression(rawValue) => Ok(rawValue)
    case InsertValues(record) =>
      var columns :- EscapedColumns(record);
      Ok("(" + Join(columns, ", ") + ")" + " VALUES " + "(" + Join(Placeholders(pushedBefore, |record|), ", ") + ")")
    case OtherSpecial(subtype) => Err(InvalidSpecialSubtype(subtype))
  }

  /**
   * The serialisation throws exactly for an unknown subtype and for an
   * insert spread with a key that cannot be escaped, with their errors.
   */
  lemma SerializedTextFails<V>(expression: Expression<V>, pushedBefore: nat)
    ensures SerializedText(expression, pushedBefore).Ok? <==> Serializable(expression)
    ensures expression.OtherSpecial? ==> SerializedText(expression, pushedBefore) == Err(InvalidSpecialSubtype(expression.subtype))
    ensures SerializedText(expression, pushedBefore).Err? && expression.InsertValues? ==>
              SerializedText(expression, pushedBefore).failure.InvalidIdentifier?
  {
    if expression.InsertValues? {
      EscapedColumnsEach(expression.record);
    }
  }

  /**
   * An insert spread serialises to its escaped column names and, in the same
   * order, one placeholder per entry, numbered on from the values pushed
   * before it.
   */
  lemma InsertSpreadText<V>(record: seq<(string, V)>, pushedBefore: nat)
    requires SerializedText(InsertValues(record), pushedBefore).Ok?
    ensures exists columns: seq<string> ::
              && |columns| == |record|
              && (forall j | 0 <= j < |record| :: EscapeIdentifier(record[j].0) == Ok(columns[j]))
              && SerializedText(InsertValues(record), pushedBefore)
                 == Ok("(" + Join(columns, ", ") + ") VALUES (" + Join(Placeholders(pushedBefore, |record|), ", ") + ")")
  {
    EscapedColumnsEach(record);
    var columns := EscapedColumns(record).value;
    assert "(" + Join(columns, ", ") + ")" + " VALUES " + "(" == "(" + Join(columns, ", ") + ") VALUES (";
  }

  /** The `map` over the record's entries that pushes each value and collects its placeholder. */
  method PushRecordValues<V>(record: seq<(string, V)>, parameterValues: ParameterValues<V>)
    returns (placeholders: seq<string>)
    modifies parameterValues
    ensures parameterValues.values == old(parameterValues.values) + RecordValues(record)
    ensures placeholders == Placeholders(|old(parameterValues.values)|, |record|)
  {
    ghost var before := parameterValues.values;
    placeholders := [];
    for j := 0 to |record|
      invariant parameterValues.values == before + RecordValues(record[..j])
      invariant placeholders == Placeholders(|before|, j)
    {
      var placeholder := parameterValues.Push(record[j].1);
      assert record[..j + 1][..j] == record[..j];
      assert RecordValues(record[..j + 1]) == RecordValues(record[..j]) + [record[j].1];
      assert placeholder == Placeholder(|before| + j + 1);
      placeholders := placeholders + [placeholder];
    }
    assert record[..|record|] == record;
  }

  /** `serializeSqlSpecialExpression` */
  method SerializeSpecialExpression<V>(expression: Expression<V>, parameterValues: ParameterValues<V>)
    returns (r: Result<string>)
    requires !expression.Parameter?
    modifies parameterValues
    ensures r == SerializedText(expression, |old(parameterValues.values)|)
    ensures parameterValues.values == old(parameterValues.values) + (if r.Ok? then Pushed(expression) else [])
  {
    if expression.InsertValues? {
      var record := expression.record;
      var columns :- EscapedColumns(record);
      var placeholders := PushRecordValues(record, parameterValues);
      r := Ok("(" + Join(columns, ", ") + ")" + " VALUES " + "(" + Join(placeholders, ", ") + ")");
    } else if expression.RawExpression? {
      r := Ok(expression.rawValue);
    } else {
      r := Err(InvalidSpecialSubtype(expression.subtype));
    }
  }

  /** `serializeSqlTemplateExpression` */
  method SerializeTemplateExpression<V>(expression: Expression<V>, parameterValues: ParameterValues<V>)
    returns (r: Result<string>)
    modifies parameterValues
    ensures r == SerializedText(expression, |old(parameterValues.values)|)
    ensures parameterValues.values == old(parameterValues.values) + (if r.Ok? then Pushed(expression) else [])
  {
    if expression.Parameter? {
      var placeholder := parameterValues.Push(expression.value);
      r := Ok(placeholder);
    } else {
      r := SerializeSpecialExpression(expression, parameterValues);
    }
  }

  // ---------------------------------------------------------------------------
  // sql

  /** The error a serialisation throws, if any; it does not depend on the values pushed before. */
  function FailureOf<V>(expression: Expression<V>): Option<Failure> {
    match expression
    case OtherSpecial(subtype) => Some(InvalidSpecialSubtype(subtype))
    case InsertValues(record) => if EscapedColumns(record).Err? then Some(EscapedColumns(record).failure) else None
    case _ => None
  }

  /** The serialisation throws exactly the error `FailureOf` names, whatever was pushed before. */
  lemma SerializedTextFailure<V>(expression: Expression<V>, pushedBefore: nat)
    ensures SerializedText(expression, pushedBefore).Err? <==> FailureOf(expression).Some?
    ensures SerializedText(expression, pushedBefore).Err? ==>
              FailureOf(expression) == Some(SerializedText(expression, pushedBefore).failure)
    ensures FailureOf(expression).None? <==> Serializable(expression)
  {
    SerializedTextFails(expression, pushedBefore);
  }

  /** The error of the first of the first `n` expressions whose serialisation throws. */
  function FirstFailure<V>(values: seq<Expression<V>>, n: nat): Option<Failure>
    requires n <= |values|
  {
    if n == 0 then None
    else
      var failure := FirstFailure(values, n - 1);
      if failure.Some? then failure else FailureOf(values[n - 1])
  }

  /** The values each expression would push, one block per expression. */
  function PushedBlocks<V>(values: seq<Expression<V>>): (blocks: seq<seq<V>>)
    ensures |blocks| == |values|
    ensures forall j | 0 <= j < |values| :: blocks[j] == Pushed(values[j])
  {
    if values == [] then [] else PushedBlocks(values[..|values| - 1]) + [Pushed(values[|values| - 1])]
  }

  /** The first `n` blocks, one after the other. */
  function Flatten<T>(blocks: seq<seq<T>>, n: nat): seq<T>
    requires n <= |blocks|
  {
    if n == 0 then [] else Flatten(blocks, n - 1) + blocks[n - 1]
  }

  /** The values the first `n` expressions push, one expression after the other. */
  function PushedValues<V>(values: seq<Expression<V>>, n: nat): seq<V>
    requires n <= |values|
  {
    Flatten(PushedBlocks(values), n)
  }

  /** `texts[i] || ''`: the text after the `i`th value, empty when the template has none. */
  function FollowingText(texts: seq<string>, i: nat): string {
    if i < |texts| then texts[i] else ""
  }

  /**
   * The text after the loop of `sql` has serialised the first `n` values:
   * `texts[0]`, then each value's serialisation followed by the text after it.
   */
  function SqlText<V>(texts: seq<string>, values: seq<Expression<V>>, n: nat): string
    requires |texts| >= 1 && n <= |values|
  {
    if n == 0 then texts[0]
    else
      var serialized := match SerializedText(values[n - 1], |PushedValues(values, n - 1)|)
                        case Ok(text) => text
                        case Err(_) => "";
      SqlText(texts, values, n - 1) + serialized + FollowingText(texts, n)
  }

  /** What `sql` returns, or the error it throws. */
  function SqlQuery<V>(texts: seq<string>, values: seq<Expression<V>>): Result<QueryConfig<V>>
    requires |texts| >= 1
  {
    var failure := FirstFailure(values, |values|);
    if failure.Some? then Err(failure.value)
    else Ok(QueryConfig(SqlText(texts, values, |values|), PushedValues(values, |values|)))
  }

  /** Once a serialisation has thrown, later values change nothing. */
  lemma {:induction false} FirstFailureIsFinal<V>(values: seq<Expression<V>>, m: nat, n: nat)
    requires m <= n <= |values| && FirstFailure(values, m).Some?
    ensures FirstFailure(values, n) == FirstFailure(values, m)
    decreases n
  {
    if m < n {
      FirstFailureIsFinal(values, m, n - 1);
    }
  }

  /** One turn of the loop of `sql`, while nothing has thrown. */
  lemma SqlStep<V>(texts: seq<string>, values: seq<Expression<V>>, n: nat)
    requires |texts| >= 1 && n < |values| && FirstFailure(values, n).None?
    ensures FirstFailure(values, n + 1) == FailureOf(values[n])
    ensures PushedValues(values, n + 1) == PushedValues(values, n) + Pushed(values[n])
    ensures SerializedText(values[n], |PushedValues(values, n)|).Ok? ==>
              SqlText(texts, values, n + 1)
              == SqlText(texts, values, n) + SerializedText(values[n], |PushedValues(values, n)|).value
                 + FollowingText(texts, n + 1)
  {
  }

  /** `sql` */
  method Sql<V>(texts: seq<string>, values: seq<Expression<V>>) returns (r: Result<QueryConfig<V>>)
    requires |texts| >= 1
    ensures r == SqlQuery(texts, values)
  {
    var resultingSqlQuery := texts[0];
    var parameterValues := new ParameterValues<V>();
    for valueIndex := 0 to |values|
      invariant FirstFailure(values, valueIndex).None?
      invariant resultingSqlQuery == SqlText(texts, values, valueIndex)
      invariant parameterValues.values == PushedValues(values, valueIndex)
    {
      var expression := values[valueIndex];
      var followingSqlText := FollowingText(texts, valueIndex + 1);
      ghost var pushedBefore := |parameterValues.values|;
      SqlStep(texts, values, valueIndex);
      SerializedTextFailure(expression, pushedBefore);
      var serialized := SerializeTemplateExpression(expression, parameterValues);
      if serialized.Err? {
        FirstFailureIsFinal(values, valueIndex + 1, |values|);
        return Err(serialized.failure);
      }
      resultingSqlQuery := resultingSqlQuery + serialized.value + followingSqlText;
    }
    r := Ok(QueryConfig(resultingSqlQuery, parameterValues.values));
  }

  // ---------------------------------------------------------------------------
  // Properties of sql

  /** The number of parameters the first `n` values add: one per plain value, one per insert spread entry. */
  function ParameterCount<V>(values: seq<Expression<V>>, n: nat): nat
    requires n <= |values|
  {
    if n == 0 then 0
    else
      ParameterCount(values, n - 1)
      + match values[n - 1]
        case Parameter(_) => 1
        case InsertValues(record) => |record|
        case _ => 0
  }

  lemma {:induction false} FirstFailureNone<V>(values: seq<Expression<V>>, n: nat)
    requires n <= |values|
    ensures FirstFailure(values, n).None? <==> forall i | 0 <= i < n :: Serializable(values[i])
  {
    if n > 0 {
      FirstFailureNone(values, n - 1);
      SerializedTextFailure(values[n - 1], 0);
    }
  }

  /** `sql` throws exactly when some value cannot be serialised. */
  lemma SqlFails<V>(texts: seq<string>, values: seq<Expression<V>>)
    requires |texts| >= 1
    ensures SqlQuery(texts, values).Ok? <==> forall i | 0 <= i < |values| :: Serializable(values[i])
  {
    FirstFailureNone(values, |values|);
  }

  /** The first failure is that of a value all of whose predecessors serialise. */
  lemma {:induction false} FirstFailureAt<V>(values: seq<Expression<V>>, n: nat)
    requires n <= |values| && FirstFailure(values, n).Some?
    ensures exists i | 0 <= i < n ::
              && FailureOf(values[i]) == FirstFailure(values, n)
              && forall j | 0 <= j < i :: Serializable(values[j])
  {
    if FirstFailure(values, n - 1).Some? {
      FirstFailureAt(values, n - 1);
    } else {
      FirstFailureNone(values, n - 1);
    }
  }

  /** The error `sql` throws is that of the first value whose serialisation throws. */
  lemma SqlFirstFailure<V>(texts: seq<string>, values: seq<Expression<V>>)
    requires |texts| >= 1 && SqlQuery(texts, values).Err?
    ensures exists i | 0 <= i < |values| ::
              && SerializedText(values[i], ParameterCount(values, i)) == Err(SqlQuery(texts, values).failure)
              && forall j | 0 <= j < i :: Serializable(values[j])
  {
    FirstFailureAt(values, |values|);
    var i :| 0 <= i < |values| && FailureOf(values[i]) == FirstFailure(values, |values|)
             && forall j | 0 <= j < i :: Serializable(values[j]);
    SerializedTextFailure(values[i], ParameterCount(values, i));
  }

  /** The first `n` expressions push one value per plain value and one per insert spread entry. */
  lemma {:induction false} PushedValuesCount<V>(values: seq<Expression<V>>, n: nat)
    requires n <= |values|
    ensures |PushedValues(values, n)| == ParameterCount(values, n)
  {
    if n > 0 {
      PushedValuesCount(values, n - 1);
    }
  }

  /** The `i`th block keeps its place, right after the blocks before it, while later blocks follow. */
  lemma {:induction false} FlattenBlock<T>(blocks: seq<seq<T>>, i: nat, n: nat)
    requires i < n <= |blocks|
    ensures var k := |Flatten(blocks, i)|;
            && k + |blocks[i]| <= |Flatten(blocks, n)|
            && Flatten(blocks, n)[k..k + |blocks[i]|] == blocks[i]
    decreases n
  {
    var k := |Flatten(blocks, i)|;
    if n == i + 1 {
      SliceOfAppend(Flatten(blocks, i), blocks[i], k, k + |blocks[i]|);
    } else {
      FlattenBlock(blocks, i, n - 1);
      SliceOfAppend(Flatten(blocks, n - 1), blocks[n - 1], k, k + |blocks[i]|);
    }
  }

  /** The values of the `i`th expression sit right after those of the expressions before it. */
  lemma PushedValuesAt<V>(values: seq<Expression<V>>, i: nat)
    requires i < |values|
    ensures var k := ParameterCount(values, i);
            && k + |Pushed(values[i])| <= |PushedValues(values, |values|)|
            && PushedValues(values, |values|)[k..k + |Pushed(values[i])|] == Pushed(values[i])
  {
    var blocks := PushedBlocks(values);
    FlattenBlock(blocks, i, |values|);
    assert blocks[i] == Pushed(values[i]);
    PushedValuesCount(values, i);
    assert |Flatten(blocks, i)| == ParameterCount(values, i);
  }

  /** A slice of `a + b` is a slice of `a` below `|a|` and a slice of `b` above it. */
  lemma SliceOfAppend<T>(a: seq<T>, b: seq<T>, lo: nat, hi: nat)
    requires lo <= hi <= |a + b|
    ensures hi <= |a| ==> (a + b)[lo..hi] == a[lo..hi]
    ensures lo == |a| ==> (a + b)[lo..hi] == b[..hi - lo]
  {
  }

  /** Without a throw, the query holds one value per plain value and one per insert spread entry. */
  lemma SqlValuesCount<V>(texts: seq<string>, values: seq<Expression<V>>)
    requires |texts| >= 1 && SqlQuery(texts, values).Ok?
    ensures |SqlQuery(texts, values).value.values| == ParameterCount(values, |values|)
  {
    PushedValuesCount(values, |values|);
  }

  /**
   * Without a throw, the `i`th value serialises with the parameters counted
   * before it as its starting number, and the values it pushes sit at
   * exactly those positions: its placeholders `$k+1`, `$k+2`, ... name its
   * own values.
   */
  lemma SqlBindsPlaceholders<V>(texts: seq<string>, values: seq<Expression<V>>, i: nat)
    requires |texts| >= 1 && i < |values| && SqlQuery(texts, values).Ok?
    ensures var query := SqlQuery(texts, values).value;
            var k := ParameterCount(values, i);
            && SerializedText(values[i], k).Ok?
            && k + |Pushed(values[i])| <= |query.values|
            && query.values[k..k + |Pushed(values[i])|] == Pushed(values[i])
  {
    PushedValuesAt(values, i);
    SqlFails(texts, values);
    SerializedTextFailure(values[i], ParameterCount(values, i));
  }

  /** `texts[0]`, `$1`, `texts[1]`, `$2`, ... up to the `n`th placeholder and the text after it. */
  function PlainText(texts: seq<string>, n: nat): string
    requires |texts| >= 1
  {
    if n == 0 then texts[0] else PlainText(texts, n - 1) + Placeholder(n) + FollowingText(texts, n)
  }

  lemma {:induction false} PlainValuesText<V>(texts: seq<string>, values: seq<Expression<V>>, n: nat)
    requires |texts| >= 1 && n <= |values|
    requires forall i | 0 <= i < n :: values[i].Parameter?
    ensures |PushedValues(values, n)| == n
    ensures forall i | 0 <= i < n :: PushedValues(values, n)[i] == values[i].value
    ensures SqlText(texts, values, n) == PlainText(texts, n)
  {
    if n > 0 {
      PlainValuesText(texts, values, n - 1);
    }
  }

  /** A template of plain values only passes them on in order, numbered `$1`, `$2`, ... */
  lemma SqlPlainValues<V>(texts: seq<string>, values: seq<Expression<V>>)
    requires |texts| >= 1
    requires forall i | 0 <= i < |values| :: values[i].Parameter?
    ensures SqlQuery(texts, values).Ok?
    ensures |SqlQuery(texts, values).value.values| == |values|
    ensures forall i | 0 <= i < |values| :: SqlQuery(texts, values).value.values[i] == values[i].value
    ensures SqlQuery(texts, values).value.text == PlainText(texts, |values|)
  {
    FirstFailureNone(values, |values|);
    PlainValuesText(texts, values, |values|);
  }
}

=== FILE: utils.dfy ===
/**
 * `getAllSubqueries`: every subquery of a query, at any depth, each listed
 * after its own subqueries.
 */
module Utils {

  import opened Wrappers
  import opened QueryTypes

  /**
   * `getAllSubqueries`: the reduce over the direct subqueries appends, for
   * each in turn, its own subqueries and then the subquery itself.
   */
  function GetAllSubqueries(query: Query): (all: seq<Query>)
    ensures forall s | s in all :: s < query
    decreases query, 1
  {
    SubqueryBlocks(query, |query.subqueries|)
  }

  /** The reduce after its first `n` steps. */
  function SubqueryBlocks(query: Query, n: nat): (blocks: seq<Query>)
    requires n <= |query.subqueries|
    ensures forall s | s in blocks :: s < query
    decreases query, 0, n
  {
    if n == 0 then []
    else
      var subquery := query.subqueries[n - 1];
      assert subquery in query.subqueries;
      SubqueryBlocks(query, n - 1) + GetAllSubqueries(subquery) + [subquery]
  }

  // ---------------------------------------------------------------------------
  // Counting: the tree size

  /** The number of queries in the subquery tree rooted at `query`, the root included. */
  function TreeSize(query: Query): (size: nat)
    ensures size >= 1
    decreases query, 1
  {
    1 + SubtreeSizes(query, |query.subqueries|)
  }

  /** The sizes of the trees of the first `n` direct subqueries, added up. */
  function SubtreeSizes(query: Query, n: nat): nat
    requires n <= |query.subqueries|
    decreases query, 0, n
  {
    if n == 0 then 0 else SubtreeSizes(query, n - 1) + TreeSize(query.subqueries[n - 1])
  }

  /** The result has one entry per query of the tree other than the root. */
  lemma {:induction false} AllSubqueriesCount(query: Query)
    ensures |GetAllSubqueries(query)| == TreeSize(query) - 1
    decreases query, 1
  {
    SubqueryBlocksCount(query, |query.subqueries|);
  }

  lemma {:induction false} SubqueryBlocksCount(query: Query, n: nat)
    requires n <= |query.subqueries|
    ensures |SubqueryBlocks(query, n)| == SubtreeSizes(query, n)
    decreases query, 0, n
  {
    if n > 0 {
      SubqueryBlocksCount(query, n - 1);
      AllSubqueriesCount(query.subqueries[n - 1]);
    }
  }

  // ---------------------------------------------------------------------------
  // Blocks: one contiguous block per direct subquery, in order

  lemma {:induction false} SubqueryBlocksPrefix(query: Query, m: nat, n: nat)
    requires m <= n <= |query.subqueries|
    ensures |SubqueryBlocks(query, m)| <= |SubqueryBlocks(query, n)|
    ensures SubqueryBlocks(query, n)[..|SubqueryBlocks(query, m)|] == SubqueryBlocks(query, m)
    decreases n
  {
    if m < n {
      SubqueryBlocksPrefix(query, m, n - 1);
      var shorter := SubqueryBlocks(query, n - 1);
      var longer := SubqueryBlocks(query, n);
      assert longer[..|shorter|] == shorter;
      assert longer[..|SubqueryBlocks(query, m)|] == shorter[..|SubqueryBlocks(query, m)|];
    }
  }

  /**
   * The `i`th direct subquery's block starts after the trees of the
   * subqueries before it: its own subqueries, then the subquery itself.
   */
  lemma SubqueryBlockAt(query: Query, i: nat)
    requires i < |query.subqueries|
    ensures var all := GetAllSubqueries(query);
            var start := SubtreeSizes(query, i);
            var end := SubtreeSizes(query, i + 1);
            && start < end <= |all|
            && all[start..end - 1] == GetAllSubqueries(query.subqueries[i])
            && all[end - 1] == query.subqueries[i]
  {
    var all := GetAllSubqueries(query);
    var block := SubqueryBlocks(query, i + 1);
    SubqueryBlocksPrefix(query, i + 1, |query.subqueries|);
    SubqueryBlocksCount(query, i);
    SubqueryBlocksCount(query, i + 1);
    var start := SubtreeSizes(query, i);
    var end := SubtreeSizes(query, i + 1);
    assert all[..end] == block;
    assert block[start..end - 1] == GetAllSubqueries(query.subqueries[i]);
    assert all[start..end - 1] == block[start..end - 1];
  }

  // ---------------------------------------------------------------------------
  // Deepest first

  /**
   * Each entry is immediately preceded by all of its own transitive
   * subqueries, in the order `GetAllSubqueries` lists them.
   */
  ghost predicate DeepestFirst(queries: seq<Query>) {
    forall i | 0 <= i < |queries| ::
      |GetAllSubqueries(queries[i])| <= i && queries[i - |GetAllSubqueries(queries[i])|..i] == GetAllSubqueries(queries[i])
  }

  lemma DeepestFirstConcat(a: seq<Query>, b: seq<Query>)
    requires DeepestFirst(a) && DeepestFirst(b)
    ensures DeepestFirst(a + b)
  {
    var ab := a + b;
    forall i | 0 <= i < |ab|
      ensures |GetAllSubqueries(ab[i])| <= i && ab[i - |GetAllSubqueries(ab[i])|..i] == GetAllSubqueries(ab[i])
    {
      if i < |a| {
        assert ab[i] == a[i];
        assert ab[i - |GetAllSubqueries(a[i])|..i] == a[i - |GetAllSubqueries(a[i])|..i];
      } else {
        var k := i - |a|;
        assert ab[i] == b[k];
        assert ab[i - |GetAllSubqueries(b[k])|..i] == b[k - |GetAllSubqueries(b[k])|..k];
      }
    }
  }

  lemma DeepestFirstClose(a: seq<Query>, subquery: Query)
    requires DeepestFirst(a) && DeepestFirst(GetAllSubqueries(subquery))
    ensures DeepestFirst(a + GetAllSubqueries(subquery) + [subquery])
  {
    var below := GetAllSubqueries(subquery);
    var ab := a + below;
    DeepestFirstConcat(a, below);
    var r := ab + [subquery];
    forall i | 0 <= i < |r|
      ensures |GetAllSubqueries(r[i])| <= i && r[i - |GetAllSubqueries(r[i])|..i] == GetAllSubqueries(r[i])
    {
      if i < |ab| {
        var q := ab[i];
        assert r[i] == q;
        var lo := i - |GetAllSubqueries(q)|;
        SliceOfPrefix(ab, [subquery], lo, i);
      } else {
        assert r[i] == subquery;
        SliceOfPrefix(ab, [subquery], |a|, i);
        assert ab[|a|..i] == below;
      }
    }
  }

  lemma SliceOfPrefix<T>(s: seq<T>, t: seq<T>, lo: nat, hi: nat)
    requires lo <= hi <= |s|
    ensures (s + t)[lo..hi] == s[lo..hi]
  {
  }

  /** Every subquery in the result comes after all of its own transitive subqueries. */
  lemma {:induction false} AllSubqueriesDeepestFirst(query: Query)
    ensures DeepestFirst(GetAllSubqueries(query))
    decreases query, 1
  {
    SubqueryBlocksDeepestFirst(query, |query.subqueries|);
  }

  lemma {:induction false} SubqueryBlocksDeepestFirst(query: Query, n: nat)
    requires n <= |query.subqueries|
    ensures DeepestFirst(SubqueryBlocks(query, n))
    decreases query, 0, n
  {
    if n > 0 {
      SubqueryBlocksDeepestFirst(query, n - 1);
      AllSubqueriesDeepestFirst(query.subqueries[n - 1]);
      DeepestFirstClose(SubqueryBlocks(query, n - 1), query.subqueries[n - 1]);
    }
  }

  // ---------------------------------------------------------------------------
  // Exactly the transitive subqueries

  /** The query reached from `query` by following the subquery indexes of `indexes`. */
  function Follow(query: Query, indexes: seq<int>): Option<Query>
    decreases indexes
  {
    if indexes == [] then Some(query)
    else if 0 <= indexes[0] < |query.subqueries| then Follow(query.subqueries[indexes[0]], indexes[1..])
    else None
  }

  /** `descendant` lies one or more subquery steps below `query`. */
  ghost predicate IsDescendant(query: Query, descendant: Query) {
    exists indexes: seq<int> | |indexes| > 0 :: Follow(query, indexes) == Some(descendant)
  }

  lemma {:induction false} SubqueryBlocksMembers(query: Query, n: nat)
    requires n <= |query.subqueries|
    ensures forall d :: d in SubqueryBlocks(query, n) <==>
              exists j | 0 <= j < n :: d == query.subqueries[j] || d in GetAllSubqueries(query.subqueries[j])
  {
    if n > 0 {
      SubqueryBlocksMembers(query, n - 1);
    }
  }

  /** Everything listed is a descendant of the query. */
  lemma {:induction false} AllSubqueriesAreDescendants(query: Query)
    ensures forall d | d in GetAllSubqueries(query) :: IsDescendant(query, d)
    decreases query
  {
    SubqueryBlocksMembers(query, |query.subqueries|);
    forall d | d in GetAllSubqueries(query) ensures IsDescendant(query, d) {
      assert d in SubqueryBlocks(query, |query.subqueries|);
      var j :| 0 <= j < |query.subqueries| && (d == query.subqueries[j] || d in GetAllSubqueries(query.subqueries[j]));
      var subquery := query.subqueries[j];
      if d == subquery {
        assert Follow(query, [j]) == Follow(subquery, []);
      } else {
        AllSubqueriesAreDescendants(subquery);
        assert IsDescendant(subquery, d);
        var rest: seq<int> :| |rest| > 0 && Follow(subquery, rest) == Some(d);
        assert ([j] + rest)[1..] == rest;
        assert Follow(query, [j] + rest) == Some(d);
      }
    }
  }

  /** Every descendant of the query is listed. */
  lemma {:induction false} DescendantsAreListed(query: Query, indexes: seq<int>)
    requires |indexes| > 0 && Follow(query, indexes).Some?
    ensures Follow(query, indexes).value in GetAllSubqueries(query)
    decreases indexes
  {
    var j := indexes[0];
    var subquery := query.subqueries[j];
    SubqueryBlocksMembers(query, |query.subqueries|);
    if |indexes| > 1 {
      DescendantsAreListed(subquery, indexes[1..]);
    }
  }

  /** The result holds exactly the transitive subqueries of the query, the query itself excluded. */
  lemma AllSubqueriesExactly(query: Query)
    ensures forall d :: d in GetAllSubqueries(query) <==> IsDescendant(query, d)
  {
    AllSubqueriesAreDescendants(query);
    forall d | IsDescendant(query, d) ensures d in GetAllSubqueries(query) {
      var indexes: seq<int> :| |indexes| > 0 && Follow(query, indexes) == Some(d);
      DescendantsAreListed(query, indexes);
    }
  }
}

=== FILE: validation.dfy ===
/**
 * The schema validator: checks a query's table and column references against
 * the declared table schemas, the completeness of INSERT statements, the
 * shape of the result rows against the asserted result type, and the table
 * declarations for duplicates, reporting each problem as a diagnostic.
 *
 * Each `check*` operation is a method reporting into the diagnostics
 * collector and is proved against a function giving what it reports (and
 * the error it throws, if any); the properties are stated about those
 * functions.
 */
module Validation {

  import opened Wrappers
  import opened Sequences
  import opened Failures
  import opened QueryTraversal
  import opened QueryTypes
  import opened Diagnostics
  import opened Resolver
  import opened DescriptorMaps
  import opened Utils

  // ---------------------------------------------------------------------------
  // assertIntactQualifiedColumnRef, assertIntactTableRef

  /**
   * `assertIntactQualifiedColumnRef`: the error it throws, if any. A
   * reference of a spread of unknown properties is never checked; any other
   * fails when no schema has its table's name or when the first such schema
   * lacks the column.
   */
  function AssertIntactQualifiedColumnRef(columnRef: ColumnReference, tables: seq<TableSchema>): (thrown: Option<Failure>)
    requires columnRef.HasTableName()
    ensures columnRef.IsUnresolvable() ==> thrown.None?
    ensures !columnRef.IsUnresolvable() ==>
              (thrown.None? <==>
                 Declares(tables, columnRef.tableName)
                 && columnRef.columnName in tables[FindTable(tables, columnRef.tableName)].columnNames)
    ensures !columnRef.IsUnresolvable() && !Declares(tables, columnRef.tableName) ==>
              thrown == Some(TableNotDefined(columnRef.tableName))
    ensures thrown.Some? && Declares(tables, columnRef.tableName) ==>
              thrown == Some(ColumnNotInTable(columnRef.tableName, columnRef.columnName))
  {
    if columnRef.IsUnresolvable() then None
    else
      match GetTableByName(tables, columnRef.tableName)
      case Err(_) => Some(TableNotDefined(columnRef.tableName))
      case Ok(table) =>
        if columnRef.columnName in table.columnNames then None
        else Some(ColumnNotInTable(columnRef.tableName, columnRef.columnName))
  }

  /**
   * `assertIntactTableRef`: the first schema with the reference's table name.
   * `tableName` is absent for a reference without one (an unqualified `*`),
   * which matches no schema and reads "undefined" in the message.
   */
  function AssertIntactTableRef(tableName: Option<string>, tables: seq<TableSchema>): (r: Result<TableSchema>)
    ensures r.Ok? <==> tableName.Some? && Declares(tables, tableName.value)
    ensures r.Ok? ==> r.value == tables[FindTable(tables, tableName.value)] && r.value.tableName == tableName.value
    ensures r.Err? ==> r.failure == NoTableWithName(tableName.GetOr("undefined"))
  {
    match tableName
    case None => Err(NoTableWithName("undefined"))
    case Some(name) =>
      match GetTableByName(tables, name)
      case Ok(table) => Ok(table)
      case Err(_) => Err(NoTableWithName(name))
  }

  /** The `tableName` property of a column reference, when it has one. */
  function TableNameOf(columnRef: ColumnReference): Option<string> {
    if columnRef.HasTableName() then Some(columnRef.tableName) else None
  }

  // ---------------------------------------------------------------------------
  // checkForBrokenColumnRefs

  /**
   * What the `try` block of `checkForBrokenColumnRefs` throws for one
   * reference: the resolution error of an unqualified reference, or the
   * error of `assertIntactQualifiedColumnRef`.
   */
  function ColumnRefError(columnRef: ColumnReference, tables: seq<TableSchema>): (thrown: Option<Failure>)
    ensures columnRef.HasTableName() ==> thrown == AssertIntactQualifiedColumnRef(columnRef, tables)
    ensures !columnRef.HasTableName() && UnqualifiedResolution(columnRef, tables).Err? ==>
              thrown == Some(UnqualifiedResolution(columnRef, tables).failure)
    ensures !columnRef.HasTableName() && UnqualifiedResolution(columnRef, tables).Ok? ==>
              thrown == AssertIntactQualifiedColumnRef(UnqualifiedResolution(columnRef, tables).value, tables)
  {
    if columnRef.HasTableName() then AssertIntactQualifiedColumnRef(columnRef, tables)
    else
      match UnqualifiedResolution(columnRef, tables)
      case Err(f) => Some(f)
      case Ok(qualified) => AssertIntactQualifiedColumnRef(qualified, tables)
  }

  /** The diagnostic `checkForBrokenColumnRefs` reports for a failing reference. */
  function ColumnRefDiagnostic(query: Query, columnRef: ColumnReference, failure: Failure): Diagnostic
    requires |query.sourceMap| > 0
  {
    CreateQueryNodeDiagnostic(Error, failure, columnRef.path, query)
  }

  /** What `checkForBrokenColumnRefs` reports for one reference. */
  function ColumnRefReport(query: Query, columnRef: ColumnReference, tables: seq<TableSchema>): seq<Diagnostic>
    requires |query.sourceMap| > 0
  {
    match ColumnRefError(columnRef, tables)
    case None => []
    case Some(f) => [ColumnRefDiagnostic(query, columnRef, f)]
  }

  /** The references among `columnRefs` that fail, in order. */
  function FailingColumnRefs(columnRefs: seq<ColumnReference>, tables: seq<TableSchema>): (failing: seq<ColumnReference>)
    ensures forall c | c in failing :: c in columnRefs && ColumnRefError(c, tables).Some?
    ensures forall c | c in columnRefs && ColumnRefError(c, tables).Some? :: c in failing
  {
    if columnRefs == [] then []
    else
      var init := columnRefs[..|columnRefs| - 1];
      var last := columnRefs[|columnRefs| - 1];
      assert forall c | c in columnRefs :: c in init || c == last;
      FailingColumnRefs(init, tables) + (if ColumnRefError(last, tables).Some? then [last] else [])
  }

  /** What the loop of `checkForBrokenColumnRefs` reports for `columnRefs`. */
  function ColumnRefDiagnostics(query: Query, columnRefs: seq<ColumnReference>, tables: seq<TableSchema>)
    : (ds: seq<Diagnostic>)
    requires |query.sourceMap| > 0
  {
    if columnRefs == [] then []
    else
      var init := columnRefs[..|columnRefs| - 1];
      var last := columnRefs[|columnRefs| - 1];
      ColumnRefDiagnostics(query, init, tables) + ColumnRefReport(query, last, tables)
  }

  lemma ColumnRefDiagnosticsStep(query: Query, columnRefs: seq<ColumnReference>, tables: seq<TableSchema>, i: nat)
    requires |query.sourceMap| > 0 && i < |columnRefs|
    ensures ColumnRefDiagnostics(query, columnRefs[..i + 1], tables)
            == ColumnRefDiagnostics(query, columnRefs[..i], tables) + ColumnRefReport(query, columnRefs[i], tables)
  {
    assert columnRefs[..i + 1][..i] == columnRefs[..i];
  }

  /**
   * One error per failing reference, in the order of the references, each
   * at the reference's node and carrying the error it threw; passing
   * references report nothing.
   */
  lemma {:induction false} ColumnRefDiagnosticsOnePerFailure(query: Query, columnRefs: seq<ColumnReference>, tables: seq<TableSchema>)
    requires |query.sourceMap| > 0
    ensures var ds := ColumnRefDiagnostics(query, columnRefs, tables);
            var failing := FailingColumnRefs(columnRefs, tables);
            && |ds| == |failing|
            && forall k | 0 <= k < |ds| ::
                 ds[k] == ColumnRefDiagnostic(query, failing[k], ColumnRefError(failing[k], tables).value)
  {
    if columnRefs != [] {
      ColumnRefDiagnosticsOnePerFailure(query, columnRefs[..|columnRefs| - 1], tables);
    }
  }

  /** What `checkForBrokenColumnRefs` reports, or the resolver error it lets through. */
  function BrokenColumnRefReports(query: Query, tables: seq<TableSchema>): Reports
    requires |query.sourceMap| > 0
  {
    match ResolveColumnReferences(query, tables)
    case Err(f) => Reports([], Some(f))
    case Ok(columnRefs) => Reports(ColumnRefDiagnostics(query, columnRefs, tables), None)
  }

  /** One round of the loop of `checkForBrokenColumnRefs`. */
  method CheckColumnRef(query: Query, columnRef: ColumnReference, tables: seq<TableSchema>, diagnostics: DiagnosticsCollector)
    requires |query.sourceMap| > 0
    modifies diagnostics
    ensures diagnostics.reported == old(diagnostics.reported) + ColumnRefReport(query, columnRef, tables)
    ensures diagnostics.collecting == old(diagnostics.collecting)
  {
    var qualifiedColumnRef := columnRef;
    if !columnRef.HasTableName() {
      var resolved := ResolveUnqualifiedColumnRef(columnRef, tables);
      if resolved.Err? {
        diagnostics.Report(ColumnRefDiagnostic(query, columnRef, resolved.failure));
        return;
      }
      qualifiedColumnRef := resolved.value;
    }
    var thrown := AssertIntactQualifiedColumnRef(qualifiedColumnRef, tables);
    if thrown.Some? {
      diagnostics.Report(ColumnRefDiagnostic(query, columnRef, thrown.value));
    }
  }

  /**
   * `checkForBrokenColumnRefs`: resolves the query's references (an error
   * there escapes), then checks each in turn, reporting the error of every
   * failing one.
   */
  method CheckForBrokenColumnRefs(query: Query, tables: seq<TableSchema>, diagnostics: DiagnosticsCollector)
    returns (thrown: Option<Failure>)
    requires |query.sourceMap| > 0
    modifies diagnostics
    ensures thrown == BrokenColumnRefReports(query, tables).failure
    ensures diagnostics.reported == old(diagnostics.reported) + BrokenColumnRefReports(query, tables).diagnostics
    ensures diagnostics.collecting == old(diagnostics.collecting)
  {
    var referencedColumns := ResolveColumnReferences(query, tables);
    if referencedColumns.Err? {
      assert BrokenColumnRefReports(query, tables).diagnostics == [];
      return Some(referencedColumns.failure);
    }
    var columnRefs := referencedColumns.value;
    ghost var before := diagnostics.reported;
    for i := 0 to |columnRefs|
      invariant diagnostics.reported == before + ColumnRefDiagnostics(query, columnRefs[..i], tables)
      invariant diagnostics.collecting == old(diagnostics.collecting)
    {
      CheckColumnRef(query, columnRefs[i], tables, diagnostics);
      ColumnRefDiagnosticsStep(query, columnRefs, tables, i);
      AppendAssociates(before, ColumnRefDiagnostics(query, columnRefs[..i], tables), ColumnRefReport(query, columnRefs[i], tables));
    }
    assert columnRefs[..|columnRefs|] == columnRefs;
    return None;
  }

  // ---------------------------------------------------------------------------
  // checkForBrokenTableRefs

  /** The diagnostic `checkForBrokenTableRefs` reports for an undeclared table. */
  function TableRefDiagnostic(query: Query, tableRef: TableReference): Diagnostic
    requires |query.sourceMap| > 0
  {
    CreateQueryNodeDiagnostic(Error, NoTableWithName(tableRef.tableName), tableRef.path, query)
  }

  /** What `checkForBrokenTableRefs` reports for one reference. */
  function TableRefReport(query: Query, tableRef: TableReference, tables: seq<TableSchema>): seq<Diagnostic>
    requires |query.sourceMap| > 0
  {
    match AssertIntactTableRef(Some(tableRef.tableName), tables)
    case Ok(_) => []
    case Err(f) => [CreateQueryNodeDiagnostic(Error, f, tableRef.path, query)]
  }

  /** The references among `tableRefs` whose name no schema has, in order. */
  function UndeclaredTableRefs(tableRefs: seq<TableReference>, tables: seq<TableSchema>): (undeclared: seq<TableReference>)
    ensures forall t | t in undeclared :: t in tableRefs && !Declares(tables, t.tableName)
    ensures forall t | t in tableRefs && !Declares(tables, t.tableName) :: t in undeclared
  {
    if tableRefs == [] then []
    else
      var init := tableRefs[..|tableRefs| - 1];
      var last := tableRefs[|tableRefs| - 1];
      assert forall t | t in tableRefs :: t in init || t == last;
      UndeclaredTableRefs(init, tables) + (if Declares(tables, last.tableName) then [] else [last])
  }

  /** What the loop of `checkForBrokenTableRefs` reports for `tableRefs`. */
  function TableRefDiagnostics(query: Query, tableRefs: seq<TableReference>, tables: seq<TableSchema>): seq<Diagnostic>
    requires |query.sourceMap| > 0
  {
    if tableRefs == [] then []
    else
      var init := tableRefs[..|tableRefs| - 1];
      var last := tableRefs[|tableRefs| - 1];
      TableRefDiagnostics(query, init, tables) + TableRefReport(query, last, tables)
  }

  lemma TableRefDiagnosticsStep(query: Query, tableRefs: seq<TableReference>, tables: seq<TableSchema>, i: nat)
    requires |query.sourceMap| > 0 && i < |tableRefs|
    ensures TableRefDiagnostics(query, tableRefs[..i + 1], tables)
            == TableRefDiagnostics(query, tableRefs[..i], tables) + TableRefReport(query, tableRefs[i], tables)
  {
    assert tableRefs[..i + 1][..i] == tableRefs[..i];
  }

  /** One round of the loop of `checkForBrokenTableRefs`. */
  method CheckTableRef(query: Query, tableRef: TableReference, tables: seq<TableSchema>, diagnostics: DiagnosticsCollector)
    requires |query.sourceMap| > 0
    modifies diagnostics
    ensures diagnostics.reported == old(diagnostics.reported) + TableRefReport(query, tableRef, tables)
    ensures diagnostics.collecting == old(diagnostics.collecting)
  {
    var tableSchema := AssertIntactTableRef(Some(tableRef.tableName), tables);
    if tableSchema.Err? {
      diagnostics.Report(CreateQueryNodeDiagnostic(Error, tableSchema.failure, tableRef.path, query));
    }
  }

  /**
   * Exactly one error per referenced table whose name no schema has, in the
   * order of the references; none when every referenced table is declared.
   */
  lemma {:induction false} TableRefDiagnosticsOnePerUndeclared(query: Query, tableRefs: seq<TableReference>, tables: seq<TableSchema>)
    requires |query.sourceMap| > 0
    ensures var ds := TableRefDiagnostics(query, tableRefs, tables);
            var undeclared := UndeclaredTableRefs(tableRefs, tables);
            && |ds| == |undeclared|
            && forall k | 0 <= k < |ds| :: ds[k] == TableRefDiagnostic(query, undeclared[k])
  {
    if tableRefs != [] {
      var init := tableRefs[..|tableRefs| - 1];
      var last := tableRefs[|tableRefs| - 1];
      TableRefDiagnosticsOnePerUndeclared(query, init, tables);
      var ds := TableRefDiagnostics(query, tableRefs, tables);
      var dsInit := TableRefDiagnostics(query, init, tables);
      var undeclared := UndeclaredTableRefs(tableRefs, tables);
      var undeclaredInit := UndeclaredTableRefs(init, tables);
      var report := if Declares(tables, last.tableName) then [] else [TableRefDiagnostic(query, last)];
      assert TableRefReport(query, last, tables) == report;
      assert ds == dsInit + report;
      assert undeclared == undeclaredInit + (if Declares(tables, last.tableName) then [] else [last]);
      forall k | 0 <= k < |ds| ensures ds[k] == TableRefDiagnostic(query, undeclared[k]) {
        if k < |dsInit| {
          assert ds[k] == dsInit[k] && undeclared[k] == undeclaredInit[k];
        }
      }
    }
  }

  /** Nothing is reported exactly when every referenced table is declared. */
  lemma TableRefDiagnosticsNone(query: Query, tableRefs: seq<TableReference>, tables: seq<TableSchema>)
    requires |query.sourceMap| > 0
    ensures TableRefDiagnostics(query, tableRefs, tables) == [] <==>
              forall t | t in tableRefs :: Declares(tables, t.tableName)
  {
    TableRefDiagnosticsOnePerUndeclared(query, tableRefs, tables);
    var undeclared := UndeclaredTableRefs(tableRefs, tables);
    if undeclared != [] {
      assert undeclared[0] in undeclared;
    }
  }

  /** `checkForBrokenTableRefs`: reports every referenced table that no schema declares. */
  method CheckForBrokenTableRefs(query: Query, tables: seq<TableSchema>, diagnostics: DiagnosticsCollector)
    requires |query.sourceMap| > 0
    modifies diagnostics
    ensures diagnostics.reported == old(diagnostics.reported) + TableRefDiagnostics(query, query.referencedTables, tables)
    ensures diagnostics.collecting == old(diagnostics.collecting)
  {
    var tableRefs := query.referencedTables;
    ghost var before := diagnostics.reported;
    for i := 0 to |tableRefs|
      invariant diagnostics.reported == before + TableRefDiagnostics(query, tableRefs[..i], tables)
      invariant diagnostics.collecting == old(diagnostics.collecting)
    {
      CheckTableRef(query, tableRefs[i], tables, diagnostics);
      TableRefDiagnosticsStep(query, tableRefs, tables, i);
      AppendAssociates(before, TableRefDiagnostics(query, tableRefs[..i], tables), TableRefReport(query, tableRefs[i], tables));
    }
    assert tableRefs[..|tableRefs|] == tableRefs;
  }

  // ---------------------------------------------------------------------------
  // checkForIncompleteInsertValues

  /** A column must be given a value: its descriptor has no default (an absent descriptor counts as none). */
  predicate IsMandatory(schema: TableSchema, columnName: string) {
    match Lookup(schema.columnDescriptors, columnName)
    case None => true
    case Some(descriptor) => !descriptor.hasDefault
  }

  /** `mandatoryColumns`: the names among `columnNames` of the columns without a default, in order. */
  function MandatoryColumns(schema: TableSchema, columnNames: seq<string>): (names: seq<string>)
    ensures forall n :: n in names <==> n in columnNames && IsMandatory(schema, n)
  {
    if columnNames == [] then []
    else
      var init := columnNames[..|columnNames| - 1];
      var last := columnNames[|columnNames| - 1];
      assert columnNames == init + [last];
      MandatoryColumns(schema, init) + (if IsMandatory(schema, last) then [last] else [])
  }

  /** The `columnName`s of the references. */
  function ColumnNames(columnRefs: seq<ColumnReference>): (names: seq<string>)
    ensures |names| == |columnRefs|
    ensures forall i | 0 <= i < |columnRefs| :: names[i] == columnRefs[i].columnName
  {
    if columnRefs == [] then [] else [columnRefs[0].columnName] + ColumnNames(columnRefs[1..])
  }

  /** The names among `columnNames` that `named` lacks, in order. */
  function MissingColumnNames(columnNames: seq<string>, named: seq<string>): (missing: seq<string>)
    ensures forall n :: n in missing <==> n in columnNames && n !in named
  {
    if columnNames == [] then []
    else
      var init := columnNames[..|columnNames| - 1];
      var last := columnNames[|columnNames| - 1];
      assert columnNames == init + [last];
      MissingColumnNames(init, named) + (if last in named then [] else [last])
  }

  function MissingColumnDiagnostic(query: Query, columnName: string): Diagnostic
    requires |query.sourceMap| > 0
  {
    CreateQueryNodeDiagnostic(Error, MissingInsertColumn(columnName), query.path, query)
  }

  /** What the loop of `checkForIncompleteInsertValues` reports for one mandatory column. */
  function InsertColumnReport(query: Query, columnName: string, named: seq<string>): seq<Diagnostic>
    requires |query.sourceMap| > 0
  {
    if columnName in named then [] else [MissingColumnDiagnostic(query, columnName)]
  }

  /** What the loop of `checkForIncompleteInsertValues` reports for `mandatory`. */
  function InsertDiagnostics(query: Query, mandatory: seq<string>, named: seq<string>): seq<Diagnostic>
    requires |query.sourceMap| > 0
  {
    if mandatory == [] then []
    else
      var init := mandatory[..|mandatory| - 1];
      InsertDiagnostics(query, init, named) + InsertColumnReport(query, mandatory[|mandatory| - 1], named)
  }

  lemma InsertDiagnosticsStep(query: Query, mandatory: seq<string>, named: seq<string>, i: nat)
    requires |query.sourceMap| > 0 && i < |mandatory|
    ensures InsertDiagnostics(query, mandatory[..i + 1], named)
            == InsertDiagnostics(query, mandatory[..i], named) + InsertColumnReport(query, mandatory[i], named)
  {
    assert mandatory[..i + 1][..i] == mandatory[..i];
  }

  /** One error per mandatory column missing from `named`, in order. */
  lemma {:induction false} InsertDiagnosticsOnePerMissing(query: Query, mandatory: seq<string>, named: seq<string>)
    requires |query.sourceMap| > 0
    ensures var ds := InsertDiagnostics(query, mandatory, named);
            var missing := MissingColumnNames(mandatory, named);
            && |ds| == |missing|
            && forall k | 0 <= k < |ds| :: ds[k] == MissingColumnDiagnostic(query, missing[k])
  {
    if mandatory != [] {
      var init := mandatory[..|mandatory| - 1];
      var last := mandatory[|mandatory| - 1];
      InsertDiagnosticsOnePerMissing(query, init, named);
      var ds := InsertDiagnostics(query, mandatory, named);
      var dsInit := InsertDiagnostics(query, init, named);
      var missing := MissingColumnNames(mandatory, named);
      var missingInit := MissingColumnNames(init, named);
      var report := if last in named then [] else [MissingColumnDiagnostic(query, last)];
      assert InsertColumnReport(query, last, named) == report;
      assert ds == dsInit + report;
      assert missing == missingInit + (if last in named then [] else [last]);
      forall k | 0 <= k < |ds| ensures ds[k] == MissingColumnDiagnostic(query, missing[k]) {
        if k < |dsInit| {
          assert ds[k] == dsInit[k] && missing[k] == missingInit[k];
        }
      }
    }
  }

  /** Some referenced column is the placeholder of a spread of unknown properties. */
  predicate HasUnresolvable(columnRefs: seq<ColumnReference>) {
    exists i | 0 <= i < |columnRefs| :: columnRefs[i].IsUnresolvable()
  }

  /**
   * What `checkForIncompleteInsertValues` reports, or the error it throws:
   * reading the first table reference of an INSERT without one, a first table
   * no schema declares, or a resolver error.
   */
  function InsertReports(query: Query, tables: seq<TableSchema>): Reports
    requires |query.sourceMap| > 0
  {
    if query.queryType != "INSERT" || HasUnresolvable(query.referencedColumns) then NoReports
    else if query.referencedTables == [] then Reports([], Some(UndefinedTableReference))
    else
      match AssertIntactTableRef(Some(query.referencedTables[0].tableName), tables)
      case Err(f) => Reports([], Some(f))
      case Ok(schema) =>
        match ResolveColumnReferences(query, tables)
        case Err(f) => Reports([], Some(f))
        case Ok(resolved) =>
          Reports(InsertDiagnostics(query, MandatoryColumns(schema, schema.columnNames),
                                    ColumnNames(query.referencedColumns + resolved)), None)
  }

  /**
   * Once the first referenced table of an INSERT without spread placeholders
   * is found and the references resolve, a column of that table is reported
   * missing exactly when it has no default and no column reference of the
   * query, nor any column its subqueries return into it, carries its name;
   * there is one report per such column, in declared order.
   */
  lemma InsertReportsMissing(query: Query, tables: seq<TableSchema>)
    requires |query.sourceMap| > 0
    requires query.queryType == "INSERT" && !HasUnresolvable(query.referencedColumns)
    requires query.referencedTables != [] && Declares(tables, query.referencedTables[0].tableName)
    requires ColumnsReturnedBySubqueries(query.subqueries, tables).Ok?
    ensures var r := InsertReports(query, tables);
            var schema := tables[FindTable(tables, query.referencedTables[0].tableName)];
            var returned := ColumnsReturnedBySubqueries(query.subqueries, tables).value;
            var missing := MissingColumnNames(MandatoryColumns(schema, schema.columnNames),
                                              ColumnNames(query.referencedColumns + returned));
            && r.failure.None?
            && |r.diagnostics| == |missing|
            && (forall k | 0 <= k < |missing| :: r.diagnostics[k] == MissingColumnDiagnostic(query, missing[k]))
            && (forall n :: n in missing <==>
                  n in schema.columnNames && IsMandatory(schema, n)
                  && (forall c | c in query.referencedColumns :: c.columnName != n)
                  && (forall c | c in returned :: c.columnName != n))
  {
    var schema := tables[FindTable(tables, query.referencedTables[0].tableName)];
    var returned := ColumnsReturnedBySubqueries(query.subqueries, tables).value;
    var refs := query.referencedColumns;
    var mandatory := MandatoryColumns(schema, schema.columnNames);
    InsertReportsValue(query, tables);
    InsertDiagnosticsOnePerMissing(query, mandatory, ColumnNames(refs + (NonStar(refs) + returned)));
    MissingNamesOfQueryColumns(mandatory, refs, returned);
  }

  /** Under the conditions of `InsertReportsMissing`, what the INSERT check reports. */
  lemma InsertReportsValue(query: Query, tables: seq<TableSchema>)
    requires |query.sourceMap| > 0
    requires query.queryType == "INSERT" && !HasUnresolvable(query.referencedColumns)
    requires query.referencedTables != [] && Declares(tables, query.referencedTables[0].tableName)
    requires ColumnsReturnedBySubqueries(query.subqueries, tables).Ok?
    ensures var schema := tables[FindTable(tables, query.referencedTables[0].tableName)];
            var refs := query.referencedColumns;
            var returned := ColumnsReturnedBySubqueries(query.subqueries, tables).value;
            InsertReports(query, tables)
            == Reports(InsertDiagnostics(query, MandatoryColumns(schema, schema.columnNames),
                                         ColumnNames(refs + (NonStar(refs) + returned))), None)
  {
    var returned := ColumnsReturnedBySubqueries(query.subqueries, tables).value;
    assert ResolveColumnReferences(query, tables).value == NonStar(query.referencedColumns) + returned;
  }

  /**
   * The query columns of the INSERT check (the references, then their
   * non-`*` part and the returned columns again) lack exactly the names that
   * no reference and no returned column carries.
   */
  lemma MissingNamesOfQueryColumns(mandatory: seq<string>, refs: seq<ColumnReference>, returned: seq<ColumnReference>)
    ensures var missing := MissingColumnNames(mandatory, ColumnNames(refs + (NonStar(refs) + returned)));
            && missing == MissingColumnNames(mandatory, ColumnNames(refs + returned))
            && forall n :: n in missing <==>
                 n in mandatory && (forall c | c in refs :: c.columnName != n) && (forall c | c in returned :: c.columnName != n)
  {
    var all := refs + (NonStar(refs) + returned);
    ColumnNamesMembers(all);
    ColumnNamesMembers(refs + returned);
    assert forall c :: c in all <==> c in refs || c in NonStar(refs) || c in returned;
    assert forall c :: c in refs + returned <==> c in refs || c in returned;
    MissingSameNames(mandatory, ColumnNames(all), ColumnNames(refs + returned));
  }

  /** Only which names are present matters to `MissingColumnNames`. */
  lemma {:induction false} MissingSameNames(columnNames: seq<string>, a: seq<string>, b: seq<string>)
    requires forall n :: n in a <==> n in b
    ensures MissingColumnNames(columnNames, a) == MissingColumnNames(columnNames, b)
  {
    if columnNames != [] {
      MissingSameNames(columnNames[..|columnNames| - 1], a, b);
    }
  }

  /** A name is among the `columnName`s exactly when some reference carries it. */
  lemma ColumnNamesMembers(refs: seq<ColumnReference>)
    ensures forall n :: n in ColumnNames(refs) <==> exists c | c in refs :: c.columnName == n
  {
    forall n | n in ColumnNames(refs) ensures exists c | c in refs :: c.columnName == n {
      var i :| 0 <= i < |refs| && ColumnNames(refs)[i] == n;
      assert refs[i] in refs;
    }
    forall n | exists c | c in refs :: c.columnName == n ensures n in ColumnNames(refs) {
      var c :| c in refs && c.columnName == n;
      var i :| 0 <= i < |refs| && refs[i] == c;
      assert ColumnNames(refs)[i] == n;
    }
  }

  /** One round of the loop of `checkForIncompleteInsertValues`. */
  method CheckInsertColumn(query: Query, columnName: string, named: seq<string>, diagnostics: DiagnosticsCollector)
    requires |query.sourceMap| > 0
    modifies diagnostics
    ensures diagnostics.reported == old(diagnostics.reported) + InsertColumnReport(query, columnName, named)
    ensures diagnostics.collecting == old(diagnostics.collecting)
  {
    if columnName !in named {
      diagnostics.Report(MissingColumnDiagnostic(query, columnName));
    }
  }

  /**
   * `checkForIncompleteInsertValues`: for an INSERT without spread
   * placeholders, reports every column of the first referenced table that
   * has no default and that no column reference of the query names.
   */
  method CheckForIncompleteInsertValues(query: Query, tables: seq<TableSchema>, diagnostics: DiagnosticsCollector)
    returns (thrown: Option<Failure>)
    requires |query.sourceMap| > 0
    modifies diagnostics
    ensures thrown == InsertReports(query, tables).failure
    ensures diagnostics.reported == old(diagnostics.reported) + InsertReports(query, tables).diagnostics
    ensures diagnostics.collecting == old(diagnostics.collecting)
    ensures query.queryType != "INSERT" || HasUnresolvable(query.referencedColumns) ==>
              thrown.None? && diagnostics.reported == old(diagnostics.reported)
    ensures query.queryType == "INSERT" && !HasUnresolvable(query.referencedColumns) && query.referencedTables == [] ==>
              thrown == Some(UndefinedTableReference)
  {
    if query.queryType != "INSERT" || HasUnresolvable(query.referencedColumns) {
      return None;
    }
    if query.referencedTables == [] {
      return Some(UndefinedTableReference);
    }
    var schema := AssertIntactTableRef(Some(query.referencedTables[0].tableName), tables);
    if schema.Err? {
      return Some(schema.failure);
    }
    var mandatoryColumns := MandatoryColumns(schema.value, schema.value.columnNames);
    var resolved := ResolveColumnReferences(query, tables);
    if resolved.Err? {
      return Some(resolved.failure);
    }
    var queryColumns := query.referencedColumns + resolved.value;
    var named := ColumnNames(queryColumns);
    ghost var before := diagnostics.reported;
    for i := 0 to |mandatoryColumns|
      invariant diagnostics.reported == before + InsertDiagnostics(query, mandatoryColumns[..i], named)
      invariant diagnostics.collecting == old(diagnostics.collecting)
    {
      CheckInsertColumn(query, mandatoryColumns[i], named, diagnostics);
      InsertDiagnosticsStep(query, mandatoryColumns, named, i);
      AppendAssociates(before, InsertDiagnostics(query, mandatoryColumns[..i], named),
                       InsertColumnReport(query, mandatoryColumns[i], named));
    }
    assert mandatoryColumns[..|mandatoryColumns|] == mandatoryColumns;
    return None;
  }

  // ---------------------------------------------------------------------------
  // resolveColumnRefsToTableSchemaDescriptor

  /** What one returned column adds to the result schema: a `*` all its table's descriptors, any other its name. */
  function AddReturnedColumn(schema: Descriptors, columnRef: ColumnReference, tables: seq<TableSchema>): Result<Descriptors> {
    if columnRef.IsAllOf() then
      var referencedTableSchema :- AssertIntactTableRef(TableNameOf(columnRef), tables);
      Ok(Merge(schema, referencedTableSchema.columnDescriptors))
    else Ok(Put(schema, columnRef.columnName, AnyColumn))
  }

  /** The result schema of the returned columns: what the loop of `resolveColumnRefsToTableSchemaDescriptor` builds. */
  function ResultSchema(returnedColumns: seq<ColumnReference>, tables: seq<TableSchema>): Result<Descriptors> {
    if returnedColumns == [] then Ok([])
    else
      var schema :- ResultSchema(returnedColumns[..|returnedColumns| - 1], tables);
      AddReturnedColumn(schema, returnedColumns[|returnedColumns| - 1], tables)
  }

  lemma ResultSchemaStep(returnedColumns: seq<ColumnReference>, tables: seq<TableSchema>, i: nat)
    requires i < |returnedColumns| && ResultSchema(returnedColumns[..i], tables).Ok?
    ensures ResultSchema(returnedColumns[..i + 1], tables)
            == AddReturnedColumn(ResultSchema(returnedColumns[..i], tables).value, returnedColumns[i], tables)
  {
    assert returnedColumns[..i + 1][..i] == returnedColumns[..i];
  }

  /** Once a prefix fails, the whole fails the same way. */
  lemma {:induction false} ResultSchemaFailureIsFinal(returnedColumns: seq<ColumnReference>, tables: seq<TableSchema>, i: nat)
    requires i <= |returnedColumns| && ResultSchema(returnedColumns[..i], tables).Err?
    ensures ResultSchema(returnedColumns, tables) == ResultSchema(returnedColumns[..i], tables)
    decreases |returnedColumns| - i
  {
    if i < |returnedColumns| {
      assert returnedColumns[..i + 1][..i] == returnedColumns[..i];
      ResultSchemaFailureIsFinal(returnedColumns, tables, i + 1);
    } else {
      assert returnedColumns[..i] == returnedColumns;
    }
  }

  /** `resolveColumnRefsToTableSchemaDescriptor` */
  method ResolveColumnRefsToTableSchemaDescriptor(returnedColumns: seq<ColumnReference>, tables: seq<TableSchema>)
    returns (r: Result<Descriptors>)
    ensures r == ResultSchema(returnedColumns, tables)
  {
    var syntheticSchema: Descriptors := [];
    for i := 0 to |returnedColumns|
      invariant ResultSchema(returnedColumns[..i], tables) == Ok(syntheticSchema)
    {
      var columnRef := returnedColumns[i];
      ResultSchemaStep(returnedColumns, tables, i);
      if columnRef.IsAllOf() {
        var referencedTableSchema := AssertIntactTableRef(TableNameOf(columnRef), tables);
        if referencedTableSchema.Err? {
          ResultSchemaFailureIsFinal(returnedColumns, tables, i + 1);
          return Err(referencedTableSchema.failure);
        }
        syntheticSchema := Merge(syntheticSchema, referencedTableSchema.value.columnDescriptors);
      } else {
        syntheticSchema := Put(syntheticSchema, columnRef.columnName, AnyColumn);
      }
    }
    assert returnedColumns[..|returnedColumns|] == returnedColumns;
    return Ok(syntheticSchema);
  }

  /** The column names a returned column contributes: its table's columns for a `*`, else its own name. */
  function ContributedNames(columnRef: ColumnReference, tables: seq<TableSchema>): seq<string> {
    if !columnRef.IsAllOf() then [columnRef.columnName]
    else
      match AssertIntactTableRef(TableNameOf(columnRef), tables)
      case Ok(schema) => Keys(schema.columnDescriptors)
      case Err(_) => []
  }

  /** A `*` among the returned columns whose table no schema declares. */
  predicate HasBrokenStar(returnedColumns: seq<ColumnReference>, tables: seq<TableSchema>) {
    exists columnRef | columnRef in returnedColumns :: IsBrokenStar(columnRef, tables)
  }

  /** A `*` names an undeclared table. */
  predicate IsBrokenStar(columnRef: ColumnReference, tables: seq<TableSchema>) {
    columnRef.IsAllOf() && AssertIntactTableRef(TableNameOf(columnRef), tables).Err?
  }

  lemma AddReturnedColumnFails(schema: Descriptors, columnRef: ColumnReference, tables: seq<TableSchema>)
    ensures AddReturnedColumn(schema, columnRef, tables).Err? <==> IsBrokenStar(columnRef, tables)
  {
  }

  lemma HasBrokenStarStep(returnedColumns: seq<ColumnReference>, tables: seq<TableSchema>)
    requires returnedColumns != []
    ensures HasBrokenStar(returnedColumns, tables) <==>
              HasBrokenStar(returnedColumns[..|returnedColumns| - 1], tables)
              || IsBrokenStar(returnedColumns[|returnedColumns| - 1], tables)
  {
    assert returnedColumns == returnedColumns[..|returnedColumns| - 1] + [returnedColumns[|returnedColumns| - 1]];
  }

  /** The result schema fails exactly when a `*` among the returned columns names an undeclared table. */
  lemma {:induction false} ResultSchemaFails(returnedColumns: seq<ColumnReference>, tables: seq<TableSchema>)
    ensures ResultSchema(returnedColumns, tables).Err? <==> HasBrokenStar(returnedColumns, tables)
  {
    if returnedColumns != [] {
      var init := returnedColumns[..|returnedColumns| - 1];
      ResultSchemaFails(init, tables);
      HasBrokenStarStep(returnedColumns, tables);
      if ResultSchema(init, tables).Ok? {
        AddReturnedColumnFails(ResultSchema(init, tables).value, returnedColumns[|returnedColumns| - 1], tables);
      }
    }
  }

  /** No column name occurs twice in the result schema. */
  lemma {:induction false} ResultSchemaUniqueKeys(returnedColumns: seq<ColumnReference>, tables: seq<TableSchema>)
    requires ResultSchema(returnedColumns, tables).Ok?
    ensures UniqueKeys(ResultSchema(returnedColumns, tables).value)
  {
    if returnedColumns != [] {
      var init := returnedColumns[..|returnedColumns| - 1];
      var last := returnedColumns[|returnedColumns| - 1];
      ResultSchemaUniqueKeys(init, tables);
      var before := ResultSchema(init, tables).value;
      if last.IsAllOf() {
        MergeKeepsUniqueKeys(before, AssertIntactTableRef(TableNameOf(last), tables).value.columnDescriptors);
      } else {
        PutKeepsUniqueKeys(before, last.columnName, AnyColumn);
      }
    }
  }

  /** Some returned column contributes the name `k`. */
  predicate Contributes(returnedColumns: seq<ColumnReference>, tables: seq<TableSchema>, k: string) {
    exists columnRef | columnRef in returnedColumns :: k in ContributedNames(columnRef, tables)
  }

  lemma ContributesStep(returnedColumns: seq<ColumnReference>, tables: seq<TableSchema>, k: string)
    requires returnedColumns != []
    ensures Contributes(returnedColumns, tables, k) <==>
              Contributes(returnedColumns[..|returnedColumns| - 1], tables, k)
              || k in ContributedNames(returnedColumns[|returnedColumns| - 1], tables)
  {
    assert returnedColumns == returnedColumns[..|returnedColumns| - 1] + [returnedColumns[|returnedColumns| - 1]];
  }

  /** The names a successful step adds to the schema's keys. */
  lemma AddReturnedColumnKeys(schema: Descriptors, columnRef: ColumnReference, tables: seq<TableSchema>, k: string)
    requires AddReturnedColumn(schema, columnRef, tables).Ok?
    ensures k in Keys(AddReturnedColumn(schema, columnRef, tables).value) <==>
              k in Keys(schema) || k in ContributedNames(columnRef, tables)
  {
    if columnRef.IsAllOf() {
      MergeKeys(schema, AssertIntactTableRef(TableNameOf(columnRef), tables).value.columnDescriptors);
    }
  }

  /**
   * The column names of the result schema are those the returned columns
   * contribute: a column's own name, or for a `*` every column of its table.
   */
  lemma {:induction false} ResultSchemaKeys(returnedColumns: seq<ColumnReference>, tables: seq<TableSchema>, k: string)
    requires ResultSchema(returnedColumns, tables).Ok?
    ensures k in Keys(ResultSchema(returnedColumns, tables).value) <==> Contributes(returnedColumns, tables, k)
  {
    if returnedColumns != [] {
      var init := returnedColumns[..|returnedColumns| - 1];
      ResultSchemaKeys(init, tables, k);
      ContributesStep(returnedColumns, tables, k);
      AddReturnedColumnKeys(ResultSchema(init, tables).value, returnedColumns[|returnedColumns| - 1], tables, k);
    }
  }

  // ---------------------------------------------------------------------------
  // checkIfQueryMatchesReturnType

  /**
   * What `checkIfQueryMatchesReturnType` reports: one error, at the location
   * of the result type, listing the expected columns the result lacks and the
   * columns it has, when some expected column is missing.
   */
  function ReturnTypeDiagnostics(resultSchema: Descriptors, expectedResult: Descriptors, location: Option<SourceLocation>,
                                 sourceFile: SourceFile): seq<Diagnostic>
  {
    var actualColumnNames := Keys(resultSchema);
    var missingColumnNames := MissingColumnNames(Keys(expectedResult), actualColumnNames);
    if |missingColumnNames| > 0 then
      [CreateSourceFileDiagnostic(Error, ResultShapeMismatch(missingColumnNames, actualColumnNames), sourceFile, location)]
    else []
  }

  /**
   * At most one error, reported exactly when some expected column is not in
   * the result, and listing exactly the missing ones.
   */
  lemma ReturnTypeMismatch(resultSchema: Descriptors, expectedResult: Descriptors, location: Option<SourceLocation>,
                           sourceFile: SourceFile)
    ensures var ds := ReturnTypeDiagnostics(resultSchema, expectedResult, location, sourceFile);
            && |ds| <= 1
            && (ds != [] <==> exists k | k in Keys(expectedResult) :: k !in Keys(resultSchema))
            && (ds != [] ==> ds[0].diagnosticType == Error && ds[0].message.ResultShapeMismatch?
                             && ds[0].message.actualColumns == Keys(resultSchema)
                             && forall k :: k in ds[0].message.missingColumns <==>
                                  k in Keys(expectedResult) && k !in Keys(resultSchema))
  {
    var missing := MissingColumnNames(Keys(expectedResult), Keys(resultSchema));
    if missing != [] {
      assert missing[0] in missing;
    }
  }

  /** `checkIfQueryMatchesReturnType` */
  method CheckIfQueryMatchesReturnType(resultSchema: Descriptors, expectedResult: Descriptors, location: Option<SourceLocation>,
                                       query: Query, diagnostics: DiagnosticsCollector)
    modifies diagnostics
    ensures diagnostics.reported
            == old(diagnostics.reported) + ReturnTypeDiagnostics(resultSchema, expectedResult, location, query.sourceFile)
    ensures diagnostics.collecting == old(diagnostics.collecting)
  {
    var expectedColumnNames := Keys(expectedResult);
    var actualColumnNames := Keys(resultSchema);
    var missingColumnNames := MissingColumnNames(expectedColumnNames, actualColumnNames);
    if |missingColumnNames| > 0 {
      var error := ResultShapeMismatch(missingColumnNames, actualColumnNames);
      diagnostics.Report(CreateSourceFileDiagnostic(Error, error, query.sourceFile, location));
    }
  }

  // ---------------------------------------------------------------------------
  // validateQueryInvocation

  /**
   * What `validateQueryInvocation` reports: nothing without a result type or
   * when a returned column is a spread placeholder; otherwise the result-shape
   * check of the returned columns' schema, unless building it throws.
   */
  function InvocationReports(invocation: QueryInvocation, tables: seq<TableSchema>): Reports {
    var query := invocation.query;
    if invocation.resultTypeAssertion.None? || HasUnresolvable(query.returnedColumns) then NoReports
    else
      match ResultSchema(query.returnedColumns, tables)
      case Err(f) => Reports([], Some(f))
      case Ok(resultSchema) =>
        var assertion := invocation.resultTypeAssertion.value;
        Reports(ReturnTypeDiagnostics(resultSchema, assertion.schema, assertion.loc, query.sourceFile), None)
  }

  /**
   * A mismatch is reported exactly when there is a result type, no returned
   * column is a spread placeholder, every returned `*` names a declared table,
   * and the asserted type has a column that none of the returned columns
   * contributes.
   */
  lemma InvocationReportsMismatch(invocation: QueryInvocation, tables: seq<TableSchema>)
    ensures var r := InvocationReports(invocation, tables);
            var returned := invocation.query.returnedColumns;
            && (r.failure.Some? <==>
                  invocation.resultTypeAssertion.Some? && !HasUnresolvable(returned) && HasBrokenStar(returned, tables))
            && (r.diagnostics != [] <==>
                  && invocation.resultTypeAssertion.Some? && !HasUnresolvable(returned) && !HasBrokenStar(returned, tables)
                  && exists k | k in Keys(invocation.resultTypeAssertion.value.schema) :: !Contributes(returned, tables, k))
  {
    var returned := invocation.query.returnedColumns;
    ResultSchemaFails(returned, tables);
    if invocation.resultTypeAssertion.Some? && ResultSchema(returned, tables).Ok? {
      var assertion := invocation.resultTypeAssertion.value;
      forall k {
        ResultSchemaKeys(returned, tables, k);
      }
      ReturnTypeMismatch(ResultSchema(returned, tables).value, assertion.schema, assertion.loc, invocation.query.sourceFile);
    }
  }

  /** `validateQueryInvocation` */
  method ValidateQueryInvocation(invocation: QueryInvocation, tables: seq<TableSchema>, diagnostics: DiagnosticsCollector)
    returns (thrown: Option<Failure>)
    modifies diagnostics
    ensures thrown == InvocationReports(invocation, tables).failure
    ensures diagnostics.reported == old(diagnostics.reported) + InvocationReports(invocation, tables).diagnostics
    ensures diagnostics.collecting == old(diagnostics.collecting)
  {
    var query := invocation.query;
    if invocation.resultTypeAssertion.None? || HasUnresolvable(query.returnedColumns) {
      return None;
    }
    var resultTypeAssertion := invocation.resultTypeAssertion.value;
    var resultSchema := ResolveColumnRefsToTableSchemaDescriptor(query.returnedColumns, tables);
    if resultSchema.Err? {
      return Some(resultSchema.failure);
    }
    CheckIfQueryMatchesReturnType(resultSchema.value, resultTypeAssertion.schema, resultTypeAssertion.loc, query, diagnostics);
    return None;
  }

  // ---------------------------------------------------------------------------
  // resolveSubqueryToTableSchema

  /**
   * `resolveSubqueryToTableSchema`: a schema named like the CTE, whose
   * columns are the keys of the result schema of the subquery's returned
   * columns. The parse tree node has no `loc`, so neither has the schema.
   */
  function ResolveSubqueryToTableSchema(query: Query, tables: seq<TableSchema>): (r: Result<TableSchema>)
    requires query.exposedAsTable.Some?
    ensures r.Ok? <==> !HasBrokenStar(query.returnedColumns, tables)
    ensures r.Err? ==> ResultSchema(query.returnedColumns, tables) == Err(r.failure)
  {
    ResultSchemaFails(query.returnedColumns, tables);
    var schema :- ResultSchema(query.returnedColumns, tables);
    Ok(TableSchema(query.exposedAsTable.value, Keys(schema), schema, query.sourceFile, None))
  }

  /**
   * The synthetic schema of a CTE carries its name and declares, once each,
   * exactly the columns its returned columns contribute, each with a
   * descriptor.
   */
  lemma SyntheticSchemaColumns(query: Query, tables: seq<TableSchema>)
    requires query.exposedAsTable.Some? && ResolveSubqueryToTableSchema(query, tables).Ok?
    ensures var schema := ResolveSubqueryToTableSchema(query, tables).value;
            && schema.tableName == query.exposedAsTable.value
            && schema.sourceFile == query.sourceFile
            && (forall i, j | 0 <= i < j < |schema.columnNames| :: schema.columnNames[i] != schema.columnNames[j])
            && (forall n :: n in schema.columnNames <==> Contributes(query.returnedColumns, tables, n))
            && (forall n | n in schema.columnNames :: Lookup(schema.columnDescriptors, n).Some?)
  {
    ResultSchemaUniqueKeys(query.returnedColumns, tables);
    forall n {
      ResultSchemaKeys(query.returnedColumns, tables, n);
    }
  }

  // ---------------------------------------------------------------------------
  // checkSchemasForDuplicates

  /** The file and line of each declaration, for the duplicate message. */
  function Declarations(schemas: seq<TableSchema>): (r: seq<(string, Option<int>)>)
    ensures |r| == |schemas|
  {
    if schemas == [] then []
    else
      var schema := schemas[0];
      [(schema.sourceFile.filePath, if schema.loc.Some? then Some(schema.loc.value.start.line) else None)]
      + Declarations(schemas[1..])
  }

  /** The error reported at a schema whose name other schemas share. */
  function DuplicateDiagnostic(allTableSchemas: seq<TableSchema>, schema: TableSchema): Diagnostic {
    var schemasMatchingThatName := SchemasNamed(allTableSchemas, schema.tableName);
    CreateSourceFileDiagnostic(Error, DuplicateTable(schema.tableName, Declarations(schemasMatchingThatName)),
                               schema.sourceFile, schema.loc)
  }

  /** Some other schema of `allTableSchemas` has the name of `schema`. */
  predicate IsShared(allTableSchemas: seq<TableSchema>, schema: TableSchema) {
    |SchemasNamed(allTableSchemas, schema.tableName)| > 1
  }

  /** What the loop of `checkSchemasForDuplicates` reports for one schema. */
  function DuplicateReport(allTableSchemas: seq<TableSchema>, schema: TableSchema): seq<Diagnostic> {
    if IsShared(allTableSchemas, schema) then [DuplicateDiagnostic(allTableSchemas, schema)] else []
  }

  /** What the loop of `checkSchemasForDuplicates` reports for `schemas`. */
  function DuplicateDiagnostics(allTableSchemas: seq<TableSchema>, schemas: seq<TableSchema>): seq<Diagnostic> {
    if schemas == [] then []
    else
      DuplicateDiagnostics(allTableSchemas, schemas[..|schemas| - 1]) + DuplicateReport(allTableSchemas, schemas[|schemas| - 1])
  }

  /** The schemas among `schemas` whose name is shared in `allTableSchemas`, in order. */
  function SharedSchemas(allTableSchemas: seq<TableSchema>, schemas: seq<TableSchema>): (shared: seq<TableSchema>)
    ensures forall s | s in shared :: s in schemas && IsShared(allTableSchemas, s)
    ensures forall s | s in schemas && IsShared(allTableSchemas, s) :: s in shared
  {
    if schemas == [] then []
    else
      var init := schemas[..|schemas| - 1];
      var last := schemas[|schemas| - 1];
      assert forall s | s in schemas :: s in init || s == last;
      SharedSchemas(allTableSchemas, init) + (if IsShared(allTableSchemas, last) then [last] else [])
  }

  lemma DuplicateDiagnosticsStep(allTableSchemas: seq<TableSchema>, schemas: seq<TableSchema>, i: nat)
    requires i < |schemas|
    ensures DuplicateDiagnostics(allTableSchemas, schemas[..i + 1])
            == DuplicateDiagnostics(allTableSchemas, schemas[..i]) + DuplicateReport(allTableSchemas, schemas[i])
  {
    assert schemas[..i + 1][..i] == schemas[..i];
  }

  /** One error per schema whose name is shared, in order: `n` schemas of one name give `n` errors. */
  lemma {:induction false} DuplicateDiagnosticsOnePerSharer(allTableSchemas: seq<TableSchema>, schemas: seq<TableSchema>)
    ensures var ds := DuplicateDiagnostics(allTableSchemas, schemas);
            var shared := SharedSchemas(allTableSchemas, schemas);
            && |ds| == |shared|
            && forall k | 0 <= k < |ds| :: ds[k] == DuplicateDiagnostic(allTableSchemas, shared[k])
  {
    if schemas != [] {
      var init := schemas[..|schemas| - 1];
      var last := schemas[|schemas| - 1];
      DuplicateDiagnosticsOnePerSharer(allTableSchemas, init);
      var ds := DuplicateDiagnostics(allTableSchemas, schemas);
      var dsInit := DuplicateDiagnostics(allTableSchemas, init);
      var shared := SharedSchemas(allTableSchemas, schemas);
      var sharedInit := SharedSchemas(allTableSchemas, init);
      assert ds == dsInit + DuplicateReport(allTableSchemas, last);
      assert shared == sharedInit + (if IsShared(allTableSchemas, last) then [last] else []);
      forall k | 0 <= k < |ds| ensures ds[k] == DuplicateDiagnostic(allTableSchemas, shared[k]) {
        if k < |dsInit| {
          assert ds[k] == dsInit[k] && shared[k] == sharedInit[k];
        }
      }
    }
  }

  /** Nothing is reported exactly when no two schemas share a name. */
  lemma NoDuplicatesIffUniqueNames(allTableSchemas: seq<TableSchema>)
    ensures DuplicateDiagnostics(allTableSchemas, allTableSchemas) == [] <==> UniqueNames(allTableSchemas)
  {
    DuplicateDiagnosticsOnePerSharer(allTableSchemas, allTableSchemas);
    NoSharedIffUniqueNames(allTableSchemas);
  }

  lemma NoSharedIffUniqueNames(allTableSchemas: seq<TableSchema>)
    ensures SharedSchemas(allTableSchemas, allTableSchemas) == [] <==> UniqueNames(allTableSchemas)
  {
    var shared := SharedSchemas(allTableSchemas, allTableSchemas);
    if UniqueNames(allTableSchemas) {
      if shared != [] {
        assert shared[0] in shared;
        SchemasNamedDistinct(allTableSchemas, shared[0].tableName);
      }
    } else {
      var i, j :| 0 <= i < j < |allTableSchemas| && allTableSchemas[i].tableName == allTableSchemas[j].tableName;
      SchemasNamedCounts(allTableSchemas, allTableSchemas[i].tableName, i, j);
      assert allTableSchemas[i] in shared;
    }
  }

  /** Two schemas of one name both appear in the filter by that name. */
  lemma {:induction false} SchemasNamedCounts(tables: seq<TableSchema>, tableName: string, i: nat, j: nat)
    requires i < j < |tables| && tables[i].tableName == tableName && tables[j].tableName == tableName
    ensures |SchemasNamed(tables, tableName)| > 1
  {
    var rest := tables[1..];
    if i == 0 {
      assert tables[j] in SchemasNamed(rest, tableName) by {
        assert rest[j - 1] == tables[j];
      }
    } else {
      SchemasNamedCounts(rest, tableName, i - 1, j - 1);
    }
  }

  /** `checkSchemasForDuplicates` */
  method CheckSchemasForDuplicates(allTableSchemas: seq<TableSchema>, diagnostics: DiagnosticsCollector)
    modifies diagnostics
    ensures diagnostics.reported == old(diagnostics.reported) + DuplicateDiagnostics(allTableSchemas, allTableSchemas)
    ensures diagnostics.collecting == old(diagnostics.collecting)
  {
    ghost var before := diagnostics.reported;
    for i := 0 to |allTableSchemas|
      invariant diagnostics.reported == before + DuplicateDiagnostics(allTableSchemas, allTableSchemas[..i])
      invariant diagnostics.collecting == old(diagnostics.collecting)
    {
      var schema := allTableSchemas[i];
      var schemasMatchingThatName := SchemasNamed(allTableSchemas, schema.tableName);
      if |schemasMatchingThatName| > 1 {
        diagnostics.Report(DuplicateDiagnostic(allTableSchemas, schema));
      }
      DuplicateDiagnosticsStep(allTableSchemas, allTableSchemas, i);
      AppendAssociates(before, DuplicateDiagnostics(allTableSchemas, allTableSchemas[..i]),
                       DuplicateReport(allTableSchemas, schema));
    }
    assert allTableSchemas[..|allTableSchemas|] == allTableSchemas;
  }

  // ---------------------------------------------------------------------------
  // validateSubquery

  /** Every query of the subquery tree has its source text, as the diagnostics at query nodes need. */
  ghost predicate HasSourceMaps(query: Query)
    decreases query
  {
    |query.sourceMap| > 0 && forall subquery | subquery in query.subqueries :: HasSourceMaps(subquery)
  }

  /** The three checks `validateSubquery` runs on one query, in order; a throw skips the rest. */
  function OwnReports(query: Query, tables: seq<TableSchema>): Reports
    requires |query.sourceMap| > 0
  {
    AndThen(Reports(TableRefDiagnostics(query, query.referencedTables, tables), None),
            AndThen(BrokenColumnRefReports(query, tables), InsertReports(query, tables)))
  }

  /** The reports of each query's own checks, arranged like the subquery tree. */
  datatype CheckedQuery = CheckedQuery(own: Reports, subqueries: seq<CheckedQuery>)

  /** The own checks of every query of the tree, each on its own. */
  function Check(query: Query, tables: seq<TableSchema>): (checked: CheckedQuery)
    requires HasSourceMaps(query)
    ensures |checked.subqueries| == |query.subqueries|
    decreases query, 1
  {
    CheckedQuery(OwnReports(query, tables), CheckSubqueries(query, tables, |query.subqueries|))
  }

  function CheckSubqueries(query: Query, tables: seq<TableSchema>, n: nat): (checked: seq<CheckedQuery>)
    requires n <= |query.subqueries| && HasSourceMaps(query)
    ensures |checked| == n
    decreases query, 0, n
  {
    seq(n, i requires 0 <= i < n =>
             assert query.subqueries[i] in query.subqueries;
             Check(query.subqueries[i], tables))
  }

  /** The `i`th subtree of the checked tree is the checked tree of the `i`th subquery. */
  lemma {:induction false} CheckSubqueriesAt(query: Query, tables: seq<TableSchema>, n: nat, i: nat)
    requires i < n <= |query.subqueries| && HasSourceMaps(query)
    ensures query.subqueries[i] in query.subqueries
    ensures CheckSubqueries(query, tables, n)[i] == Check(query.subqueries[i], tables)
  {
  }

  /**
   * What `validateSubquery` reports over a checked tree: the query's own
   * checks, then each subtree in turn; a throw stops everything after it.
   */
  function TreeReports(tree: CheckedQuery): Reports
    decreases tree, 1
  {
    AndThen(tree.own, SubtreesReports(tree, |tree.subqueries|))
  }

  /** The loop of `validateSubquery` after its first `n` steps. */
  function SubtreesReports(tree: CheckedQuery, n: nat): Reports
    requires n <= |tree.subqueries|
    decreases tree, 0, n
  {
    if n == 0 then NoReports else AndThen(SubtreesReports(tree, n - 1), TreeReports(tree.subqueries[n - 1]))
  }

  /** `validateSubquery` */
  method ValidateSubquery(query: Query, tables: seq<TableSchema>, diagnostics: DiagnosticsCollector)
    returns (thrown: Option<Failure>)
    requires HasSourceMaps(query)
    modifies diagnostics
    ensures thrown == TreeReports(Check(query, tables)).failure
    ensures diagnostics.reported == old(diagnostics.reported) + TreeReports(Check(query, tables)).diagnostics
    ensures diagnostics.collecting == old(diagnostics.collecting)
    decreases query, 1
  {
    ghost var before := diagnostics.reported;
    ghost var tableRefs := TableRefDiagnostics(query, query.referencedTables, tables);
    ghost var columnRefs := BrokenColumnRefReports(query, tables);
    ghost var insert := InsertReports(query, tables);
    ghost var tree := Check(query, tables);
    CheckForBrokenTableRefs(query, tables, diagnostics);
    thrown := CheckForBrokenColumnRefs(query, tables, diagnostics);
    AppendAssociates(before, tableRefs, columnRefs.diagnostics);
    if thrown.Some? {
      assert tree.own == Reports(tableRefs + columnRefs.diagnostics, thrown);
      return;
    }
    thrown := CheckForIncompleteInsertValues(query, tables, diagnostics);
    AppendAssociates(before, tableRefs + columnRefs.diagnostics, insert.diagnostics);
    AndThenAfterSuccess(tableRefs, columnRefs, insert);
    if thrown.Some? {
      return;
    }
    thrown := ValidateSubqueries(query, tables, diagnostics);
    AppendAssociates(before, tree.own.diagnostics, SubtreesReports(tree, |tree.subqueries|).diagnostics);
  }

  lemma AndThenAfterSuccess(first: seq<Diagnostic>, second: Reports, third: Reports)
    requires second.failure.None?
    ensures AndThen(Reports(first, None), AndThen(second, third))
            == Reports(first + second.diagnostics + third.diagnostics, third.failure)
  {
  }

  /** The loop of `validateSubquery` over the direct subqueries. */
  method ValidateSubqueries(query: Query, tables: seq<TableSchema>, diagnostics: DiagnosticsCollector)
    returns (thrown: Option<Failure>)
    requires HasSourceMaps(query)
    modifies diagnostics
    ensures thrown == SubtreesReports(Check(query, tables), |query.subqueries|).failure
    ensures diagnostics.reported
            == old(diagnostics.reported) + SubtreesReports(Check(query, tables), |query.subqueries|).diagnostics
    ensures diagnostics.collecting == old(diagnostics.collecting)
    decreases query, 0
  {
    ghost var before := diagnostics.reported;
    ghost var tree := Check(query, tables);
    assert |tree.subqueries| == |query.subqueries|;
    thrown := None;
    for i := 0 to |query.subqueries|
      invariant thrown.None?
      invariant SubtreesReports(tree, i).failure.None?
      invariant diagnostics.reported == before + SubtreesReports(tree, i).diagnostics
      invariant diagnostics.collecting == old(diagnostics.collecting)
    {
      thrown := ValidateSubqueryAt(query, tables, tree, i, before, diagnostics);
      if thrown.Some? {
        SubtreesFailureIsFinal(tree, i + 1);
        return;
      }
    }
  }

  /** One step of the loop of `validateSubquery`: the tree of the `i`th direct subquery. */
  method ValidateSubqueryAt(query: Query, tables: seq<TableSchema>, ghost tree: CheckedQuery, i: nat,
                            ghost before: seq<Diagnostic>, diagnostics: DiagnosticsCollector)
    returns (thrown: Option<Failure>)
    requires HasSourceMaps(query) && tree == Check(query, tables) && i < |tree.subqueries|
    requires SubtreesReports(tree, i).failure.None?
    requires diagnostics.reported == before + SubtreesReports(tree, i).diagnostics
    modifies diagnostics
    ensures thrown == SubtreesReports(tree, i + 1).failure
    ensures diagnostics.reported == before + SubtreesReports(tree, i + 1).diagnostics
    ensures diagnostics.collecting == old(diagnostics.collecting)
    decreases query, 0, i
  {
    var subquery := query.subqueries[i];
    CheckSubqueriesAt(query, tables, |query.subqueries|, i);
    thrown := ValidateSubquery(subquery, tables, diagnostics);
    AppendAssociates(before, SubtreesReports(tree, i).diagnostics, TreeReports(tree.subqueries[i]).diagnostics);
  }

  lemma {:induction false} SubtreesFailureIsFinal(tree: CheckedQuery, i: nat)
    requires i <= |tree.subqueries| && SubtreesReports(tree, i).failure.Some?
    ensures SubtreesReports(tree, |tree.subqueries|) == SubtreesReports(tree, i)
    decreases |tree.subqueries| - i
  {
    if i < |tree.subqueries| {
      SubtreesFailureIsFinal(tree, i + 1);
    }
  }

  // The order of validation

  /** The queries of the tree in the order `validateSubquery` checks them: each before its subqueries. */
  function ValidationOrder(query: Query): seq<Query>
    decreases query, 1
  {
    [query] + SubtreeOrders(query, |query.subqueries|)
  }

  function SubtreeOrders(query: Query, n: nat): seq<Query>
    requires n <= |query.subqueries|
    decreases query, 0, n
  {
    if n == 0 then [] else SubtreeOrders(query, n - 1) + ValidationOrder(query.subqueries[n - 1])
  }

  /** Every query listed has its source text. */
  predicate SourceMapped(queries: seq<Query>) {
    forall q | q in queries :: |q.sourceMap| > 0
  }

  /** Every query of the validation order has its source text. */
  lemma {:induction false} ValidationOrderSourceMapped(query: Query)
    requires HasSourceMaps(query)
    ensures SourceMapped(ValidationOrder(query))
    decreases query, 1
  {
    SubtreeOrdersSourceMapped(query, |query.subqueries|);
  }

  lemma {:induction false} SubtreeOrdersSourceMapped(query: Query, n: nat)
    requires n <= |query.subqueries| && HasSourceMaps(query)
    ensures SourceMapped(SubtreeOrders(query, n))
    decreases query, 0, n
  {
    if n > 0 {
      assert query.subqueries[n - 1] in query.subqueries;
      SubtreeOrdersSourceMapped(query, n - 1);
      ValidationOrderSourceMapped(query.subqueries[n - 1]);
    }
  }

  /** The own checks of one query, as a function value. */
  function OwnReportsIn(tables: seq<TableSchema>): Query --> Reports {
    (query: Query) requires |query.sourceMap| > 0 => OwnReports(query, tables)
  }

  /** The own checks of each query listed, in order. */
  function OwnReportsOf(queries: seq<Query>, tables: seq<TableSchema>): (rs: seq<Reports>)
    requires SourceMapped(queries)
    ensures |rs| == |queries|
  {
    assert forall i | 0 <= i < |queries| :: queries[i] in queries;
    Map(OwnReportsIn(tables), queries)
  }

  lemma OwnReportsOfConcat(a: seq<Query>, b: seq<Query>, tables: seq<TableSchema>)
    requires SourceMapped(a) && SourceMapped(b)
    ensures SourceMapped(a + b)
    ensures OwnReportsOf(a + b, tables) == OwnReportsOf(a, tables) + OwnReportsOf(b, tables)
  {
    var ab := a + b;
    assert SourceMapped(ab) by {
      forall q | q in ab ensures |q.sourceMap| > 0 {
        assert q in a || q in b;
      }
    }
    assert forall i | 0 <= i < |a| :: a[i] in a;
    assert forall i | 0 <= i < |b| :: b[i] in b;
    MapConcat(OwnReportsIn(tables), a, b);
  }

  /** `f` applied to each element, in order. */
  function Map<A, B>(f: A --> B, s: seq<A>): (r: seq<B>)
    requires forall i | 0 <= i < |s| :: f.requires(s[i])
    ensures |r| == |s|
    ensures forall i | 0 <= i < |s| :: r[i] == f(s[i])
  {
    if s == [] then [] else [f(s[0])] + Map(f, s[1..])
  }

  lemma MapConcat<A, B>(f: A --> B, a: seq<A>, b: seq<A>)
    requires forall i | 0 <= i < |a| :: f.requires(a[i])
    requires forall i | 0 <= i < |b| :: f.requires(b[i])
    ensures forall i | 0 <= i < |a + b| :: f.requires((a + b)[i])
    ensures Map(f, a + b) == Map(f, a) + Map(f, b)
  {
    assert forall i | 0 <= i < |a + b| :: (a + b)[i] == if i < |a| then a[i] else b[i - |a|];
  }

  /** The reports of a checked tree, listed each before its subtrees. */
  function PreOrder(tree: CheckedQuery): seq<Reports>
    decreases tree, 1
  {
    [tree.own] + PreOrders(tree, |tree.subqueries|)
  }

  function PreOrders(tree: CheckedQuery, n: nat): seq<Reports>
    requires n <= |tree.subqueries|
    decreases tree, 0, n
  {
    if n == 0 then [] else PreOrders(tree, n - 1) + PreOrder(tree.subqueries[n - 1])
  }

  /** The reports in turn, stopping at the first that throws. */
  function RunAll(rs: seq<Reports>): Reports {
    if rs == [] then NoReports else AndThen(rs[0], RunAll(rs[1..]))
  }

  lemma AndThenAssociates(a: Reports, b: Reports, c: Reports)
    ensures AndThen(AndThen(a, b), c) == AndThen(a, AndThen(b, c))
  {
  }

  lemma {:induction false} RunAllConcat(a: seq<Reports>, b: seq<Reports>)
    ensures RunAll(a + b) == AndThen(RunAll(a), RunAll(b))
  {
    if a == [] {
      assert a + b == b;
    } else {
      assert (a + b)[1..] == a[1..] + b;
      RunAllConcat(a[1..], b);
      AndThenAssociates(a[0], RunAll(a[1..]), RunAll(b));
    }
  }

  /** The loop over the subtrees runs their reports one after the other, each subtree in pre-order. */
  lemma {:induction false} TreeReportsInPreOrder(tree: CheckedQuery)
    ensures TreeReports(tree) == RunAll(PreOrder(tree))
    decreases tree, 1
  {
    PreOrdersInOrder(tree, |tree.subqueries|);
    assert PreOrder(tree)[1..] == PreOrders(tree, |tree.subqueries|);
  }

  lemma {:induction false} PreOrdersInOrder(tree: CheckedQuery, n: nat)
    requires n <= |tree.subqueries|
    ensures SubtreesReports(tree, n) == RunAll(PreOrders(tree, n))
    decreases tree, 0, n
  {
    if n > 0 {
      PreOrdersInOrder(tree, n - 1);
      TreeReportsInPreOrder(tree.subqueries[n - 1]);
      RunAllConcat(PreOrders(tree, n - 1), PreOrder(tree.subqueries[n - 1]));
    }
  }

  /** The checked tree, listed in pre-order, holds the own checks of the queries in validation order. */
  lemma {:induction false} CheckInValidationOrder(query: Query, tables: seq<TableSchema>)
    requires HasSourceMaps(query)
    ensures SourceMapped(ValidationOrder(query))
    ensures PreOrder(Check(query, tables)) == OwnReportsOf(ValidationOrder(query), tables)
    decreases query, 1
  {
    ValidationOrderSourceMapped(query);
    SubtreesInValidationOrder(query, tables, |query.subqueries|);
    assert ValidationOrder(query)[1..] == SubtreeOrders(query, |query.subqueries|);
  }

  lemma {:induction false} SubtreesInValidationOrder(query: Query, tables: seq<TableSchema>, n: nat)
    requires n <= |query.subqueries| && HasSourceMaps(query)
    ensures SourceMapped(SubtreeOrders(query, n))
    ensures PreOrders(Check(query, tables), n) == OwnReportsOf(SubtreeOrders(query, n), tables)
    decreases query, 0, n
  {
    SubtreeOrdersSourceMapped(query, n);
    if n > 0 {
      var subquery := query.subqueries[n - 1];
      var tree := Check(query, tables);
      CheckSubqueriesAt(query, tables, |query.subqueries|, n - 1);
      assert tree.subqueries[n - 1] == Check(subquery, tables);
      SubtreesInValidationOrder(query, tables, n - 1);
      CheckInValidationOrder(subquery, tables);
      var before := SubtreeOrders(query, n - 1);
      OwnReportsOfConcat(before, ValidationOrder(subquery), tables);
      assert PreOrders(tree, n) == PreOrders(tree, n - 1) + PreOrder(Check(subquery, tables));
      assert SubtreeOrders(query, n) == before + ValidationOrder(subquery);
    }
  }

  /**
   * `validateSubquery` runs the own checks of every query of the tree, each
   * query before its own subqueries and the subtrees in order, and stops at
   * the first check that throws.
   */
  lemma ValidateSubqueryInOrder(query: Query, tables: seq<TableSchema>)
    requires HasSourceMaps(query)
    ensures SourceMapped(ValidationOrder(query))
    ensures TreeReports(Check(query, tables)) == RunAll(OwnReportsOf(ValidationOrder(query), tables))
  {
    TreeReportsInPreOrder(Check(query, tables));
    CheckInValidationOrder(query, tables);
  }

  /** The two lists hold the same elements, each as often. */
  predicate SameElements<T(==)>(a: seq<T>, b: seq<T>) {
    multiset(a) == multiset(b)
  }

  /** The validation order visits the query and each of its transitive subqueries exactly once. */
  lemma {:induction false} ValidationOrderCovers(query: Query)
    ensures SameElements(ValidationOrder(query), [query] + GetAllSubqueries(query))
    decreases query, 1
  {
    SubtreeOrdersCover(query, |query.subqueries|);
  }

  lemma {:induction false} SubtreeOrdersCover(query: Query, n: nat)
    requires n <= |query.subqueries|
    ensures SameElements(SubtreeOrders(query, n), SubqueryBlocks(query, n))
    decreases query, 0, n
  {
    if n > 0 {
      var subquery := query.subqueries[n - 1];
      assert subquery in query.subqueries;
      ValidationOrderCovers(subquery);
      SubtreeOrdersCover(query, n - 1);
      CoverStep(query, n);
    }
  }

  /** The step of `SubtreeOrdersCover`, from the facts for the first `n - 1` subtrees and for the `n`th. */
  lemma CoverStep(query: Query, n: nat)
    requires 0 < n <= |query.subqueries|
    ensures SameElements(SubtreeOrders(query, n - 1), SubqueryBlocks(query, n - 1)) &&
            SameElements(ValidationOrder(query.subqueries[n - 1]),
                         [query.subqueries[n - 1]] + GetAllSubqueries(query.subqueries[n - 1]))
            ==> SameElements(SubtreeOrders(query, n), SubqueryBlocks(query, n))
  {
    var subquery := query.subqueries[n - 1];
    if SameElements(SubtreeOrders(query, n - 1), SubqueryBlocks(query, n - 1)) &&
       SameElements(ValidationOrder(subquery), [subquery] + GetAllSubqueries(subquery)) {
      MultisetsOfStep(query, n);
      SumOfEquals(multiset(SubtreeOrders(query, n)), multiset(SubtreeOrders(query, n - 1)), multiset(ValidationOrder(subquery)),
                  multiset(SubqueryBlocks(query, n)), multiset(SubqueryBlocks(query, n - 1)),
                  multiset([subquery] + GetAllSubqueries(subquery)));
    }
  }

  lemma SumOfEquals<T>(left: multiset<T>, a: multiset<T>, b: multiset<T>, right: multiset<T>, c: multiset<T>, d: multiset<T>)
    requires left == a + b && right == c + d && a == c && b == d
    ensures left == right
  {
  }

  /** One step of each of the two lists compared above, counted as multisets. */
  lemma {:induction false} MultisetsOfStep(query: Query, n: nat)
    requires 0 < n <= |query.subqueries|
    ensures var subquery := query.subqueries[n - 1];
            multiset(SubtreeOrders(query, n)) == multiset(SubtreeOrders(query, n - 1)) + multiset(ValidationOrder(subquery))
    ensures var subquery := query.subqueries[n - 1];
            multiset(SubqueryBlocks(query, n))
              == multiset(SubqueryBlocks(query, n - 1)) + multiset([subquery] + GetAllSubqueries(subquery))
  {
    var subquery := query.subqueries[n - 1];
    var blocks, below := SubqueryBlocks(query, n - 1), GetAllSubqueries(subquery);
    assert SubqueryBlocks(query, n) == blocks + below + [subquery];
    assert multiset(blocks + below + [subquery]) == multiset(blocks) + multiset([subquery] + below);
  }

  // ---------------------------------------------------------------------------
  // validateQuery

  /** `subquery.exposedAsTable` is truthy: the subquery is a CTE with a non-empty name. */
  predicate IsExposed(query: Query) {
    query.exposedAsTable.Some? && query.exposedAsTable.value != ""
  }

  /** The subqueries exposed as tables, in order. */
  function Exposed(queries: seq<Query>): (exposed: seq<Query>)
    ensures forall q :: q in exposed <==> q in queries && IsExposed(q)
    ensures forall k | 0 <= k < |exposed| :: exposed[k].exposedAsTable.Some? && exposed[k].exposedAsTable.value != ""
  {
    if queries == [] then []
    else (if IsExposed(queries[0]) then [queries[0]] else []) + Exposed(queries[1..])
  }

  /** The schema of each exposed subquery, resolved against `tables`. */
  function ResolveEach(exposed: seq<Query>, tables: seq<TableSchema>): (rs: seq<Result<TableSchema>>)
    requires forall k | 0 <= k < |exposed| :: exposed[k].exposedAsTable.Some?
    ensures |rs| == |exposed|
    ensures forall k | 0 <= k < |exposed| :: rs[k] == ResolveSubqueryToTableSchema(exposed[k], tables)
  {
    if exposed == [] then []
    else [ResolveSubqueryToTableSchema(exposed[0], tables)] + ResolveEach(exposed[1..], tables)
  }

  /** The values of the results in order, or the first failure. */
  function Collect<T>(rs: seq<Result<T>>): Result<seq<T>> {
    if rs == [] then Ok([])
    else
      var head :- rs[0];
      var rest :- Collect(rs[1..]);
      Ok([head] + rest)
  }

  lemma {:induction false} CollectOk<T>(rs: seq<Result<T>>)
    ensures Collect(rs).Ok? <==> forall k | 0 <= k < |rs| :: rs[k].Ok?
    ensures Collect(rs).Ok? ==> |Collect(rs).value| == |rs| && forall k | 0 <= k < |rs| :: Collect(rs).value[k] == rs[k].value
  {
    if rs != [] {
      CollectOk(rs[1..]);
      assert forall k | 1 <= k < |rs| :: rs[k] == rs[1..][k - 1];
    }
  }

  lemma {:induction false} CollectFirstFailure<T>(rs: seq<Result<T>>)
    requires Collect(rs).Err?
    ensures exists k | 0 <= k < |rs| :: rs[k] == Err(Collect(rs).failure) && forall j | 0 <= j < k :: rs[j].Ok?
  {
    if rs[0].Ok? {
      CollectFirstFailure(rs[1..]);
      var k :| 0 <= k < |rs[1..]| && rs[1..][k] == Err(Collect(rs).failure) && forall j | 0 <= j < k :: rs[1..][j].Ok?;
      assert rs[k + 1] == rs[1..][k];
      assert forall j | 1 <= j < k + 1 :: rs[j] == rs[1..][j - 1];
    }
  }

  /**
   * The `map` and `filter` of `validateQuery`: the schema of each subquery
   * exposed as a table, in order, each resolved against the declared tables
   * only; the first that throws ends it.
   */
  function SyntheticSchemas(subqueries: seq<Query>, tables: seq<TableSchema>): Result<seq<TableSchema>> {
    Collect(ResolveEach(Exposed(subqueries), tables))
  }

  /** The mapping throws exactly when an exposed subquery returns a `*` of an undeclared table. */
  lemma SyntheticSchemasFail(subqueries: seq<Query>, tables: seq<TableSchema>)
    ensures SyntheticSchemas(subqueries, tables).Ok? <==>
              forall q | q in Exposed(subqueries) :: !HasBrokenStar(q.returnedColumns, tables)
  {
    var exposed := Exposed(subqueries);
    CollectOk(ResolveEach(exposed, tables));
    if SyntheticSchemas(subqueries, tables).Ok? {
      forall q | q in exposed ensures !HasBrokenStar(q.returnedColumns, tables) {
        var k :| 0 <= k < |exposed| && exposed[k] == q;
      }
    }
  }

  /** Without a throw, one schema per exposed subquery, in order, each resolved from it and named after it. */
  lemma SyntheticSchemasEach(subqueries: seq<Query>, tables: seq<TableSchema>)
    requires SyntheticSchemas(subqueries, tables).Ok?
    ensures var schemas := SyntheticSchemas(subqueries, tables).value;
            var exposed := Exposed(subqueries);
            && |schemas| == |exposed|
            && forall k | 0 <= k < |exposed| ::
                 && ResolveSubqueryToTableSchema(exposed[k], tables) == Ok(schemas[k])
                 && schemas[k].tableName == exposed[k].exposedAsTable.value
  {
    CollectOk(ResolveEach(Exposed(subqueries), tables));
  }

  /** A throw is the failure of the first exposed subquery that cannot be resolved. */
  lemma SyntheticSchemasFirstFailure(subqueries: seq<Query>, tables: seq<TableSchema>)
    requires SyntheticSchemas(subqueries, tables).Err?
    ensures exists k | 0 <= k < |Exposed(subqueries)| ::
              && ResolveSubqueryToTableSchema(Exposed(subqueries)[k], tables) == Err(SyntheticSchemas(subqueries, tables).failure)
              && forall j | 0 <= j < k :: ResolveSubqueryToTableSchema(Exposed(subqueries)[j], tables).Ok?
  {
    var exposed := Exposed(subqueries);
    var rs := ResolveEach(exposed, tables);
    CollectFirstFailure(rs);
    var k :| 0 <= k < |rs| && rs[k] == Err(Collect(rs).failure) && forall j | 0 <= j < k :: rs[j].Ok?;
    assert ResolveSubqueryToTableSchema(exposed[k], tables) == Err(SyntheticSchemas(subqueries, tables).failure);
    forall j | 0 <= j < k ensures ResolveSubqueryToTableSchema(exposed[j], tables).Ok? {
      assert rs[j].Ok?;
    }
  }

  /**
   * What `validateQuery` reports: the checks of every query of the tree,
   * then the result-type check, all against the declared tables and the
   * schemas of the subqueries exposed as tables.
   */
  function ValidateQueryReports(invocation: QueryInvocation, tables: seq<TableSchema>): Reports
    requires HasSourceMaps(invocation.query)
  {
    match SyntheticSchemas(GetAllSubqueries(invocation.query), tables)
    case Err(f) => Reports([], Some(f))
    case Ok(tableExpressions) =>
      var allTables := tables + tableExpressions;
      AndThen(TreeReports(Check(invocation.query, allTables)), InvocationReports(invocation, allTables))
  }

  /** `validateQuery` */
  method ValidateQuery(invocation: QueryInvocation, tables: seq<TableSchema>, diagnostics: DiagnosticsCollector)
    returns (thrown: Option<Failure>)
    requires HasSourceMaps(invocation.query)
    modifies diagnostics
    ensures thrown == ValidateQueryReports(invocation, tables).failure
    ensures diagnostics.reported == old(diagnostics.reported) + ValidateQueryReports(invocation, tables).diagnostics
    ensures diagnostics.collecting == old(diagnostics.collecting)
  {
    var tableExpressions := SyntheticSchemas(GetAllSubqueries(invocation.query), tables);
    if tableExpressions.Err? {
      return Some(tableExpressions.failure);
    }
    var allTables := tables + tableExpressions.value;
    ghost var before := diagnostics.reported;
    thrown := ValidateSubquery(invocation.query, allTables, diagnostics);
    if thrown.Some? {
      return;
    }
    thrown := ValidateQueryInvocation(invocation, allTables, diagnostics);
    AppendAssociates(before, TreeReports(Check(invocation.query, allTables)).diagnostics,
                     InvocationReports(invocation, allTables).diagnostics);
  }

  /**
   * Unless resolving the exposed subqueries throws, `validateQuery` runs the
   * own checks of every query of the tree in validation order and then the
   * result-type check, stopping at the first throw, all against the declared
   * tables followed by the subqueries' schemas.
   */
  lemma ValidateQueryInOrder(invocation: QueryInvocation, tables: seq<TableSchema>)
    requires HasSourceMaps(invocation.query)
    ensures SourceMapped(ValidationOrder(invocation.query))
    ensures var schemas := SyntheticSchemas(GetAllSubqueries(invocation.query), tables);
            && (schemas.Err? ==> ValidateQueryReports(invocation, tables) == Reports([], Some(schemas.failure)))
            && (schemas.Ok? ==>
                  var allTables := tables + schemas.value;
                  ValidateQueryReports(invocation, tables)
                  == AndThen(RunAll(OwnReportsOf(ValidationOrder(invocation.query), allTables)),
                             InvocationReports(invocation, allTables)))
  {
    ValidationOrderSourceMapped(invocation.query);
    var schemas := SyntheticSchemas(GetAllSubqueries(invocation.query), tables);
    if schemas.Ok? {
      ValidateSubqueryInOrder(invocation.query, tables + schemas.value);
    }
  }
}

=== FILE: wrappers.dfy ===
/** Optional values: JavaScript's `undefined`/`null` next to a present value. */
module Wrappers {

  datatype Option<+T> = None | Some(value: T) {
    function GetOr(default: T): T {
      match this
      case Some(v) => v
      case None => default
    }
  }
}
